=== FILE: README.md ===
# vault-secrets-operator in Dafny

A Dafny model of the decision logic of the vault-secrets-operator. The operator is a Kubernetes controller. It watches `VaultSecret` resources, reads the secret each one names from HashiCorp Vault, and writes it into a Kubernetes `Secret`.

## What is modelled

- **Reading from the KV secrets engine.** All three generations are modelled: the package-level client in `pkg/vault`, the `vault/client.go` client and the `vault/kv.go` client.
  - The path comes from a preflight: the mount path, the KV version, and the `data` segment spliced in for version 2.
  - Namespace composition.
  - Unwrapping the version 2 envelope.
  - Key filtering.
  - Converting values: objects to JSON, strings verbatim or base64-decoded, numbers to their digits, booleans to `true`/`false`, anything else an error.
  - The empty-result error.
  - Where the generations agree: on a version 2 mount all three read the same values, and the two renew loops sleep equally long by default (`KvGenerations`).
- **The PKI and database adapters.** The issue request and the certificate-field whitelist, the `expiration` parsing, the credential path, and the credential expiry.
- **The JKS keystore and truststore builder.**
  - Password reuse.
  - Building a keystore from RSA private keys and their chains.
  - Building a truststore from certificates and from Vault CA certificates stored under `pz_vault:` aliases.
  - Comparing stores while ignoring creation times.
  - Keeping the existing encoded bytes when nothing changed.
  - The shape of generated passwords.
- **Both reconcilers.**
  - The current one (`internal/controller`): finalizers, client selection, the restricted-namespace skip, engine dispatch, PKI validation, requeue computation, secret building, the Merge and Replace strategies with their skip-if-unchanged rule, the single status condition, metrics, and the event filter.
  - The legacy one (`controllers`): the truststore fallback, JKS names, category data, merge, and the unconditional update.
- **Client configuration** in `vault/vault.go`:
  - the auth-method decision tree (token, kubernetes, approle, userpass, azure, aws, gcp);
  - the required-setting errors;
  - the defaults;
  - the precedence between environment variables and files for approle ids.
- **Build information:** the comma-separated build-information string.

### How the outside world appears

Everything outside the operator's own logic is a parameter. That covers Vault HTTP calls, the Kubernetes API, file reads, the clock, PEM decoding, PKCS conversion, JKS encoding, JSON encoding, template evaluation, float and duration parsing, and cloud login data.

- **Bundles.** These parameters are grouped in records of functions: `VaultConfig.Io`, `Keystore.JksIo`, `Controller.Cluster`, `LegacyController.Cluster`, and the `VaultClient` records.
- **Failures.** A Go error is `Failure.Error(message)` and a Go panic is `Failure.Panic(message)`.
- **Strings and bytes.** A Go `string` and a Go `[]byte` are both Dafny `string`, one character per byte.
- **Time.** Durations are integer nanoseconds. `time.Duration` multiplication wraps at 64 bits (`GoTime.Wrap64`), and `time.Until` saturates (`GoTime.Saturate64`).
- **Map iteration.** Go's map iteration order is unspecified. The model iterates in ascending key order (`StringOrder.Sorted`). Where several keys could fail, it therefore reports one of the errors Go could report. Results are stated as properties of the whole key set, so they do not depend on that order.
- **Helpers defined once.** The three identical copies of `kvPreflightVersionRequest`, `isKVv2` and `addPrefixToVKVPath` are modelled once, in module `KvHelpers`.

### Behaviour worth noting

- **PKI requeue.** When a certificate expires within its renewal margin, the reconcile result carries `RequeueAfter = 0` (internal/controller/vaultsecret_controller.go:219-221). In controller-runtime a zero delay means no timed requeue, not an immediate one. `Controller.PkiRequeue` returns 0 in that case.
- **Database adapter.** `GetDatabaseCreds` reads only `<path>/creds/<role>` (vault/database.go:10). It never reads the database role or its configuration.
- **gcp.** The gcp client keeps a re-login closure, `requestToken` (vault/vault.go:819-835). It sets no `tokenMaxTTL`, so that field stays 0 (vault/vault.go:811-837).

## Model

| member | source | states |
|---|---|---|
| Values.Truncate | vault/client.go:37-39 | float64-to-integer conversion truncates toward zero: the result is within one of x, on the side of zero |
| Values.Lookup | vault/kv.go:76-79 | indexing a Go map reads a missing key as nil and a present key as its value |
| Values.Getenv | pkg/vault/vault.go:57-62 | an unset environment variable reads as the empty string |
| Values.AsObject | vault/client.go:86 | the two-value type assertion to a map succeeds exactly on objects and then yields the object's own fields |
| GoStrings.TrimPrefix | pkg/vault/kvhelpers.go:92 | when s has the prefix, the prefix followed by the result is s; otherwise s is unchanged |
| GoStrings.TrimSuffix | controllers/vaultsecret_controller.go:322-327 | when s has the suffix, the result followed by the suffix is s; otherwise s is unchanged |
| GoStrings.IndexOf | version/version.go:21 | the position found holds the character, and no earlier position does |
| GoStrings.Index | controllers/vaultsecret_controller.go:329 | strings.Index: -1 exactly when the substring does not occur; otherwise the substring starts there and fits inside the string |
| GoStrings.IndexFirst | controllers/vaultsecret_controller.go:329 | no occurrence of the substring starts before the position strings.Index returns, so it is the first one |
| GoStrings.Split | version/version.go:21 | splitting always yields at least one piece |
| GoStrings.SplitPiecesHaveNoSeparator | version/version.go:21 | no piece of a split contains the separator |
| GoStrings.JoinSplit | pkg/vault/vault.go:170-176 | joining the pieces of a split with the separator restores the input |
| GoStrings.SplitJoin | pkg/vault/vault.go:170-176 | splitting a join of separator-free parts restores the parts |
| GoStrings.SplitAtFirst | pkg/vault/vault.go:170-176 | a separator-free prefix before the first separator becomes the first piece |
| GoStrings.ReplaceFirst | controllers/vaultsecret_controller.go:329 | the first occurrence of the pattern is replaced: with none the string is unchanged; otherwise the text before the first occurrence, then the replacement, then the text after it; a same-length replacement keeps the length |
| GoStrings.ReplaceFirstChanges | controllers/vaultsecret_controller.go:329 | replacing an occurring pattern with a different one of the same length always changes the string |
| GoStrings.NatDigits | pkg/vault/vault.go:186-187 | a natural number's decimal form is a non-empty digit string |
| GoStrings.DigitsRoundTrip | pkg/vault/vault.go:186-187 | reading back the decimal digits of n gives n |
| GoStrings.Atoi | pkg/vault/vault.go:97 | strconv.Atoi accepts only values in the signed 64-bit range and rejects the empty string |
| GoStrings.AtoiItoa | pkg/vault/vault.go:97 | Atoi inverts Itoa on every 64-bit integer |
| GoStrings.EscapeChar | vault/vault.go:156-159 | as strconv.Quote does for ASCII: printable characters other than `"` and `\` are copied unchanged; `"` and `\` get a backslash; other control characters and DEL become a two- or four-character escape. The model also copies every byte from 0x80 up unchanged, which Go does only for printable UTF-8 (see "## Left out") |
| GoStrings.HexValue | vault/vault.go:156-159 | a lower-case hex digit reads back as the value HexDigit wrote it for |
| GoStrings.UnescapeEscape | vault/vault.go:156-159 | every escape strconv.Quote writes for a character reads back as that character, so the quoted message names the rejected input unambiguously |
| GoStrings.Quote | vault/vault.go:156-159 | the quoted form starts and ends with a double quote and is at least two characters longer than the input |
| GoStrings.QuotePlain | vault/vault.go:156-159 | a string of characters that need no escape is quoted by adding the two double quotes and nothing else |
| GoStrings.QuoteBodyLengthIffPlain | vault/vault.go:156-159 | the quoted body is as long as the input exactly when no character needed an escape |
| GoStrings.ScanUint | vault/vault.go:156-159 | strconv's digit loop: a scan that reaches the end has read only digits and holds a value within 64 bits; a string of digits never stops at a non-digit; a leading non-digit stops it at once |
| GoStrings.ParseIntReason | vault/vault.go:156-159 | the reason is "value out of range" or "invalid syntax": nothing after the sign, or a non-digit right after it, is a syntax error; digits alone that Atoi rejects are out of range |
| GoStrings.ParseIntErrorMessage | vault/vault.go:156-159 | the error text opens with `strconv.<fn>: parsing "`, closes with the quote that ends the quoted input, then `: ` and the reason ParseIntReason gives, and is at least as long as those parts together with the input and its two quotes |
| GoStrings.OutOfRangeBeforeSyntax | vault/vault.go:156-159 | digits whose value exceeds 2^64 - 1 make the input out of range even when a non-digit follows them, because the overflow is met first |
| GoStrings.SyntaxBeforeOutOfRange | vault/vault.go:156-159 | a non-digit met while the digits before it still fit 64 bits makes the input a syntax error |
| GoStrings.ReadDigitsValue | vault/vault.go:156-159 | reading the digits left to right, as the loop does, gives their decimal value |
| GoStrings.ParseBool | vault/vault.go:111-116 | strconv.ParseBool accepts exactly Go's six spellings of true and six of false |
| GoTime.Wrap64 | internal/controller/vaultsecret_controller.go:98-102 | the result is in the int64 range, equals x when x fits, and is congruent to x modulo 2^64 |
| GoTime.Saturate64 | internal/controller/vaultsecret_controller.go:219 | the result clamps x into the int64 range and is x when it fits |
| GoTime.Until | internal/controller/vaultsecret_controller.go:219 | time.Until is the exact difference when it fits, and otherwise the int64 bound on its side |
| GoTime.Seconds | vault/database.go:24 | a count of seconds scaled by time.Second is always in the int64 range, is the exact product when that fits, and otherwise is the product wrapped modulo 2^64 |
| Paths.NonEmpty | pkg/vault/kvhelpers.go:86-94 | the kept path elements are all non-empty |
| Paths.CleanElementsPlain | pkg/vault/kvhelpers.go:86-94 | path.Clean over plain elements only drops the empty ones |
| Paths.CleanPlainPath | pkg/vault/kvhelpers.go:86-94 | path.Clean of a relative path of plain elements is the slash-join of its non-empty elements |
| Paths.SplitAround | pkg/vault/kvhelpers.go:86-94 | splitting at one separator occurrence distributes over the two sides |
| Paths.JoinHead | pkg/vault/kvhelpers.go:86-94 | a join whose first part is non-empty begins with that part's first character |
| Base64.SextetOf | vault/client.go:110 | every base64 alphabet character stands for a 6-bit value |
| Base64.CharOf | vault/client.go:110 | each 6-bit value has an alphabet character that stands for it (the inverse of SextetOf) |
| Base64.StripNewlines | vault/client.go:110 | the decoder's view of the input holds no carriage return and no line feed |
| Base64.Encode | vault/client.go:110 | the standard encoding is whole groups of four characters |
| Base64.EncodeHasNoNewlines | vault/client.go:110 | an encoding has nothing the decoder would skip |
| Base64.DecodeEncode | vault/client.go:110 | decoding the standard encoding of any byte string gives back the bytes (section 4 of RFC 4648) |
| Base64.DecodeGroupsEncode | vault/client.go:110 | the group decoder inverts the encoder group by group, padding included |
| Base64.DecodeOneByte | vault/client.go:110 | a one-byte input round-trips through its "==" padded group |
| Base64.DecodeTwoBytes | vault/client.go:110 | a two-byte input round-trips through its "=" padded group |
| Base64.GroupRoundTrip | vault/client.go:110 | a full group of four characters decodes to the three bytes it encodes |
| StringOrder.BelowReflexive | jks/keystore.go:109-120 | the byte-wise string order is reflexive |
| StringOrder.BelowTotal | jks/keystore.go:109-120 | any two strings are comparable |
| StringOrder.BelowAntisymmetric | jks/keystore.go:109-120 | strings below each other are equal |
| StringOrder.BelowTransitive | jks/keystore.go:109-120 | the order is transitive |
| StringOrder.LeastExists | jks/keystore.go:109-120 | every non-empty set of strings has a least element |
| StringOrder.Least | jks/keystore.go:109-120 | the chosen element belongs to the set and is below every member |
| StringOrder.LeastUnique | jks/keystore.go:109-120 | the least element is unique |
| StringOrder.Sorted | jks/keystore.go:109-120 | sort.Strings over a key set lists exactly the set's members, ascending, each once |
| Convert.ContainsKey | vault/client.go:138-146 | `contains` holds exactly when some list entry equals the key |
| Convert.ConvertValue | vault/client.go:102-123 | object to JSON, string verbatim or base64-decoded, number to its literal, bool to "true"/"false"; any other value, or bad base64, is the matching error (the base64 error carries no byte offset) |
| Convert.ConvertData | vault/client.go:98-125 | success iff every selected value converts; the result has exactly the selected keys (all keys for an empty list), each the conversion of its value; a failure is some selected key's error |
| Convert.ConvertExpected | vault/client.go:98-125 | when every selected value converts to the expected text, the conversion is exactly the expected map |
| Convert.ConvertTextVerbatim | vault/client.go:108-109 | text values read without isBinary are copied byte for byte |
| Convert.EncodeAll | vault/client.go:110 | storing every value base64-encoded keeps the key set |
| Convert.ConvertBinaryRoundTrip | vault/client.go:108-116 | base64-encoded values read with isBinary come back as the original bytes |
| Convert.ConvertFilterMonotone | vault/client.go:99-100 | adding keys to a non-empty filter only adds entries to a successful result |
| KvHelpers.MountPathOf | pkg/vault/kvhelpers.go:47-50 | an absent mount path reads as "", a string is taken, anything else is a panic |
| KvHelpers.OptionsVersion | pkg/vault/kvhelpers.go:51-65 | absent options, or an options object whose version is absent or a string, give a version: 2 exactly for the string "2", otherwise 1; options that are not a map, or a version that is neither absent nor a string, fail the type assertion and panic |
| KvHelpers.KvPreflightVersion | pkg/vault/kvhelpers.go:15-68 | a 404 gives mount "" and version 1; other request and parse errors propagate; a nil answer is an error; a mount path that is not a string is the type-assertion panic; otherwise the options decide as OptionsVersion says: a panic for options that are not a map or a version that is not a string, or else the mount path with version 1 or 2 |
| KvHelpers.IsKVv2 | pkg/vault/kvhelpers.go:74-81 | isKVv2 is true exactly when the preflight found version 2, carries the preflight's mount path, and propagates its errors |
| KvHelpers.PreflightVersionMapping | pkg/vault/kvhelpers.go:51-65 | an options version of "2" is version 2; any other version string is version 1 |
| KvHelpers.PreflightDefaultsToVersion1 | pkg/vault/kvhelpers.go:51-65 | missing options, or options without a version, mean version 1 |
| KvHelpers.VersionParams | vault/client.go:66-68 | the version parameter is present iff the version is positive, and carries one value |
| KvHelpers.VersionParamRoundTrip | vault/client.go:66-68 | the version Vault receives reads back as the requested version |
| KvHelpers.AddPrefixAtMount | pkg/vault/kvhelpers.go:86-94 | a path equal to the mount, with or without its trailing slash, becomes mount/prefix |
| KvHelpers.JoinBelowMount | pkg/vault/kvhelpers.go:86-94 | the text joined below the mount is a slash-join of elements with an empty element after the mount |
| KvHelpers.AddPrefixBelowMount | pkg/vault/kvhelpers.go:86-94 | a path below the mount gets the prefix inserted right after the mount, the rest of the path kept |
| ClientKV.ReadRequestFor | vault/client.go:51-69 | preflight errors propagate; version 1 reads the path as given with no parameters; version 2 reads the path with "data" spliced in after the mount, with a version parameter only for a positive version |
| ClientKV.SecretData | vault/client.go:83-90 | version 1 converts the whole response; version 2 converts its `data` object, and a missing or non-object `data` is "could not parse secret" |
| ClientKV.GetSecret | vault/client.go:45-135 | preflight errors, read errors and a nil read are reported; a found response whose unwrapped payload converts to non-empty values gives exactly those values, an empty conversion is "invalid secret data", and unwrap and conversion errors propagate; success implies the read was found |
| ClientKV.SecretEngineIgnored | vault/client.go:45-135 | the secret engine argument has no effect on the result |
| ClientKV.V2WithoutDataObject | vault/client.go:83-90 | a version 2 response whose `data` is not an object fails with "could not parse secret" |
| ClientKV.RenewDelay | vault/client.go:30-42 | the renew loop sleeps the renewal interval after success and the retry interval after failure, truncated to whole seconds and scaled by time.Second with the 64-bit wrap; when that fits, a whole number of seconds no longer than the interval |
| ClientKV.RenewDelayDefaults | vault/client.go:30-42 | with the defaults, renewal waits half the lease in whole seconds (exactly, when it fits 64 bits) and a retry waits 30 seconds |
| KvGenerations.Kv2FoundGivesData | vault/client.go:45-135 | a version 2 response whose data object converts to non-empty values yields exactly those values from the middle client and from the namespaced reader |
| KvGenerations.Kv2GenerationsAgree | pkg/vault/vault.go:161-249 | on a version 2 mount and a response with a data object, the package client, the middle client reading text, and the namespaced reader's rendering give the same result |
| KvGenerations.Kv1GenerationsAgree | pkg/vault/vault.go:161-249 | on a version 1 mount the package client and the middle client reading text give the same result for every response |
| KvGenerations.RenewDelaysAgree | pkg/vault/vault.go:147-158 | with the default renewal interval, the middle client's sleep after success equals the package client's sleep for every lease |
| KvRead.ResolveNamespace | vault/kv.go:25-34 | root and request give root/request; root alone gives root; a request without a root is an error; neither leaves the namespace untouched |
| KvRead.KvReadRequest | vault/kv.go:25-56 | a namespace error comes before the preflight; otherwise version 1 reads the path unchanged and version 2 reads the spliced path with a version parameter only for a positive version |
| KvRead.GetSecret | vault/kv.go:13-68 | request errors propagate; a failed read returns the read's error unchanged; a nil secret is "secret is nil"; success returns the secret Vault returned |
| KvRead.Payload | vault/kv.go:74-79 | `data` is unwrapped exactly when it is an object; otherwise the whole data is converted |
| KvRead.KVRenderData | vault/kv.go:70-95 | a non-empty conversion of the payload is the result; conversion errors propagate, and an empty conversion is "invalid secret data" |
| KvRead.NoNamespaceLeavesClientAlone | vault/kv.go:25-34 | with both namespaces empty the read sets no namespace and does not fail for a namespace reason |
| KvRead.NamespaceErrorPrecedesPreflight | vault/kv.go:25-34 | a namespace without a root fails whatever the preflight would have answered |
| KvRead.EnvelopeIsTransparent | vault/kv.go:74-79 | rendering a version 2 envelope equals rendering its inner data |
| PkgVault.CreateClientAsWritten | pkg/vault/vault.go:55-143 | the setup as written: missing address, client error and invalid method errors; an empty token and an empty lease both give ErrMissingVaultToken; a bad lease is Atoi's error and a good one sets the client; a missing Kubernetes path and a missing role both give the "missing ttl" error; otherwise the Kubernetes login decides |
| PkgVault.KubernetesLogin | pkg/vault/vault.go:114-137 | a token file read error propagates; the service account token and role go to path/login; a login error propagates, a nil secret is a nil-dereference panic, a missing auth block is ErrMissingVaultAuthInfo, and an auth block sets the token and lease |
| PkgVault.CreateClient | pkg/vault/vault.go:55-143 | missing address, client error, missing token, missing lease, bad lease, missing Kubernetes path or role, and an unknown method each give their own error; a good token setup sets the client, and a complete Kubernetes setup is the Kubernetes login |
| PkgVault.AsWrittenDiffersOnlyInMessages | pkg/vault/vault.go:26-31 | on every environment the as-written and corrected setups agree, except exactly for a present token without a lease and a Kubernetes setup missing its path or role |
| PkgVault.LeaseErrorAsWritten | pkg/vault/vault.go:93-95 | as written, a token without a lease duration is reported as a missing token |
| PkgVault.KubernetesErrorsAsWritten | pkg/vault/vault.go:26-31 | as written, a missing Kubernetes path and a missing role give the same message; the corrected client tells them apart |
| PkgVault.RenewDelay | pkg/vault/vault.go:147-158 | the package renew loop sleeps half the lease truncated toward zero to whole seconds, scaled by time.Second with the 64-bit wrap; exactly half the lease in whole seconds when that fits |
| PkgVault.Kv2Path | pkg/vault/vault.go:169-178 | fewer than two segments is ErrInvalidPath; a path already having "data" second is kept; otherwise "data" is inserted as the second segment |
| PkgVault.Kv2PathSegments | pkg/vault/vault.go:175-177 | the spliced path's segments are the first segment, "data", then the remaining segments |
| PkgVault.Kv2PathIdempotent | pkg/vault/vault.go:175-177 | splicing twice is splicing once |
| PkgVault.VersionParams | pkg/vault/vault.go:184-188 | the version parameter is sent iff the engine is kv2 and the version is non-zero |
| PkgVault.NegativeVersionSent | pkg/vault/vault.go:184-188 | a negative version is sent by this client and not by the vault/client.go one |
| PkgVault.ReadRequestFor | pkg/vault/vault.go:163-197 | non-kv2 engines read the path unchanged; kv2 reads the spliced path with the version parameter, or fails with ErrInvalidPath |
| PkgVault.GetSecret | pkg/vault/vault.go:161-249 | invalid paths, read errors, nil reads and a non-object kv2 `data` field are reported; a found response converting as text to non-empty values gives exactly those values, an empty conversion is "invalid secret data", and conversion errors propagate |
| Pki.IssueRequest | vault/pki.go:11-16 | the issue write goes to path/issue/role and carries every option unchanged |
| Pki.Expiration | vault/pki.go:25-29 | an integer `expiration` is that many seconds after the epoch; a number that is not an integer is an error; a missing or non-number field panics |
| Pki.GetCertificate | vault/pki.go:10-32 | a nil response is "certificate is nil"; write errors propagate; success is the issued secret and its expiry |
| Pki.PKIConvertData | vault/pki.go:34-42 | the converted keys are exactly the certificate fields the response holds, each value the conversion of that field as text; conversion fails iff one of them fails, and the error is that field's error |
| Pki.ExtraFieldsIgnored | vault/pki.go:34-42 | response fields outside the certificate whitelist do not change the converted data |
| Pki.ExpirationRoundTrip | vault/pki.go:25-29 | an expiration of s seconds gives an expiry of s seconds after the epoch |
| Database.CredsRequest | vault/database.go:10 | credentials are read from path/creds/role with no parameters and no namespace |
| Database.GetDatabaseCreds | vault/database.go:9-27 | a nil response is "database credentials is nil"; read errors propagate; the credentials hold exactly the username and password fields the response has, each converted as text, and a failing field's error is returned; the expiry is now plus the lease in seconds, scaled with time.Duration's 64-bit wrap |
| Database.CredentialsCopied | vault/database.go:19 | text credentials are copied verbatim with no other key; an empty response converts to no credentials rather than an error |
| Keystore.TypeError | jks/keystore.go:31-33 | the type error names the rejected type |
| Keystore.ChainOf | jks/keystore.go:193-199 | the chain is one X.509 certificate per remaining block, in order |
| Keystore.KeyEntry | jks/keystore.go:174-207 | a key entry exists iff there is a first block, its type mentions "RSA PRIVATE KEY", and its bytes parse as PKCS #1 and re-encode as PKCS #8; it is a private-key entry created now with that key and one certificate per later block, and a failure names the key |
| Keystore.KeystoreFrom | jks/keystore.go:172-208 | building over the aliases succeeds iff every alias's entry builds; the aliases become the keys, each with its entry |
| Keystore.CreateKeystore | jks/keystore.go:168-210 | success iff every secret key yields a key entry; the aliases are exactly the secret keys; a failure is some key's error |
| Keystore.TrustedEntry | jks/keystore.go:221-236 | a trusted entry holds the block's bytes as its certificate |
| Keystore.AddBlocks | jks/keystore.go:221-236 | any block whose type mentions KEY aborts with the key-in-certificate error; otherwise the last block's certificate is stored under the alias |
| Keystore.CertificateOf | jks/keystore.go:221-236 | a value contributes a certificate iff it has at least one block |
| Keystore.TruststoreFrom | jks/keystore.go:221-236 | success iff no value holds a key block; each value with blocks contributes its last certificate under its key, and other aliases of the base survive |
| Keystore.CreateTruststore | jks/keystore.go:212-240 | a base error is "can't create base Truststore"; otherwise success iff no key block appears; the aliases are the base's plus the keys whose values have blocks |
| Keystore.VaultAlias | jks/keystore.go:263 | a Vault CA certificate is stored under "pz_vault:" followed by its path |
| Keystore.AddCaCerts | jks/keystore.go:255-269 | success iff every CA path fetches, and a failure is some path's fetch error; the aliases are the base's plus one pz_vault alias per path, each holding that path's certificate; other aliases keep their entries |
| Keystore.CaCertPaths | jks/keystore.go:246 | the CA path list is never empty; an unset variable is one empty path |
| Keystore.CreateBaseTruststore | jks/keystore.go:242-273 | a read failure of the bundled truststore is an error; success holds every CA path's certificate under its alias |
| Keystore.ConversionPanic | jks/keystore.go:128-155 | a failed type assertion on an entry is a panic |
| Keystore.CompareFrom | jks/keystore.go:128-155 | the stores compare equal over the aliases iff every entry has the store's kind and the same content; well-kinded entries never panic |
| Keystore.CompareKeystores | jks/keystore.go:101-156 | an invalid type is an error; different alias sets compare unequal; equal means same aliases and same content, creation times ignored |
| Keystore.SortedKeysAgree | jks/keystore.go:109-120 | the sorted alias lists are equal exactly when the alias sets are |
| Keystore.CompareAllAliases | jks/keystore.go:128-155 | comparing over the sorted aliases is comparing every alias |
| Keystore.CompareReflexive | jks/keystore.go:128-155 | a well-kinded store compares equal to itself |
| Keystore.ReadKeystore | jks/keystore.go:158-166 | a store that does not decode reads as empty |
| Keystore.NewStore | jks/keystore.go:46-61 | the keystore type builds a keystore, and the truststore type builds a truststore on top of the base truststore |
| Keystore.Failed | jks/keystore.go:29-99 | every failure returns empty bytes and an empty password |
| Keystore.Encoded | jks/keystore.go:89-98 | an encoded store returns its bytes and password; an encoding error returns nothing else |
| Keystore.Password | jks/keystore.go:37-44 | the password in the secret is reused verbatim; otherwise the generated one is used |
| Keystore.StoreFor | jks/keystore.go:63-98 | an existing store that compares equal returns its bytes unchanged; one that compares unequal is replaced by the new store encoded with the password; a comparison error fails with empty output; with no existing store the new one is encoded |
| Keystore.StaleKeystoreReencoded | jks/keystore.go:70-87 | when the secret holds a keystore whose aliases differ from the secret keys, the rebuilt keystore is encoded again with the reused password |
| Keystore.GetKeystoreFromSecret | jks/keystore.go:29-99 | an invalid type fails with empty output; build errors are reported; success pairs the store's bytes with the reused or generated password |
| Keystore.KeyEntryTimeless | jks/keystore.go:174-207 | building a key entry at another time differs only in its creation time |
| Keystore.RebuiltKeystoreMatches | jks/keystore.go:128-155 | a keystore rebuilt from the same data at another time compares equal |
| Keystore.KeystoreReconcileStable | jks/keystore.go:63-78 | re-running on a secret holding the first result returns the same bytes and password |
| Keystore.GenPass | jks/keystore.go:296-309 | a generated password is eight characters from letters and digits |
| Validators.ValidatePKI | controllers/validators.go:8-22 | only pki resources are validated: they need a role and a `common_name` option, each with its own error |
| Validators.EmptyCommonNameValidates | controllers/validators.go:17-19 | only the presence of `common_name` is checked, so an empty value validates |
| BuildInfo.SetBuildInformation | version/version.go:20-28 | exactly five comma-separated parts assign the five variables in order; any other count changes nothing |
| BuildInfo.SetBuildInformationIdempotent | version/version.go:20-28 | a second call has no further effect |
| BuildInfo.EmptyBuildInformation | version/version.go:21 | an empty build string changes nothing |
| BuildInfo.BuildInformationRoundTrip | version/version.go:21-27 | five comma-free fields joined by commas are read back field by field |
| KubeSecrets.BaseRequeue | internal/controller/vaultsecret_controller.go:97-102 | a positive reconciliation time requeues after that many seconds; otherwise there is no timed requeue |
| KubeSecrets.ChooseClient | internal/controller/vaultsecret_controller.go:164-182 | a resource with a Vault role gets a client logged in with that role; otherwise the shared client, whose absence is an error (both reconcilers, each with its own message) |
| KubeSecrets.MergeFrom | internal/controller/vaultsecret_controller.go:457-465 | the merge loop keeps every new value and copies each found key the new data lacks |
| KubeSecrets.MergeData | internal/controller/vaultsecret_controller.go:457-465 | merged keys are the union, new values win, found values fill the rest; nil new data panics iff there is found data |
| KubeSecrets.MergeIsOverride | internal/controller/vaultsecret_controller.go:457-465 | the merge is the found data overridden by the new data |
| KubeSecrets.MergeFromIsOverride | internal/controller/vaultsecret_controller.go:457-465 | the loop over all found keys computes the override |
| KubeSecrets.MergeIdempotent | internal/controller/vaultsecret_controller.go:457-465 | merging the same found data twice is merging it once |
| KubeSecrets.MergeSecretData | internal/controller/vaultsecret_controller.go:457-465 | only the data changes; everything else comes from the new secret |
| KubeSecrets.RunTemplates | internal/controller/vaultsecret_controller.go:432-443 | rendering succeeds iff every template renders; the keys are the template names and each value is its rendering; a failure is some template's error |
| KubeSecrets.TemplatedData | internal/controller/vaultsecret_controller.go:432-443 | without templates the Vault data is kept; with templates the data is exactly one rendering per template, and any failure aborts with the prefixed error |
| KubeSecrets.TemplatesOverAllNames | internal/controller/vaultsecret_controller.go:432-443 | rendering over the sorted names succeeds iff every template renders, and covers every name |
| KubeSecrets.FunctionMap | internal/controller/vaultsecret_controller.go:406-428 | the template functions are exactly the hermetic set minus the excluded names: key generation, password hashing and randomness |
| Controller.Without | internal/controller/vaultsecret_controller.go:128-130 | removing the finalizer drops every occurrence of it and keeps the rest |
| Controller.UpdateConditions | internal/controller/vaultsecret_controller.go:310-331 | the total counter is incremented, the gauge is 1 iff the status is True, and the resource is left with exactly one SecretCreated condition for the current generation; nothing else in the resource changes |
| Controller.Fail | internal/controller/vaultsecret_controller.go:169-170 | a failure returns its error without a requeue, after recording it in a single False condition |
| Controller.PkiRequeue | internal/controller/vaultsecret_controller.go:217-225 | the requeue is the time to expiry minus the renewal margin when positive, otherwise 0 |
| Controller.PkiRenewedWithinMargin | internal/controller/vaultsecret_controller.go:219-221 | a certificate expiring within the margin gets requeue 0 |
| Controller.NewSecretForCR | internal/controller/vaultsecret_controller.go:432-455 | the secret takes the resource's name, namespace, labels, annotations and type; its data is the Vault data, or with templates one entry per template holding its rendering; a template failure fails it |
| Controller.WriteSecret | internal/controller/vaultsecret_controller.go:245-307 | a missing secret is created; a lookup error fails; an existing one is merged into under the Merge strategy and replaced otherwise; errors never requeue, success requeues as decided; failures and writes are recorded |
| Controller.MergeInto | internal/controller/vaultsecret_controller.go:269-283 | a panicking merge propagates; an unchanged merge records nothing and writes nothing; otherwise the merged secret is updated, and an update error is recorded as MergeFailed |
| Controller.ReplaceWith | internal/controller/vaultsecret_controller.go:284-304 | an unchanged secret is not written but counted as a success; otherwise the built secret is updated, and an update error is recorded as UpdateFailed |
| Controller.Updated | internal/controller/vaultsecret_controller.go:276-282 | an update error is recorded under the strategy's reason; success is recorded as Updated |
| Controller.FetchData | internal/controller/vaultsecret_controller.go:192-226 | kv reads the secret with the base requeue; pki validates, then issues with the renewal requeue; other engines fetch nothing |
| Controller.Sync | internal/controller/vaultsecret_controller.go:155-307 | a client error fails; a restricted client ignores other namespaces silently; otherwise a refused fetch fails with its reason and message, and fetched data is built and published with the requeue the fetch chose; errors never requeue; failures and writes are recorded |
| Controller.BuildSecret | internal/controller/vaultsecret_controller.go:228-243 | a template failure or an owner-reference error prevents the secret from being built |
| Controller.Publish | internal/controller/vaultsecret_controller.go:228-307 | a secret that cannot be built is recorded as CreateFailed; a built one is written |
| Controller.RecordCreateFailed | internal/controller/vaultsecret_controller.go:229-264 | a failure before any write (the secret cannot be built, or reading the existing secret fails) ends the reconcile with its error, recorded as a single CreateFailed False condition, without touching the resource's finalizers or metrics series |
| Controller.Finalize | internal/controller/vaultsecret_controller.go:122-140 | deletion drops the metrics, removes a present finalizer and never writes a secret |
| Controller.Reconcile | internal/controller/vaultsecret_controller.go:93-308 | a missing resource is ignored and a lookup error returned; deletion finalizes; a resource with the finalizer is synced; a missing finalizer is added first and the sync follows, or its update error is recorded; errors never requeue; every write is followed by a True condition |
| Controller.KvSecretCreatedEndToEnd | internal/controller/vaultsecret_controller.go:93-308 | a finalized resource reading KV values without templates, whose secret is missing, creates a secret holding exactly those values, records a True condition and requeues after the reconciliation time |
| Controller.PrefixKeepsEffects | internal/controller/vaultsecret_controller.go:144-152 | adding the finalizer before syncing keeps the recorded failure and success |
| Controller.RestrictedNamespaceIgnored | internal/controller/vaultsecret_controller.go:187-190 | a restricted client ignores a resource of another namespace with no effect and no error |
| Controller.ReplaceSkipsExactlyUnchanged | internal/controller/vaultsecret_controller.go:285-304 | under Replace, the update is skipped exactly when type, data, labels and annotations match and the single condition is True; otherwise the first effect updates the built secret, a failed update is recorded as UpdateFailed, and a successful one ends with an Updated condition |
| Controller.MergeSkipsExactlyUnchanged | internal/controller/vaultsecret_controller.go:269-283 | under Merge, the update is skipped exactly when the merged secret matches and the single condition is True; otherwise the first effect updates the merged secret, a failed update is recorded as MergeFailed, and a successful one ends with an Updated condition |
| Controller.WrittenSecretIsStable | internal/controller/vaultsecret_controller.go:285-302 | after a Replace write succeeds, the next reconcile with the same data skips the update |
| Controller.NilDataMergePanics | internal/controller/vaultsecret_controller.go:457-465 | an engine that fetches nothing, merged into a secret with data, panics |
| Controller.StatusUpdateFiltered | internal/controller/vaultsecret_controller.go:333-340 | the status write keeps the generation, so the event filter drops it |
| LegacyController.FetchSecret | controllers/vaultsecret_controller.go:93-125 | a read error becomes empty data only for a truststore and the three tolerated errors |
| LegacyController.FetchFailsExactlyUntolerated | controllers/vaultsecret_controller.go:96-104 | the fetch fails iff the read failed with an error not tolerated for this resource |
| LegacyController.NewSecretForCR | controllers/vaultsecret_controller.go:268-303 | the labels are created-by overridden by the resource's labels; the data is the Vault data or exactly one entry per template, holding its rendering |
| LegacyController.JksNames | controllers/vaultsecret_controller.go:317-329 | the store name ends in ".jks" (the type when unnamed); the password name replaces its first ".jks" with "Pass"; the two names differ |
| LegacyController.SecretCategoryData | controllers/vaultsecret_controller.go:315-345 | non-JKS data is unchanged; JKS data has exactly the store and password entries, or the keystore error |
| LegacyController.Reconcile | controllers/vaultsecret_controller.go:47-192 | a client error, fetch error, template error or owner error is returned with no write; otherwise the built secret is written; at most one write, always a create or an update; errors never requeue; success requeues on the base interval |
| LegacyController.WriteSecret | controllers/vaultsecret_controller.go:142-191 | a missing secret is created with exactly the category data; an existing one is updated with the category data, merged into its data under Merge; a category or merge failure writes nothing; a failed write is the returned error |
| LegacyController.PlainSecretCreatedEndToEnd | controllers/vaultsecret_controller.go:47-192 | a resource without templates or JKS type whose secret is missing creates a secret holding exactly the Vault values, labelled created-by the operator, and requeues on the base interval |
| LegacyController.ExistingSecretAlwaysWritten | controllers/vaultsecret_controller.go:174-188 | an existing secret is updated under either strategy, with no skip |
| LegacyController.PlainSecretCreatedAsBuilt | controllers/vaultsecret_controller.go:145-159 | without JKS, a missing secret is created exactly as built |
| LegacyController.JksNameWithExtension | controllers/vaultsecret_controller.go:320-329 | a name already ending in ".jks" keeps it, and its password key puts "Pass" in that place |
| LegacyController.ReplaceAtDotFree | controllers/vaultsecret_controller.go:329 | in a dot-free base followed by ".jks", the first ".jks" is the appended one |
| LegacyController.CurrentFunctionsNarrower | controllers/vaultsecret_controller.go:240-245 | this revision removes genPrivateKey, genCA, genSelfSignedCert, genSignedCert and htpasswd; the current revision offers a subset of its functions, lacking exactly the key-taking certificate generators, bcrypt and randInt |
| VaultConfig.Env | vault/vault.go:72-98 | an unset variable reads as "" |
| VaultConfig.CommonSettings | vault/vault.go:103-128 | renewal defaults on, namespace restriction off, and the namespace is VAULT_NAMESPACE; the PKI margin is VAULT_PKI_RENEW parsed as a duration, one hour when unset, and a parse error fails; a client creation error fails |
| VaultConfig.MaxTTL | vault/vault.go:241-247 | VAULT_TOKEN_MAX_TTL in seconds, sixteen days when it does not parse |
| VaultConfig.ClientFor | vault/vault.go:229-239 | the client carries the token, lease, max TTL and shared settings; the renewal interval defaults to half the lease and the retry interval to 30 |
| VaultConfig.Login | vault/vault.go:222-227 | a login error, a nil secret and a missing auth block each fail; an auth block gives the client with the returned token and lease, the method's max TTL, the default intervals and the re-login path if the method has one |
| VaultConfig.MethodLogin | vault/vault.go:222-239 | a login answered with an auth block creates exactly that client; any other answer is the login's failure |
| VaultConfig.TokenText | vault/vault.go:135-149 | VAULT_TOKEN wins; without it and without VAULT_TOKEN_PATH the token is missing; otherwise the file's contents, or its read error |
| VaultConfig.TokenClient | vault/vault.go:131-184 | token read errors propagate; a token without a lease is an error; a lease that does not parse is Atoi's error; otherwise the client has the token and lease, max TTL 0 and no re-login |
| VaultConfig.KubernetesClient | vault/vault.go:186-294 | no mount path is an error; no role means no client and no error; a token file read error fails; a login with an auth block gives the client with its token and lease, VAULT_TOKEN_MAX_TTL and a re-login at path/login; any other answer is the login's failure |
| VaultConfig.VaultId | vault/vault.go:844-870 | a set variable wins; otherwise the file its _PATH variable names; a read error gives "" |
| VaultConfig.AppRoleClient | vault/vault.go:296-374 | no role id or no secret id is its own error; a login with an auth block gives the client with its token and lease, VAULT_TOKEN_MAX_TTL and a re-login; any other answer is the login's failure |
| VaultConfig.UserpassClient | vault/vault.go:376-448 | no user or no password is its own error; a login at auth/userpass/login/user with an auth block gives the client with its token and lease, VAULT_TOKEN_MAX_TTL and a re-login; any other answer is the login's failure |
| VaultConfig.AzureLoginData | vault/vault.go:475-484 | the login data holds the identity token and role, and the scale set or VM name as configured |
| VaultConfig.AzureClient | vault/vault.go:450-521 | an identity error fails; a login with an auth block gives the client with its token and lease, max TTL 0 and no re-login; any other answer is the login's failure |
| VaultConfig.AwsClient | vault/vault.go:523-700 | only "ec2" or "iam" auth types are accepted; a login-data error fails; a login at VAULT_AWS_PATH or auth/aws with an auth block gives the client with its token and lease, VAULT_TOKEN_MAX_TTL and a re-login |
| VaultConfig.GcpClient | vault/vault.go:702-839 | only "gce" or "iam" auth types are accepted; a login-data error fails; a login with an auth block gives the client with its token and lease, max TTL 0 and a re-login |
| VaultConfig.ClientByMethod | vault/vault.go:130-841 | each of the seven methods is handled by its own client setup; an unknown method is "invalid authentication method"; no client only for kubernetes without a role; any client carries the shared settings |
| VaultConfig.CreateClient | vault/vault.go:71-842 | settings errors come first; with valid settings, the VAULT_AUTH_METHOD setup decides; any client carries the settings |
| VaultConfig.KubernetesLoginCreatesClient | vault/vault.go:186-294 | a kubernetes setup with a path and a role whose login succeeds yields a client with the returned token and lease, VAULT_TOKEN_MAX_TTL, a re-login at path/login, the shared settings, and by default half the lease as renewal interval and 30 seconds as retry |
| VaultConfig.TokenCreatesClient | vault/vault.go:131-184 | a token with a lease that parses yields a client with that token and lease, max TTL 0, no re-login, the shared settings and the default intervals |
| VaultConfig.InitSharedClient | vault/vault.go:48-68 | an unparsable reconciliation time is 0; the shared client is set iff creation succeeded |
| VaultConfig.RoleOnlyForKubernetes | vault/vault.go:196-198 | the requested role affects only the kubernetes method |
| VaultConfig.MaxTTLByMethod | vault/vault.go:130-841 | kubernetes, approle, userpass and aws clients get VAULT_TOKEN_MAX_TTL; token, azure and gcp clients get 0; only token and azure clients cannot log in again |
| VaultConfig.AppRoleIdsFromEnvironment | vault/vault.go:844-860 | with both ids set in the environment, no file is read |
| VaultConfig.EmptyEnvironmentDefaults | vault/vault.go:111-128 | an empty environment gives renewal on, no namespace restriction and a one-hour PKI margin |

## Left out

- **Process plumbing.** `main`, manager bootstrap, `SetupWithManager`, logging, and `controllers/metrics` and `internal/metrics` registration are left out. Metric updates appear only as the `Action`s a reconcile emits.
- **The renew loops.** `RenewToken` in `vault/client.go` and `pkg/vault/vault.go` is an endless loop of HTTP calls and sleeps. Only the delay each iteration sleeps is modelled (`ClientKV.RenewDelay`, `PkgVault.RenewDelay`).
- **Vault and Kubernetes I/O.** HTTP requests, the Kubernetes API, file reads and the clock are function parameters. Their errors are reduced to messages.
- **Cloud login data.** The AWS, Azure and GCP credential lookups and signing (`vault/aws.go` and the SDK calls in `vault/vault.go`) are oracles. Only the data they feed into the login request is modelled.
- **Encodings and parsers.** Encoding and parsing use oracles for PEM, PKCS #1→#8 conversion, JKS encoding and decoding, JSON marshalling, Go template evaluation, `strconv.ParseFloat`, `time.ParseDuration` and `os.ReadFile`.
- **Re-login closures.** These are recorded only as the login path they would call. Their later execution is not modelled.
- **Lease arithmetic.** `tokenLeaseDuration * 0.5` is exact real arithmetic, not float64.
- **Keystore.GenPass.** The source draws each character with `math/rand`'s `rand.Intn`, after seeding it with the current time in nanoseconds (jks/keystore.go:6, 298, 305). That generator is not cryptographically random, and two calls in the same nanosecond give the same password. The model picks each character by nondeterministic choice from the same alphabet, so only the output shape is stated.
- **Keystore.CompareKeystores.** It panics whenever any shared alias has the wrong entry kind. Go's random map order may instead return false first when another alias already differs.
- Keystore.CreateKeystore: when several keys fail, the error reported is that of the first key in ascending order. Go reports whichever key its random map order reaches first, so the contract says only that the error is some failing key's error.
- Convert.ConvertData: when several selected keys fail, the error is chosen by kind: an unsupported value type is reported before a base64 failure. Go reports whichever failing key its random map order reaches first, so this is one of the outcomes Go can produce; the contract says only that the error is some failing key's error.
- **GoStrings.EscapeChar.** Bytes from 0x80 up are copied unchanged, one character per byte. Go's `strconv.Quote` copies them only when they form valid UTF-8 for a printable rune, and otherwise writes a `\x`, `\u` or `\U` escape. EscapeChar does not decode UTF-8, so it does not promise Go's escape for those bytes.
- **GoStrings.Quote.** Bytes from 0x80 up are copied unchanged. Go's `strconv.Quote` copies them only when they form valid UTF-8 for a printable character, and otherwise writes a `\x`, `\u` or `\U` escape. So the message of a rejected Atoi or ParseInt input holding such bytes may differ from Go's.
- **LegacyController.FetchSecret.** Tolerated errors are compared by message. Go compares error values with `reflect.DeepEqual`.
- **Controller.UpdateConditions.** The error of the status update is only logged in Go and is not modelled.
- **Controller.ReplaceSkipsExactlyUnchanged, Controller.MergeSkipsExactlyUnchanged.** The skip test `Controller.Unchanged` compares labels and annotations as maps, so nil and empty maps count as equal. Go's `reflect.DeepEqual` (internal/controller/vaultsecret_controller.go:272, 285) tells them apart and writes the secret in that case.
- **Panic messages.** A failed single-value type assertion is a `Panic` whose text describes the field. Go's runtime text is "interface conversion: interface {} is T, not string", naming the dynamic type T. Only the panic's kind is promised (`KvHelpers.MountPathOf`, `KvHelpers.OptionsVersion`, `Pki.Expiration`).
- **Controller.Reconcile.** Only an owner-reference failure of `SetControllerReference` is modelled, as a message from the cluster parameter.
- **VaultConfig.VaultId.** A file read error yields "" rather than logging.
- **The KV helpers.** `vault/kv.go`, `vault/client.go` and `pkg/vault/kvhelpers.go` contain identical copies of the preflight, isKVv2 and prefix helpers. The model defines them once, in `KvHelpers`, and cites `pkg/vault/kvhelpers.go`.
- **The current controller's calls into Vault.** The certificate and secret calls that `internal/controller` makes go through a `vault` package revision that is not part of this model. The reconcile sees them as client functions.
- **The legacy fetch.** The six-argument `GetSecret` that the legacy controller calls belongs to a client revision that is not part of this model, so it is a client function too.
- **Convert.ConvertValue.** A bad base64 value fails with "illegal base64 data". Go's `base64.CorruptInputError` adds the offset of the first bad byte ("at input byte N"). The model's decoder does not report a position, so the offset is not part of the message.
- **ClientKV.RenewDelay.** A whole number of seconds, bounded by the interval, is promised only when the product fits 64 bits, because `time.Duration(x) * time.Second` wraps beyond that. A float64 interval too large for int64 converts to an implementation-defined value in Go; the model truncates it exactly.
- **PkgVault.RenewDelay.** A whole number of seconds is promised only when the product fits 64 bits, for the same reason.
- **convertData in vault/kv.go.** It is not part of this model. `KvRead.KVRenderData` uses the conversion of `vault/client.go`, which has the same switch.

## Findings

| source | as written | input that shows it | evidently intended | confidence | as-written member | corrected member |
|---|---|---|---|---|---|---|
| pkg/vault/vault.go:93-95 | a token with no lease duration returns ErrMissingVaultToken | VAULT_ADDRESS set, VAULT_AUTH_METHOD=token, VAULT_TOKEN set, VAULT_TOKEN_LEASE_DURATION unset | return the otherwise unused ErrMissingVaultTokenLeaseDuration | not executed | PkgVault.LeaseErrorAsWritten | PkgVault.CreateClient |
| pkg/vault/vault.go:26-31 | ErrMissingVaultKubernetesPath and ErrMissingVaultKubernetesRole both read "missing ttl for vault token" | VAULT_AUTH_METHOD=kubernetes with no VAULT_KUBERNETES_PATH, versus with a path but no VAULT_KUBERNETES_ROLE | distinct messages naming the missing path and the missing role | not executed | PkgVault.KubernetesErrorsAsWritten | PkgVault.CreateClient |

=== FILE: api.dfy ===
/**
 * The VaultSecret custom resource (api/v1alpha1/vaultsecret_types.go) and the
 * Kubernetes secret the operator writes for it.
 *
 * The resource carries, besides the fields of that type file, the PKI `role`,
 * the PKI `engineOptions` and the status `conditions` that the controllers
 * read. Object metadata is reduced to what the controllers use.
 */
module Api {
  import opened Wrappers

  /** Whether and how to package the secret as a Java keystore or truststore. */
  datatype JksSpec = JksSpec(jksType: string, name: string)

  datatype VaultSecretSpec = VaultSecretSpec(
    vaultRole: string,
    vaultNamespace: string,
    reconcileStrategy: string,
    keys: seq<string>,
    templates: Option<map<string, string>>,   // None is a nil map
    path: string,
    secretEngine: string,
    secretType: string,
    version: int,
    isBinary: bool,
    jks: JksSpec,
    role: string,
    engineOptions: map<string, string>)

  /** A metav1.Condition; `status` is "True", "False" or "Unknown". */
  datatype Condition = Condition(
    conditionType: string,
    status: string,
    observedGeneration: int,
    lastTransitionTime: int,
    reason: string,
    message: string)

  const ConditionTrue := "True"
  const ConditionFalse := "False"

  datatype VaultSecret = VaultSecret(
    name: string,
    namespace: string,
    generation: int,
    labels: map<string, string>,
    annotations: map<string, string>,
    finalizers: seq<string>,
    markedForDeletion: bool,
    spec: VaultSecretSpec,
    conditions: seq<Condition>)

  /**
   * A corev1.Secret as the operator builds and compares it. `data` is None
   * for a nil map, which reflect.DeepEqual tells apart from an empty one.
   */
  datatype KubeSecret = KubeSecret(
    name: string,
    namespace: string,
    labels: map<string, string>,
    annotations: map<string, string>,
    data: Option<map<string, string>>,
    secretType: string)

  /** What a Get of an object by name returned. */
  datatype Lookup<T> = NotFound | GetFailed(message: string) | Present(item: T)
}

=== FILE: base64.dfy ===
/**
 * Standard base64 (section 4 of RFC 4648, with "=" padding) as Go's
 * `base64.StdEncoding.DecodeString` accepts it: carriage returns and line
 * feeds anywhere in the input are skipped, the rest must form whole groups of
 * four characters, and only the final group may end in "=" or "==". Like Go's
 * non-strict decoder, unused low bits of a padded group are ignored.
 */
module Base64 {
  import opened Wrappers

  /** A string whose characters are all byte values. */
  predicate IsBytes(s: string) {
    forall i | 0 <= i < |s| :: s[i] as int < 256
  }

  predicate IsAlphabet(c: char) {
    ('A' <= c <= 'Z') || ('a' <= c <= 'z') || ('0' <= c <= '9') || c == '+' || c == '/'
  }

  /** The 6-bit value of an alphabet character. */
  function SextetOf(c: char): (v: nat)
    requires IsAlphabet(c)
    ensures v < 64
  {
    if 'A' <= c <= 'Z' then c as int - 'A' as int
    else if 'a' <= c <= 'z' then c as int - 'a' as int + 26
    else if '0' <= c <= '9' then c as int - '0' as int + 52
    else if c == '+' then 62
    else 63
  }

  /** The alphabet character for a 6-bit value. */
  function CharOf(v: nat): (c: char)
    requires v < 64
    ensures IsAlphabet(c) && SextetOf(c) == v
  {
    if v < 26 then ('A' as int + v) as char
    else if v < 52 then ('a' as int + v - 26) as char
    else if v < 62 then ('0' as int + v - 52) as char
    else if v == 62 then '+'
    else '/'
  }

  function StripNewlines(s: string): (r: string)
    ensures '\n' !in r && '\r' !in r
  {
    if |s| == 0 then ""
    else if s[0] == '\n' || s[0] == '\r' then StripNewlines(s[1..])
    else [s[0]] + StripNewlines(s[1..])
  }

  function Byte(v: int): char
    requires 0 <= v < 256
  {
    v as char
  }

  /** The first, second and third byte a group of four sextets encodes. */
  function Byte0(g: string): char
    requires |g| >= 2 && IsAlphabet(g[0]) && IsAlphabet(g[1])
  {
    Byte(SextetOf(g[0]) * 4 + SextetOf(g[1]) / 16)
  }

  function Byte1(g: string): char
    requires |g| >= 3 && IsAlphabet(g[1]) && IsAlphabet(g[2])
  {
    Byte((SextetOf(g[1]) % 16) * 16 + SextetOf(g[2]) / 4)
  }

  function Byte2(g: string): char
    requires |g| >= 4 && IsAlphabet(g[2]) && IsAlphabet(g[3])
  {
    Byte((SextetOf(g[2]) % 4) * 64 + SextetOf(g[3]))
  }

  predicate FullGroup(g: string) {
    |g| == 4 && IsAlphabet(g[0]) && IsAlphabet(g[1]) && IsAlphabet(g[2]) && IsAlphabet(g[3])
  }

  /** The last group of the input: four characters, or three plus "=", or two plus "==". */
  function DecodeLastGroup(g: string): Option<string>
    requires |g| == 4
  {
    if FullGroup(g) then Some([Byte0(g), Byte1(g), Byte2(g)])
    else if IsAlphabet(g[0]) && IsAlphabet(g[1]) && IsAlphabet(g[2]) && g[3] == '=' then
      Some([Byte0(g), Byte1(g)])
    else if IsAlphabet(g[0]) && IsAlphabet(g[1]) && g[2] == '=' && g[3] == '=' then
      Some([Byte0(g)])
    else None
  }

  function DecodeGroups(t: string): Option<string>
    requires |t| % 4 == 0
    decreases |t|
  {
    if |t| == 0 then Some("")
    else if |t| == 4 then DecodeLastGroup(t)
    else if !FullGroup(t[..4]) then None
    else
      match DecodeGroups(t[4..])
      case None => None
      case Some(rest) => Some([Byte0(t[..4]), Byte1(t[..4]), Byte2(t[..4])] + rest)
  }

  /** base64.StdEncoding.DecodeString; None stands for Go's CorruptInputError. */
  function Decode(s: string): Option<string> {
    var t := StripNewlines(s);
    if |t| % 4 != 0 then None else DecodeGroups(t)
  }

  /** base64.StdEncoding.EncodeToString, the partner of Decode. */
  function Encode(b: string): (r: string)
    requires IsBytes(b)
    ensures |r| % 4 == 0
  {
    if |b| == 0 then ""
    else if |b| == 1 then
      var b0 := b[0] as int;
      SextetBounds(b0, 0, 0);
      [CharOf(b0 / 4), CharOf((b0 % 4) * 16), '=', '=']
    else if |b| == 2 then
      var b0, b1 := b[0] as int, b[1] as int;
      SextetBounds(b0, b1, 0);
      [CharOf(b0 / 4), CharOf((b0 % 4) * 16 + b1 / 16), CharOf((b1 % 16) * 4), '=']
    else
      var b0, b1, b2 := b[0] as int, b[1] as int, b[2] as int;
      SextetBounds(b0, b1, b2);
      assert IsBytes(b[3..]) by {
        forall i | 0 <= i < |b[3..]| ensures b[3..][i] as int < 256 {
          assert b[3..][i] == b[i + 3];
        }
      }
      var rest := Encode(b[3..]);
      QuadLength(|rest|);
      [CharOf(b0 / 4), CharOf((b0 % 4) * 16 + b1 / 16), CharOf((b1 % 16) * 4 + b2 / 64), CharOf(b2 % 64)]
      + rest
  }

  /** One more group of four keeps a length that is a multiple of four. */
  lemma QuadLength(n: int)
    requires n % 4 == 0
    ensures (4 + n) % 4 == 0
  {
  }

  /** The four sextets of three bytes are each below 64. */
  lemma SextetBounds(b0: int, b1: int, b2: int)
    requires 0 <= b0 < 256 && 0 <= b1 < 256 && 0 <= b2 < 256
    ensures 0 <= b0 / 4 < 64 && 0 <= (b0 % 4) * 16 < 64
    ensures 0 <= (b0 % 4) * 16 + b1 / 16 < 64 && 0 <= (b1 % 16) * 4 < 64
    ensures 0 <= (b1 % 16) * 4 + b2 / 64 < 64 && 0 <= b2 % 64 < 64
  {
  }

  lemma {:induction false} EncodeHasNoNewlines(b: string)
    requires IsBytes(b)
    ensures StripNewlines(Encode(b)) == Encode(b)
  {
    if |b| > 0 {
      var e := Encode(b);
      var head := e[..4];
      var tail := if |b| > 3 then Encode(b[3..]) else "";
      if |b| > 3 {
        EncodeHasNoNewlines(b[3..]);
      }
      assert |b| <= 3 ==> |e| == 4;
      assert e == head + tail;
      assert forall k | 0 <= k < 4 :: IsAlphabet(head[k]) || head[k] == '=';
      StripAppend(head, tail);
    }
  }

  lemma {:induction false} StripAppend(a: string, b: string)
    requires '\n' !in a && '\r' !in a
    ensures StripNewlines(a + b) == a + StripNewlines(b)
  {
    if |a| > 0 {
      assert (a + b)[1..] == a[1..] + b;
      StripAppend(a[1..], b);
    } else {
      assert a + b == b;
    }
  }

  /** Decoding what Encode produced gives back the original bytes. */
  lemma {:induction false} DecodeEncode(b: string)
    requires IsBytes(b)
    ensures Decode(Encode(b)) == Some(b)
  {
    EncodeHasNoNewlines(b);
    DecodeGroupsEncode(b);
  }

  lemma {:induction false} DecodeGroupsEncode(b: string)
    requires IsBytes(b)
    ensures DecodeGroups(Encode(b)) == Some(b)
  {
    if |b| == 1 {
      DecodeOneByte(b);
    } else if |b| == 2 {
      DecodeTwoBytes(b);
    } else if |b| >= 3 {
      var e := Encode(b);
      var g := e[..4];
      var tail := Encode(b[3..]);
      assert e == g + tail;
      GroupRoundTrip(b, g);
      if |b| == 3 {
        assert e == g;
        assert [b[0], b[1], b[2]] == b;
      } else {
        assert e[4..] == tail;
        DecodeGroupsEncode(b[3..]);
        assert b == [b[0], b[1], b[2]] + b[3..];
      }
    }
  }

  lemma DecodeOneByte(b: string)
    requires IsBytes(b) && |b| == 1
    ensures DecodeGroups(Encode(b)) == Some(b)
  {
    var e := Encode(b);
    var x := b[0] as int;
    var s0, s1 := SextetOf(e[0]), SextetOf(e[1]);
    assert s0 == x / 4 && s1 == (x % 4) * 16;
    Recombine16(x % 4, 0);
    assert s0 * 4 + s1 / 16 == x;
    assert !FullGroup(e) && !IsAlphabet(e[2]);
    assert DecodeGroups(e) == Some([Byte0(e)]);
    assert [b[0]] == b;
  }

  lemma DecodeTwoBytes(b: string)
    requires IsBytes(b) && |b| == 2
    ensures DecodeGroups(Encode(b)) == Some(b)
  {
    var e := Encode(b);
    var x, y := b[0] as int, b[1] as int;
    var s0, s1, s2 := SextetOf(e[0]), SextetOf(e[1]), SextetOf(e[2]);
    assert s0 == x / 4 && s1 == (x % 4) * 16 + y / 16 && s2 == (y % 16) * 4;
    Recombine16(x % 4, y / 16);
    Recombine4(y % 16, 0);
    assert s0 * 4 + s1 / 16 == x;
    assert (s1 % 16) * 16 + s2 / 4 == y;
    assert !FullGroup(e);
    assert DecodeGroups(e) == Some([Byte0(e), Byte1(e)]);
    assert [b[0], b[1]] == b;
  }

  /** Dividing a*16 + r by 16 recovers a and leaves r. */
  lemma Recombine16(a: int, r: int)
    requires 0 <= r < 16
    ensures (a * 16 + r) / 16 == a && (a * 16 + r) % 16 == r
  {
  }

  /** Dividing a*4 + r by 4 recovers a and leaves r. */
  lemma Recombine4(a: int, r: int)
    requires 0 <= r < 4
    ensures (a * 4 + r) / 4 == a && (a * 4 + r) % 4 == r
  {
  }

  lemma GroupRoundTrip(b: string, g: string)
    requires IsBytes(b) && |b| >= 3
    requires g == [CharOf(b[0] as int / 4), CharOf((b[0] as int % 4) * 16 + b[1] as int / 16),
                   CharOf((b[1] as int % 16) * 4 + b[2] as int / 64), CharOf(b[2] as int % 64)]
    ensures FullGroup(g)
    ensures Byte0(g) == b[0] && Byte1(g) == b[1] && Byte2(g) == b[2]
  {
    var x, y, z := b[0] as int, b[1] as int, b[2] as int;
    Recombine16(x % 4, y / 16);
    Recombine4(y % 16, z / 64);
  }
}

=== FILE: buildinfo.dfy ===
/**
 * Build information (version/version.go): one comma-separated string set at
 * build time, split into the version, revision, branch, build user and build
 * date when it has exactly five parts.
 */
module BuildInfo {
  import opened GoStrings

  datatype Build = Build(version: string, revision: string, branch: string, buildUser: string, buildDate: string)

  /** SetBuildInformation: the new values of the five variables, given their current ones. */
  function SetBuildInformation(buildInformation: string, current: Build): (r: Build)
    ensures |Split(buildInformation, ',')| != 5 ==> r == current
    ensures |Split(buildInformation, ',')| == 5 ==>
              var parts := Split(buildInformation, ',');
              r == Build(parts[0], parts[1], parts[2], parts[3], parts[4])
  {
    var parts := Split(buildInformation, ',');
    if |parts| == 5 then Build(parts[0], parts[1], parts[2], parts[3], parts[4]) else current
  }

  /** The result does not depend on the current values once it applies, so a second call changes nothing. */
  lemma SetBuildInformationIdempotent(buildInformation: string, current: Build)
    ensures var once := SetBuildInformation(buildInformation, current);
            SetBuildInformation(buildInformation, once) == once
  {
  }

  /** An unset build string (a single empty part) leaves every variable as it was. */
  lemma EmptyBuildInformation(current: Build)
    ensures SetBuildInformation("", current) == current
  {
    assert ',' !in "";
    assert Split("", ',') == [""];
  }

  /** Five comma-free fields joined with commas are read back field by field. */
  lemma BuildInformationRoundTrip(b: Build, current: Build)
    requires ',' !in b.version && ',' !in b.revision && ',' !in b.branch
    requires ',' !in b.buildUser && ',' !in b.buildDate
    ensures SetBuildInformation(Join([b.version, b.revision, b.branch, b.buildUser, b.buildDate], ","), current) == b
  {
    var parts := [b.version, b.revision, b.branch, b.buildUser, b.buildDate];
    assert forall i | 0 <= i < |parts| :: ',' !in parts[i];
    SplitJoin(parts, ',');
  }
}

=== FILE: clientkv.dfy ===
/**
 * The middle generation of the KV read path (vault/client.go): no namespaces,
 * the preflight decides the KV version, a version 2 response must carry its
 * data as an object, and the conversion supports base64-encoded binary values.
 * The token renewal loop is reduced to the delay it chooses between renewals.
 */
module ClientKV {
  import opened Wrappers
  import opened Values
  import opened GoStrings
  import opened GoTime
  import KvHelpers
  import Convert

  /** The read GetSecret issues after the preflight, or the preflight's failure. */
  function ReadRequestFor(path: string, version: int, preflight: KvHelpers.PreflightResponse)
    : (r: Result<ReadRequest, Failure>)
    ensures r.Ok? <==> KvHelpers.IsKVv2(preflight).Ok?
    ensures r.Ok? ==> r.value.namespace == None
    ensures r.Ok? && !KvHelpers.IsKVv2(preflight).value.1 ==> r.value.path == path && r.value.params == map[]
    ensures r.Ok? && KvHelpers.IsKVv2(preflight).value.1 ==>
              r.value.path == KvHelpers.AddPrefixToVKVPath(path, KvHelpers.IsKVv2(preflight).value.0, "data")
              && r.value.params == KvHelpers.VersionParams(version)
  {
    var kv :- KvHelpers.IsKVv2(preflight);
    Ok(if kv.1 then ReadRequest(None, KvHelpers.AddPrefixToVKVPath(path, kv.0, "data"), KvHelpers.VersionParams(version))
       else ReadRequest(None, path, map[]))
  }

  /** The data to convert: on version 2 the `data` field, which must be an object. */
  function SecretData(secret: Secret, v2: bool): (r: Result<map<string, Value>, Failure>)
    ensures !v2 ==> r == Ok(secret.data)
    ensures v2 && Lookup(secret.data, "data").Object? ==> r == Ok(secret.data["data"].fields)
    ensures v2 && !Lookup(secret.data, "data").Object? ==> r == Err(KvHelpers.ParseSecretError)
  {
    if !v2 then Ok(secret.data)
    else match AsObject(Lookup(secret.data, "data"))
      case Some(fields) => Ok(fields)
      case None => Err(KvHelpers.ParseSecretError)
  }

  /**
   * GetSecret: preflight, read, unwrap and convert. The secret engine named
   * in the resource is not consulted; the preflight alone decides.
   */
  function GetSecret(secretEngine: string, path: string, keys: seq<string>, version: int, isBinary: bool,
                     preflight: KvHelpers.PreflightResponse, read: ReadRequest -> ReadResponse,
                     toJson: Value -> string)
    : (r: Result<map<string, string>, Failure>)
    ensures r.Ok? ==> |r.value| > 0
    ensures KvHelpers.IsKVv2(preflight).Err? ==> r == Err(KvHelpers.IsKVv2(preflight).error)
    ensures r.Ok? ==> ReadRequestFor(path, version, preflight).Ok?
                      && read(ReadRequestFor(path, version, preflight).value).Found?
    ensures r.Ok? ==>
              var secret := read(ReadRequestFor(path, version, preflight).value).secret;
              var v2 := KvHelpers.IsKVv2(preflight).value.1;
              SecretData(secret, v2).Ok?
              && Convert.ConvertData(SecretData(secret, v2).value, keys, isBinary, toJson) == Ok(r.value)
    ensures ReadRequestFor(path, version, preflight).Ok? && read(ReadRequestFor(path, version, preflight).value).Missing? ==>
              r == Err(KvHelpers.SecretIsNilError)
    ensures ReadRequestFor(path, version, preflight).Ok? && read(ReadRequestFor(path, version, preflight).value).ReadFailed? ==>
              r == Err(Error(read(ReadRequestFor(path, version, preflight).value).message))
    ensures ReadRequestFor(path, version, preflight).Ok? && read(ReadRequestFor(path, version, preflight).value).Found? ==>
              var found := SecretData(read(ReadRequestFor(path, version, preflight).value).secret, KvHelpers.IsKVv2(preflight).value.1);
              (found.Err? ==> r == Err(found.error))
              && (found.Ok? ==>
                    var converted := Convert.ConvertData(found.value, keys, isBinary, toJson);
                    (converted.Err? ==> r == Err(converted.error))
                    && (converted.Ok? && |converted.value| == 0 ==> r == Err(KvHelpers.InvalidSecretDataError))
                    && (converted.Ok? && |converted.value| > 0 ==> r == Ok(converted.value)))
  {
    var kv :- KvHelpers.IsKVv2(preflight);
    var request :=
      if kv.1 then ReadRequest(None, KvHelpers.AddPrefixToVKVPath(path, kv.0, "data"), KvHelpers.VersionParams(version))
      else ReadRequest(None, path, map[]);
    match read(request)
    case ReadFailed(message) => Err(Error(message))
    case Missing => Err(KvHelpers.SecretIsNilError)
    case Found(secret) =>
      var secretData :- SecretData(secret, kv.1);
      var data :- Convert.ConvertData(secretData, keys, isBinary, toJson);
      if |data| == 0 then Err(KvHelpers.InvalidSecretDataError) else Ok(data)
  }

  /** The engine argument changes nothing. */
  lemma SecretEngineIgnored(e1: string, e2: string, path: string, keys: seq<string>, version: int, isBinary: bool,
                            preflight: KvHelpers.PreflightResponse, read: ReadRequest -> ReadResponse,
                            toJson: Value -> string)
    ensures GetSecret(e1, path, keys, version, isBinary, preflight, read, toJson)
            == GetSecret(e2, path, keys, version, isBinary, preflight, read, toJson)
  {
  }

  /** A version 2 response whose `data` is missing or not an object cannot be parsed. */
  lemma V2WithoutDataObject(path: string, keys: seq<string>, version: int, isBinary: bool,
                            mount: string, secret: Secret, toJson: Value -> string)
    requires !Lookup(secret.data, "data").Object?
    ensures var preflight := KvHelpers.Answer(map["path" := Text(mount), "options" := Object(map["version" := Text("2")])]);
            GetSecret("kv", path, keys, version, isBinary, preflight, _ => Found(secret), toJson)
            == Err(KvHelpers.ParseSecretError)
  {
    KvHelpers.PreflightVersionMapping(mount, "2");
  }

  /**
   * RenewToken's sleep after one renewal attempt, in nanoseconds: the retry
   * interval after a failure, the renewal interval after a success, each
   * truncated to whole seconds and then scaled by `time.Second` with the
   * 64-bit wrap of time.Duration.
   */
  function RenewDelay(renewed: bool, renewalInterval: real, retryInterval: real): (d: int)
    ensures renewed ==> d == Seconds(Truncate(renewalInterval))
    ensures !renewed ==> d == Seconds(Truncate(retryInterval))
    ensures MinInt64 <= d <= MaxInt64
    ensures renewed && renewalInterval >= 0.0 && Truncate(renewalInterval) * Second <= MaxInt64 ==>
              d % Second == 0 && 0 <= d <= (renewalInterval * Second as real).Floor
    ensures !renewed && retryInterval >= 0.0 && Truncate(retryInterval) * Second <= MaxInt64 ==>
              d % Second == 0 && 0 <= d <= (retryInterval * Second as real).Floor
  {
    var interval := if renewed then renewalInterval else retryInterval;
    var n := Truncate(interval);
    assert interval >= 0.0 ==> n * Second <= (interval * Second as real).Floor by {
      if interval >= 0.0 {
        assert n as real * Second as real <= interval * Second as real;
      }
    }
    Seconds(n)
  }

  /**
   * With the defaults vault/vault.go installs (renewal at half the lease,
   * retry after 30 seconds), a success waits the whole seconds of half the
   * lease and a failure waits 30 seconds.
   */
  lemma RenewDelayDefaults(lease: nat)
    ensures RenewDelay(true, lease as real * 0.5, 30.0) == Seconds(lease / 2)
    ensures (lease / 2) * Second <= MaxInt64 ==> RenewDelay(true, lease as real * 0.5, 30.0) == (lease / 2) * Second
    ensures RenewDelay(false, lease as real * 0.5, 30.0) == 30 * Second
  {
    var half := lease as real * 0.5;
    var q := lease / 2;
    assert lease == 2 * q || lease == 2 * q + 1;
    assert q as real <= half < q as real + 1.0;
    assert Truncate(half) == q;
  }
}

=== FILE: controller.dfy ===
/**
 * The current reconciler (internal/controller/vaultsecret_controller.go):
 * finalizer handling, client selection, the restricted-namespace skip, the
 * fetch by secret engine, building the secret, and creating, merging or
 * replacing it, with every outcome recorded in one status condition and in
 * the reconciliation metrics.
 *
 * The cluster, the Vault client and the template engine are oracles bundled
 * in `Cluster`; a reconcile is a pure function from them to its `Outcome`.
 */
module Controller {
  import opened Wrappers
  import opened Values
  import opened Api
  import opened GoStrings
  import opened GoTime
  import opened KubeSecrets
  import Validators

  const ConditionTypeSecretCreated := "SecretCreated"
  const ReasonFetchFailed := "FetchFailed"
  const ReasonCreated := "Created"
  const ReasonCreateFailed := "CreateFailed"
  const ReasonUpdated := "Updated"
  const ReasonUpdateFailed := "UpdateFailed"
  const ReasonMergeFailed := "MergeFailed"
  const ReasonInvalidResource := "InvalidResource"

  const Finalizer := "vaultsecrets.ricoberger.de/finalizer"
  const KvEngine := "kv"
  const PkiEngine := "pki"
  const MergeStrategy := "Merge"

  const SharedClientMissing := "shared client not initialized and vaultRole property missing"
  const TemplateErrorPrefix := "template ERROR: "
  const SecretCreatedMessage := "Secret was created"
  const SecretUpdatedMessage := "Secret was updated"

  /** The Vault client of the internal vault package, as the reconciler uses it. */
  datatype VaultClient = VaultClient(
    restricted: bool,
    rootNamespace: string,
    pkiRenew: int,   // GetPKIRenew, in nanoseconds
    // GetSecret(path, keys, version, isBinary, vaultNamespace)
    getSecret: (string, seq<string>, int, bool, string) -> Result<map<string, string>, string>,
    // GetCertificate(path, role, engineOptions): the data and the expiration instant in nanoseconds
    getCertificate: (string, string, map<string, string>) -> Result<(map<string, string>, int), string>)

  /** Everything a reconcile observes. Functions answer the calls it makes; an error is a message. */
  datatype Cluster = Cluster(
    getResource: Lookup<VaultSecret>,
    updateResource: VaultSecret -> Option<string>,
    createClient: string -> Result<VaultClient, string>,
    sharedClient: Option<VaultClient>,
    reconciliationTime: int,
    ownerError: Option<string>,   // what SetControllerReference returns
    getSecret: (string, string) -> Lookup<KubeSecret>,
    createSecret: KubeSecret -> Option<string>,
    updateSecret: KubeSecret -> Option<string>,
    runTemplate: (VaultSecret, string, map<string, string>) -> Result<string, string>,
    now: int)

  // ----------------------------------------------------------- finalizers

  /** controllerutil.RemoveFinalizer: every occurrence goes, the rest keeps its order. */
  function Without(finalizers: seq<string>, f: string): (r: seq<string>)
    ensures forall x :: x in r <==> x in finalizers && x != f
    ensures |r| <= |finalizers|
    ensures f !in finalizers ==> r == finalizers
  {
    if |finalizers| == 0 then []
    else
      var rest := Without(finalizers[1..], f);
      assert forall x :: x in finalizers <==> x == finalizers[0] || x in finalizers[1..] by {
        assert finalizers == [finalizers[0]] + finalizers[1..];
      }
      if finalizers[0] == f then rest else [finalizers[0]] + rest
  }

  // ------------------------------------------------------------ conditions

  /**
   * updateConditions: count the reconciliation under its status, set the
   * status gauge, and write the resource back with one condition describing
   * this reconcile.
   */
  function UpdateConditions(instance: VaultSecret, reason: string, message: string, status: string, now: int)
    : (actions: seq<Action>)
    ensures |actions| == 3 && actions[0] == CountReconciliation(status)
    ensures actions[1].SetStatusGauge? && (actions[1].value == 1 <==> status == ConditionTrue)
    ensures actions[1].value == 0 || actions[1].value == 1
    ensures actions[2].UpdateStatus? && |actions[2].resource.conditions| == 1
    ensures var c := actions[2].resource.conditions[0];
            c.conditionType == ConditionTypeSecretCreated && c.observedGeneration == instance.generation
            && c.status == status && c.reason == reason && c.message == message && c.lastTransitionTime == now
    ensures actions[2].resource.(conditions := instance.conditions) == instance
    ensures forall i | 0 <= i < |actions| :: !actions[i].UpdateResource? && !actions[i].DeleteMetrics?
  {
    var condition := Condition(ConditionTypeSecretCreated, status, instance.generation, now, reason, message);
    [CountReconciliation(status),
     SetStatusGauge(if status == ConditionTrue then 1 else 0),
     UpdateStatus(instance.(conditions := [condition]))]
  }

  /** The outcome's error, when it is an error rather than a panic, is the message of a final False condition. */
  predicate FailureRecorded(o: Outcome) {
    o.error.Some? && o.error.value.Error? ==>
      |o.actions| > 0 && o.actions[|o.actions| - 1].UpdateStatus?
      && |o.actions[|o.actions| - 1].resource.conditions| == 1
      && o.actions[|o.actions| - 1].resource.conditions[0].status == ConditionFalse
      && o.actions[|o.actions| - 1].resource.conditions[0].message == o.error.value.message
  }

  /** A reconcile that wrote the secret ends by recording a True condition. */
  predicate SuccessRecorded(o: Outcome) {
    o.error.None? && WritesSecret(o.actions) ==>
      |o.actions| > 0 && o.actions[|o.actions| - 1].UpdateStatus?
      && |o.actions[|o.actions| - 1].resource.conditions| == 1
      && o.actions[|o.actions| - 1].resource.conditions[0].status == ConditionTrue
  }

  /** Effects that leave the resource's finalizers and metrics series alone. */
  predicate KeepsResource(o: Outcome) {
    forall i | 0 <= i < |o.actions| :: !o.actions[i].UpdateResource? && !o.actions[i].DeleteMetrics?
  }

  /** Giving up after `prior` effects: record the failure and return the error without a requeue. */
  function Fail(prior: seq<Action>, instance: VaultSecret, reason: string, message: string, now: int)
    : (o: Outcome)
    ensures o.error == Some(Error(message)) && o.requeueAfter == 0
    ensures |o.actions| == |prior| + 3 && o.actions[..|prior|] == prior
    ensures o.actions[|prior|] == CountReconciliation(ConditionFalse)
    ensures o.actions[|o.actions| - 1] == UpdateStatus(instance.(conditions := [
              Condition(ConditionTypeSecretCreated, ConditionFalse, instance.generation, now, reason, message)]))
    ensures FailureRecorded(o)
  {
    Outcome(prior + UpdateConditions(instance, reason, message, ConditionFalse, now), 0, Some(Error(message)))
  }

  // ------------------------------------------------------------- requeue

  /**
   * The requeue delay after a PKI certificate was issued: the time until
   * expiration less the renewal margin, or zero when that is not positive.
   * time.Until saturates and the subtraction of durations wraps.
   */
  function PkiRequeue(expiration: int, now: int, pkiRenew: int): (after: int)
    ensures 0 <= after <= MaxInt64
    ensures MinInt64 <= expiration - now <= MaxInt64 && MinInt64 <= expiration - now - pkiRenew <= MaxInt64 ==>
              after == if expiration - now - pkiRenew > 0 then expiration - now - pkiRenew else 0
  {
    var ra := Wrap64(Until(expiration, now) - pkiRenew);
    if ra <= 0 then 0 else ra
  }

  /** A certificate that expires within the renewal margin gets no timed requeue (RequeueAfter 0). */
  lemma PkiRenewedWithinMargin(expiration: int, now: int, pkiRenew: int)
    requires 0 <= pkiRenew && now <= expiration <= now + pkiRenew
    requires expiration - now <= MaxInt64 && pkiRenew <= MaxInt64
    ensures PkiRequeue(expiration, now, pkiRenew) == 0
  {
  }

  // ------------------------------------------------------- building secrets

  /**
   * newSecretForCR: a secret named and placed like the resource, carrying
   * its labels, annotations and type; its data is the Vault data, or one
   * entry per template when the resource has templates.
   */
  function NewSecretForCR(cr: VaultSecret, data: Option<map<string, string>>,
                          runTemplate: (VaultSecret, string, map<string, string>) -> Result<string, string>)
    : (r: Result<KubeSecret, Failure>)
    ensures r.Ok? <==> TemplatedData(cr, data, runTemplate, TemplateErrorPrefix).Ok?
    ensures r.Ok? ==> r.value.name == cr.name && r.value.namespace == cr.namespace
                      && r.value.labels == cr.labels && r.value.annotations == cr.annotations
                      && r.value.secretType == cr.spec.secretType
    ensures r.Ok? && cr.spec.templates.None? ==> r.value.data == data
    ensures r.Ok? && cr.spec.templates.Some? ==> r.value.data.Some? && r.value.data.value.Keys == cr.spec.templates.value.Keys
    ensures r.Ok? && cr.spec.templates.Some? ==>
              forall k | k in cr.spec.templates.value ::
                r.value.data.value[k] == runTemplate(cr, cr.spec.templates.value[k], data.GetOr(map[])).value
    ensures r.Err? ==> r.error.Error? && HasPrefix(r.error.message, TemplateErrorPrefix)
  {
    var d :- TemplatedData(cr, data, runTemplate, TemplateErrorPrefix);
    Ok(KubeSecret(cr.name, cr.namespace, cr.labels, cr.annotations, d, cr.spec.secretType))
  }

  /**
   * The write is skipped when the secret in the cluster already has the
   * type, data, labels and annotations to be written and the resource's only
   * condition reports success.
   */
  predicate Unchanged(secret: KubeSecret, found: KubeSecret, instance: VaultSecret) {
    secret.secretType == found.secretType && secret.data == found.data
    && secret.labels == found.labels && secret.annotations == found.annotations
    && |instance.conditions| == 1 && instance.conditions[0].status == ConditionTrue
  }

  /**
   * Writing the built secret: create it when the cluster has none, otherwise
   * merge or replace it, skipping writes that would change nothing.
   */
  function WriteSecret(instance: VaultSecret, secret: KubeSecret, requeue: int, c: Cluster): (o: Outcome)
    ensures c.getSecret(secret.name, secret.namespace).NotFound? ==>
              |o.actions| > 0 && o.actions[0] == CreateSecret(secret)
              && (c.createSecret(secret).None? ==>
                    o.error.None? && o.actions[|o.actions| - 1] == UpdateStatus(instance.(conditions := [
                      Condition(ConditionTypeSecretCreated, ConditionTrue, instance.generation, c.now, ReasonCreated, SecretCreatedMessage)])))
              && (c.createSecret(secret).Some? ==> o.error == Some(Error(c.createSecret(secret).value)))
    ensures c.getSecret(secret.name, secret.namespace).GetFailed? ==>
              o == Fail([], instance, ReasonCreateFailed, c.getSecret(secret.name, secret.namespace).message, c.now)
    ensures c.getSecret(secret.name, secret.namespace).Present? ==>
              var found := c.getSecret(secret.name, secret.namespace).item;
              o == if instance.spec.reconcileStrategy == MergeStrategy then MergeInto(instance, secret, found, requeue, c)
                   else ReplaceWith(instance, secret, found, requeue, c)
    ensures o.error.Some? ==> o.requeueAfter == 0
    ensures o.error.None? ==> o.requeueAfter == requeue
    ensures FailureRecorded(o)
    ensures SuccessRecorded(o)
    ensures KeepsResource(o)
  {
    match c.getSecret(secret.name, secret.namespace)
    case NotFound =>
      (match c.createSecret(secret)
       case Some(m) =>
         var o := Fail([CreateSecret(secret)], instance, ReasonCreateFailed, m, c.now);
         assert o.actions == [CreateSecret(secret)] + UpdateConditions(instance, ReasonCreateFailed, m, ConditionFalse, c.now);
         o
       case None =>
         var status := UpdateConditions(instance, ReasonCreated, SecretCreatedMessage, ConditionTrue, c.now);
         var o := Outcome([CreateSecret(secret)] + status, requeue, None);
         assert o.actions[|o.actions| - 1] == status[2];
         o)
    case GetFailed(m) => RecordCreateFailed(instance, m, c)
    case Present(found) =>
      if instance.spec.reconcileStrategy == MergeStrategy then MergeInto(instance, secret, found, requeue, c)
      else ReplaceWith(instance, secret, found, requeue, c)
  }

  /** The Merge strategy: keep the keys only the secret in the cluster has. */
  function MergeInto(instance: VaultSecret, secret: KubeSecret, found: KubeSecret, requeue: int, c: Cluster)
    : (o: Outcome)
    ensures MergeSecretData(secret, found).Err? ==> o == Outcome([], 0, Some(MergeSecretData(secret, found).error))
    ensures MergeSecretData(secret, found).Ok? ==>
              var merged := MergeSecretData(secret, found).value;
              (Unchanged(merged, found, instance) <==> o == Outcome([], requeue, None))
              && (!Unchanged(merged, found, instance) ==> |o.actions| > 0 && o.actions[0] == UpdateSecret(merged))
              && (!Unchanged(merged, found, instance) ==> o == Updated(instance, merged, ReasonMergeFailed, requeue, c))
    ensures o.error.Some? ==> o.requeueAfter == 0
    ensures o.error.None? ==> o.requeueAfter == requeue
    ensures FailureRecorded(o)
    ensures SuccessRecorded(o)
    ensures KeepsResource(o)
  {
    match MergeSecretData(secret, found)
    case Err(panic) => Outcome([], 0, Some(panic))
    case Ok(merged) =>
      if Unchanged(merged, found, instance) then Outcome([], requeue, None)
      else Updated(instance, merged, ReasonMergeFailed, requeue, c)
  }

  /** The Replace strategy: write the built secret as it is. */
  function ReplaceWith(instance: VaultSecret, secret: KubeSecret, found: KubeSecret, requeue: int, c: Cluster)
    : (o: Outcome)
    ensures Unchanged(secret, found, instance) ==>
              o == Outcome([CountReconciliation(ConditionTrue), SetStatusGauge(1)], requeue, None)
    ensures !Unchanged(secret, found, instance) ==> |o.actions| > 0 && o.actions[0] == UpdateSecret(secret)
    ensures !Unchanged(secret, found, instance) ==> o == Updated(instance, secret, ReasonUpdateFailed, requeue, c)
    ensures o.error.Some? ==> o.requeueAfter == 0
    ensures o.error.None? ==> o.requeueAfter == requeue
    ensures FailureRecorded(o)
    ensures SuccessRecorded(o)
    ensures KeepsResource(o)
  {
    if Unchanged(secret, found, instance) then
      Outcome([CountReconciliation(ConditionTrue), SetStatusGauge(1)], requeue, None)
    else Updated(instance, secret, ReasonUpdateFailed, requeue, c)
  }

  /** Updating the secret in the cluster, and recording the result under `failReason` or as Updated. */
  function Updated(instance: VaultSecret, secret: KubeSecret, failReason: string, requeue: int, c: Cluster)
    : (o: Outcome)
    ensures |o.actions| > 0 && o.actions[0] == UpdateSecret(secret)
    ensures c.updateSecret(secret).Some? ==> o == Fail([UpdateSecret(secret)], instance, failReason, c.updateSecret(secret).value, c.now)
    ensures c.updateSecret(secret).None? ==>
              o.error.None? && o.requeueAfter == requeue
              && o.actions[|o.actions| - 1] == UpdateStatus(instance.(conditions := [
                   Condition(ConditionTypeSecretCreated, ConditionTrue, instance.generation, c.now, ReasonUpdated, SecretUpdatedMessage)]))
    ensures FailureRecorded(o)
    ensures KeepsResource(o)
  {
    match c.updateSecret(secret)
    case Some(m) => Fail([UpdateSecret(secret)], instance, failReason, m, c.now)
    case None =>
      Outcome([UpdateSecret(secret)] + UpdateConditions(instance, ReasonUpdated, SecretUpdatedMessage, ConditionTrue, c.now),
              requeue, None)
  }

  // --------------------------------------------------------------- fetching

  /** Which client serves the resource: one logged in with its own role, or the shared one. */
  function SelectClient(instance: VaultSecret, c: Cluster): Result<VaultClient, string> {
    ChooseClient(instance.spec.vaultRole, c.createClient, c.sharedClient, SharedClientMissing)
  }

  /** A restricted client serves only resources in the operator's own Vault namespace. */
  predicate Ignored(instance: VaultSecret, client: VaultClient) {
    client.restricted && instance.spec.vaultNamespace != client.rootNamespace
  }

  /** Why a fetch was refused: the condition reason and the error message. */
  datatype Refusal = Refusal(reason: string, message: string)

  /** The data of the new secret (None when the engine fetches nothing) and the requeue delay. */
  datatype Fetched = Fetched(data: Option<map<string, string>>, requeueAfter: int)

  /**
   * The fetch by secret engine: kv (also when unset) reads the secret and
   * keeps the base requeue; pki validates the resource, issues a certificate
   * and requeues before it expires; any other engine fetches nothing.
   */
  function FetchData(spec: VaultSecretSpec, client: VaultClient, reconciliationTime: int, now: int)
    : (r: Result<Fetched, Refusal>)
    ensures spec.secretEngine == "" || spec.secretEngine == KvEngine ==>
              var got := client.getSecret(spec.path, spec.keys, spec.version, spec.isBinary, spec.vaultNamespace);
              (got.Err? ==> r == Err(Refusal(ReasonFetchFailed, got.error)))
              && (got.Ok? ==> r == Ok(Fetched(Some(got.value), BaseRequeue(reconciliationTime))))
    ensures spec.secretEngine == PkiEngine && Validators.ValidatePKI(spec).Some? ==>
              r == Err(Refusal(ReasonInvalidResource, Validators.ValidatePKI(spec).value))
    ensures spec.secretEngine == PkiEngine && Validators.ValidatePKI(spec).None? ==>
              var got := client.getCertificate(spec.path, spec.role, spec.engineOptions);
              (got.Err? ==> r == Err(Refusal(ReasonFetchFailed, got.error)))
              && (got.Ok? ==> r == Ok(Fetched(Some(got.value.0), PkiRequeue(got.value.1, now, client.pkiRenew))))
    ensures spec.secretEngine !in {"", KvEngine, PkiEngine} ==> r == Ok(Fetched(None, BaseRequeue(reconciliationTime)))
  {
    if spec.secretEngine == "" || spec.secretEngine == KvEngine then
      match client.getSecret(spec.path, spec.keys, spec.version, spec.isBinary, spec.vaultNamespace)
      case Err(m) => Err(Refusal(ReasonFetchFailed, m))
      case Ok(data) => Ok(Fetched(Some(data), BaseRequeue(reconciliationTime)))
    else if spec.secretEngine == PkiEngine then
      match Validators.ValidatePKI(spec)
      case Some(m) => Err(Refusal(ReasonInvalidResource, m))
      case None =>
        match client.getCertificate(spec.path, spec.role, spec.engineOptions)
        case Err(m) => Err(Refusal(ReasonFetchFailed, m))
        case Ok(issued) => Ok(Fetched(Some(issued.0), PkiRequeue(issued.1, now, client.pkiRenew)))
    else Ok(Fetched(None, BaseRequeue(reconciliationTime)))
  }

  /** Everything after the finalizer is in place: choose the client, then fetch, build and write. */
  function Sync(instance: VaultSecret, c: Cluster): (o: Outcome)
    ensures SelectClient(instance, c).Ok? && Ignored(instance, SelectClient(instance, c).value) ==>
              o == Outcome([], 0, None)
    ensures SelectClient(instance, c).Err? ==>
              o == Fail([], instance, ReasonFetchFailed, SelectClient(instance, c).error, c.now)
    ensures SelectClient(instance, c).Ok? && !Ignored(instance, SelectClient(instance, c).value) ==>
              var fetched := FetchData(instance.spec, SelectClient(instance, c).value, c.reconciliationTime, c.now);
              (fetched.Err? ==> o == Fail([], instance, fetched.error.reason, fetched.error.message, c.now))
              && (fetched.Ok? ==>
                    o == Publish(instance, BuildSecret(instance, fetched.value.data, c), fetched.value.requeueAfter, c))
    ensures o.error.Some? ==> o.requeueAfter == 0
    ensures FailureRecorded(o) && SuccessRecorded(o) && KeepsResource(o)
  {
    match SelectClient(instance, c)
    case Err(m) => Fail([], instance, ReasonFetchFailed, m, c.now)
    case Ok(client) =>
      if Ignored(instance, client) then Outcome([], 0, None)
      else
        match FetchData(instance.spec, client, c.reconciliationTime, c.now)
        case Err(refusal) => Fail([], instance, refusal.reason, refusal.message, c.now)
        case Ok(fetched) => Publish(instance, BuildSecret(instance, fetched.data, c), fetched.requeueAfter, c)
  }

  /** The secret to write, or the message of why it cannot be built or owned by the resource. */
  function BuildSecret(instance: VaultSecret, data: Option<map<string, string>>, c: Cluster)
    : (r: Result<KubeSecret, string>)
    ensures NewSecretForCR(instance, data, c.runTemplate).Err? ==>
              r == Err(NewSecretForCR(instance, data, c.runTemplate).error.message)
    ensures NewSecretForCR(instance, data, c.runTemplate).Ok? && c.ownerError.Some? ==> r == Err(c.ownerError.value)
    ensures NewSecretForCR(instance, data, c.runTemplate).Ok? && c.ownerError.None? ==>
              r == Ok(NewSecretForCR(instance, data, c.runTemplate).value)
  {
    match NewSecretForCR(instance, data, c.runTemplate)
    case Err(f) => Err(f.message)
    case Ok(secret) =>
      match c.ownerError
      case Some(m) => Err(m)
      case None => Ok(secret)
  }

  /** Writing the built secret with the requeue the fetch decided, or recording why it could not be built. */
  function Publish(instance: VaultSecret, built: Result<KubeSecret, string>, requeue: int, c: Cluster): (o: Outcome)
    ensures built.Err? ==> o == Fail([], instance, ReasonCreateFailed, built.error, c.now)
    ensures built.Ok? ==> o == WriteSecret(instance, built.value, requeue, c)
    ensures o.error.Some? ==> o.requeueAfter == 0
    ensures o.error.None? ==> o.requeueAfter == requeue
    ensures FailureRecorded(o) && SuccessRecorded(o) && KeepsResource(o)
  {
    if built.Err? then RecordCreateFailed(instance, built.error, c)
    else WriteSecret(instance, built.value, requeue, c)
  }

  /** Giving up before any write: the failure is recorded as CreateFailed and nothing else happens. */
  function RecordCreateFailed(instance: VaultSecret, message: string, c: Cluster): (o: Outcome)
    ensures o == Fail([], instance, ReasonCreateFailed, message, c.now)
    ensures o.error.Some? && o.requeueAfter == 0
    ensures FailureRecorded(o) && SuccessRecorded(o) && KeepsResource(o)
  {
    var o := Fail([], instance, ReasonCreateFailed, message, c.now);
    var status := UpdateConditions(instance, ReasonCreateFailed, message, ConditionFalse, c.now);
    assert o.actions == status by {
      assert o.actions == [] + status;
      assert [] + status == status;
    }
    o
  }

  // -------------------------------------------------------------- reconcile

  /** A resource marked for deletion: drop its metrics and release the finalizer. */
  function Finalize(instance: VaultSecret, c: Cluster): (o: Outcome)
    ensures |o.actions| > 0 && o.actions[0] == DeleteMetrics
    ensures Finalizer !in instance.finalizers ==> o == Outcome([DeleteMetrics], 0, None)
    ensures Finalizer in instance.finalizers ==>
              |o.actions| > 1 && o.actions[1] == UpdateResource(instance.(finalizers := Without(instance.finalizers, Finalizer)))
    ensures o.error.Some? ==> o.requeueAfter == 0
    ensures o.error.None? ==> o.requeueAfter == 0
    ensures FailureRecorded(o)
    ensures !WritesSecret(o.actions)
  {
    if Finalizer !in instance.finalizers then Outcome([DeleteMetrics], 0, None)
    else
      var released := instance.(finalizers := Without(instance.finalizers, Finalizer));
      match c.updateResource(released)
      case Some(m) => Fail([DeleteMetrics, UpdateResource(released)], released, ReasonUpdateFailed, m, c.now)
      case None => Outcome([DeleteMetrics, UpdateResource(released)], 0, None)
  }

  /** Reconcile, for the resource `c.getResource` answers with. */
  function Reconcile(c: Cluster): (o: Outcome)
    ensures c.getResource.NotFound? ==> o == Outcome([], 0, None)
    ensures c.getResource.GetFailed? ==> o == Outcome([], 0, Some(Error(c.getResource.message)))
    ensures o.error.Some? ==> o.requeueAfter == 0
    ensures c.getResource.Present? ==> FailureRecorded(o)
    ensures SuccessRecorded(o)
    ensures c.getResource.Present? && c.getResource.item.markedForDeletion ==>
              |o.actions| > 0 && o.actions[0] == DeleteMetrics && !WritesSecret(o.actions)
    ensures c.getResource.Present? && !c.getResource.item.markedForDeletion ==>
              forall i | 0 <= i < |o.actions| :: o.actions[i] != DeleteMetrics
    ensures c.getResource.Present? && !c.getResource.item.markedForDeletion
            && Finalizer !in c.getResource.item.finalizers ==>
              |o.actions| > 0 && o.actions[0].UpdateResource? && Finalizer in o.actions[0].resource.finalizers
    ensures c.getResource.Present? && c.getResource.item.markedForDeletion ==> o == Finalize(c.getResource.item, c)
    ensures c.getResource.Present? && !c.getResource.item.markedForDeletion
            && Finalizer in c.getResource.item.finalizers ==>
              o == Sync(c.getResource.item, c)
    ensures c.getResource.Present? && !c.getResource.item.markedForDeletion
            && Finalizer !in c.getResource.item.finalizers ==>
              var guarded := c.getResource.item.(finalizers := c.getResource.item.finalizers + [Finalizer]);
              (c.updateResource(guarded).Some? ==>
                 o == Fail([UpdateResource(guarded)], guarded, ReasonUpdateFailed, c.updateResource(guarded).value, c.now))
              && (c.updateResource(guarded).None? ==>
                    o.actions == [UpdateResource(guarded)] + Sync(guarded, c).actions
                    && o.requeueAfter == Sync(guarded, c).requeueAfter && o.error == Sync(guarded, c).error)
  {
    match c.getResource
    case NotFound => Outcome([], 0, None)
    case GetFailed(m) => Outcome([], 0, Some(Error(m)))
    case Present(instance) =>
      if instance.markedForDeletion then Finalize(instance, c)
      else if Finalizer in instance.finalizers then Sync(instance, c)
      else
        var guarded := instance.(finalizers := instance.finalizers + [Finalizer]);
        match c.updateResource(guarded)
        case Some(m) => Fail([UpdateResource(guarded)], guarded, ReasonUpdateFailed, m, c.now)
        case None =>
          var rest := Sync(guarded, c);
          PrefixKeepsEffects(UpdateResource(guarded), rest);
          Outcome([UpdateResource(guarded)] + rest.actions, rest.requeueAfter, rest.error)
  }

  lemma PrefixKeepsEffects(first: Action, o: Outcome)
    requires FailureRecorded(o) && SuccessRecorded(o)
    requires !first.CreateSecret? && !first.UpdateSecret?
    ensures var p := Outcome([first] + o.actions, o.requeueAfter, o.error);
            FailureRecorded(p) && SuccessRecorded(p)
  {
    var all := [first] + o.actions;
    if WritesSecret(all) {
      var i :| 0 <= i < |all| && (all[i].CreateSecret? || all[i].UpdateSecret?);
      assert o.actions[i - 1] == all[i];
    }
  }

  // ----------------------------------------------------------------- lemmas

  /**
   * A restricted client ignores resources of other Vault namespaces: nothing
   * is fetched or written and no error is returned.
   */
  lemma RestrictedNamespaceIgnored(c: Cluster, client: VaultClient)
    requires c.getResource.Present? && !c.getResource.item.markedForDeletion
    requires Finalizer in c.getResource.item.finalizers
    requires SelectClient(c.getResource.item, c) == Ok(client)
    requires client.restricted && c.getResource.item.spec.vaultNamespace != client.rootNamespace
    ensures Reconcile(c) == Outcome([], 0, None)
  {
  }

  /**
   * Replacing skips the write exactly when nothing would change; a skipped
   * reconcile still counts as a success.
   */
  lemma ReplaceSkipsExactlyUnchanged(instance: VaultSecret, secret: KubeSecret, found: KubeSecret,
                                     requeue: int, c: Cluster)
    requires instance.spec.reconcileStrategy != MergeStrategy
    requires c.getSecret(secret.name, secret.namespace) == Present(found)
    ensures var o := WriteSecret(instance, secret, requeue, c);
            (!WritesSecret(o.actions) <==> Unchanged(secret, found, instance))
            && (Unchanged(secret, found, instance) ==>
                  o.actions == [CountReconciliation(ConditionTrue), SetStatusGauge(1)] && o.error.None?)
            && (!Unchanged(secret, found, instance) ==> o.actions[0] == UpdateSecret(secret))
            && (!Unchanged(secret, found, instance) && c.updateSecret(secret).Some? ==>
                  o == Fail([UpdateSecret(secret)], instance, ReasonUpdateFailed, c.updateSecret(secret).value, c.now))
            && (!Unchanged(secret, found, instance) && c.updateSecret(secret).None? ==>
                  o.error.None? && o.actions[|o.actions| - 1].UpdateStatus?
                  && o.actions[|o.actions| - 1].resource.conditions[0].reason == ReasonUpdated)
  {
    var o := WriteSecret(instance, secret, requeue, c);
    if !Unchanged(secret, found, instance) {
      assert o.actions[0] == UpdateSecret(secret);
    }
  }

  /**
   * Merging skips the write exactly when the merged secret would change
   * nothing, and a skipped merge records nothing at all.
   */
  lemma MergeSkipsExactlyUnchanged(instance: VaultSecret, secret: KubeSecret, found: KubeSecret,
                                   requeue: int, c: Cluster)
    requires instance.spec.reconcileStrategy == MergeStrategy
    requires c.getSecret(secret.name, secret.namespace) == Present(found)
    requires secret.data.Some?
    ensures var o := WriteSecret(instance, secret, requeue, c);
            var merged := secret.(data := Some(found.data.GetOr(map[]) + secret.data.value));
            (!WritesSecret(o.actions) <==> Unchanged(merged, found, instance))
            && (Unchanged(merged, found, instance) ==> o == Outcome([], requeue, None))
            && (!Unchanged(merged, found, instance) ==> o.actions[0] == UpdateSecret(merged))
            && (!Unchanged(merged, found, instance) && c.updateSecret(merged).Some? ==>
                  o == Fail([UpdateSecret(merged)], instance, ReasonMergeFailed, c.updateSecret(merged).value, c.now))
            && (!Unchanged(merged, found, instance) && c.updateSecret(merged).None? ==>
                  o.error.None? && o.actions[|o.actions| - 1].UpdateStatus?
                  && o.actions[|o.actions| - 1].resource.conditions[0].reason == ReasonUpdated)
  {
    MergeIsOverride(secret.data.value, found.data);
    var o := WriteSecret(instance, secret, requeue, c);
    var merged := secret.(data := Some(found.data.GetOr(map[]) + secret.data.value));
    assert MergeSecretData(secret, found) == Ok(merged);
    if !Unchanged(merged, found, instance) {
      assert o.actions[0] == UpdateSecret(merged);
    }
  }

  /**
   * A secret the previous reconcile wrote, followed by its success
   * condition, is not written again when nothing in Vault changed.
   */
  lemma WrittenSecretIsStable(instance: VaultSecret, secret: KubeSecret, requeue: int, c: Cluster, reason: string)
    requires instance.spec.reconcileStrategy != MergeStrategy
    requires c.getSecret(secret.name, secret.namespace) == Present(secret)
    ensures var recorded := UpdateConditions(instance, reason, SecretUpdatedMessage, ConditionTrue, c.now)[2].resource;
            !WritesSecret(WriteSecret(recorded, secret, requeue, c).actions)
  {
    var recorded := UpdateConditions(instance, reason, SecretUpdatedMessage, ConditionTrue, c.now)[2].resource;
    ReplaceSkipsExactlyUnchanged(recorded, secret, secret, requeue, c);
  }

  /**
   * A reconcile from start to finish: a resource that carries the finalizer
   * and reads KV values without templates, whose secret does not exist yet,
   * gets a secret holding exactly those values, then a True condition, and
   * is requeued after the reconciliation time.
   */
  lemma KvSecretCreatedEndToEnd(c: Cluster, instance: VaultSecret, client: VaultClient, values: map<string, string>)
    requires c.getResource == Present(instance)
    requires !instance.markedForDeletion && Finalizer in instance.finalizers
    requires SelectClient(instance, c) == Ok(client) && !Ignored(instance, client)
    requires instance.spec.secretEngine == "" || instance.spec.secretEngine == KvEngine
    requires client.getSecret(instance.spec.path, instance.spec.keys, instance.spec.version, instance.spec.isBinary,
                              instance.spec.vaultNamespace) == Ok(values)
    requires instance.spec.templates.None? && c.ownerError.None?
    requires c.getSecret(instance.name, instance.namespace).NotFound?
    requires c.createSecret(KubeSecret(instance.name, instance.namespace, instance.labels, instance.annotations,
                                       Some(values), instance.spec.secretType)).None?
    ensures var secret := KubeSecret(instance.name, instance.namespace, instance.labels, instance.annotations,
                                     Some(values), instance.spec.secretType);
            Reconcile(c) == Outcome(
              [CreateSecret(secret), CountReconciliation(ConditionTrue), SetStatusGauge(1),
               UpdateStatus(instance.(conditions := [Condition(ConditionTypeSecretCreated, ConditionTrue, instance.generation,
                                                               c.now, ReasonCreated, SecretCreatedMessage)]))],
              BaseRequeue(c.reconciliationTime), None)
  {
    var secret := KubeSecret(instance.name, instance.namespace, instance.labels, instance.annotations,
                             Some(values), instance.spec.secretType);
    assert FetchData(instance.spec, client, c.reconciliationTime, c.now)
           == Ok(Fetched(Some(values), BaseRequeue(c.reconciliationTime)));
    assert BuildSecret(instance, Some(values), c) == Ok(secret);
  }

  /** A resource with any other engine and no templates, merged into a secret with data, panics. */
  lemma NilDataMergePanics(instance: VaultSecret, found: KubeSecret, requeue: int, c: Cluster)
    requires instance.spec.templates.None?
    requires c.getSecret(instance.name, instance.namespace) == Present(found)
    requires instance.spec.reconcileStrategy == MergeStrategy
    requires found.data.Some? && |found.data.value| > 0
    ensures var secret := NewSecretForCR(instance, None, c.runTemplate).value;
            WriteSecret(instance, secret, requeue, c) == Outcome([], 0, Some(NilMapPanic))
  {
  }

  // ------------------------------------------------------- event filtering

  /** What the controller is told about a VaultSecret. */
  datatype Event = Create | Update(oldGeneration: int, newGeneration: int) | Delete | Generic

  /** ignorePredicate: an update passes only when it changed the generation, so status writes do not requeue. */
  predicate Passes(e: Event) {
    match e
    case Update(oldGeneration, newGeneration) => oldGeneration != newGeneration
    case _ => true
  }

  /** The status update a reconcile makes keeps the generation, so it does not trigger another reconcile. */
  lemma StatusUpdateFiltered(instance: VaultSecret, reason: string, message: string, status: string, now: int)
    ensures var written := UpdateConditions(instance, reason, message, status, now)[2].resource;
            !Passes(Update(instance.generation, written.generation))
  {
  }

  // ------------------------------------------------------ template functions

  /**
   * The functions templatingFunctions removes from sprig's hermetic set (key
   * generation, password hashing and randomness): its function map is
   * `FunctionMap(hermetic, ExcludedFunctions)`.
   */
  const ExcludedFunctions: set<string> := {
    "genPrivateKey", "genCA", "genCAWithKey", "genSelfSignedCert", "genSelfSignedCertWithKey",
    "genSignedCert", "genSignedCertWithKey", "htpasswd", "bcrypt", "randInt"}
}

=== FILE: convert.dfy ===
/**
 * The conversion of Vault secret data into Kubernetes secret data: a key
 * filter, then a switch on each selected value's type. The same switch appears
 * in vault/client.go (with the `isBinary` option), in pkg/vault/vault.go (always
 * textual) and, under the name `convertData`, behind vault/kv.go, vault/pki.go
 * and vault/database.go.
 */
module Convert {
  import opened Wrappers
  import opened Values
  import Base64

  const ParseValueError := Error("could not parse secret value")
  const Base64Error := Error("illegal base64 data")

  /** `contains`: the key appears in the list. */
  function ContainsKey(key: string, keys: seq<string>): (b: bool)
    ensures b <==> exists i | 0 <= i < |keys| :: keys[i] == key
  {
    if |keys| == 0 then false
    else keys[0] == key || ContainsKey(key, keys[1..])
  }

  /** An empty key list selects every key; otherwise exactly the listed ones. */
  predicate Selected(key: string, keys: seq<string>) {
    |keys| == 0 || ContainsKey(key, keys)
  }

  /**
   * One value of the switch: objects become their JSON text, strings their
   * bytes (or their base64 decoding when isBinary), number literals their
   * digits, booleans "true"/"false"; null and arrays are rejected.
   */
  function ConvertValue(v: Value, isBinary: bool, toJson: Value -> string): (r: Result<string, Failure>)
    ensures r.Err? <==> !(v.Object? || v.Text? || v.Number? || v.Boolean?)
                        || (v.Text? && isBinary && Base64.Decode(v.text).None?)
    ensures r.Err? ==> r.error in {ParseValueError, Base64Error}
    ensures v.Text? && !isBinary ==> r == Ok(v.text)
    ensures v.Text? && isBinary && Base64.Decode(v.text).Some? ==> r == Ok(Base64.Decode(v.text).value)
    ensures v.Number? ==> r == Ok(v.literal)
    ensures v.Boolean? ==> r == Ok(if v.flag then "true" else "false")
    ensures v.Object? ==> r == Ok(toJson(v))
  {
    match v
    case Object(_) => Ok(toJson(v))
    case Text(s) =>
      if !isBinary then Ok(s)
      else (match Base64.Decode(s)
            case Some(b) => Ok(b)
            case None => Err(Base64Error))
    case Number(literal) => Ok(literal)
    case Boolean(flag) => Ok(if flag then "true" else "false")
    case _ => Err(ParseValueError)
  }

  function SelectedKeys(src: map<string, Value>, keys: seq<string>): set<string> {
    set k | k in src && Selected(k, keys)
  }

  /**
   * convertData: the converted selected entries, or the failure of one of them.
   * Go iterates the map in random order and stops at the first failing key, so
   * which failure is reported depends on the run; the model reports an
   * unsupported value type in preference to a base64 failure, one of the
   * outcomes Go can produce. Both outcomes are errors, and success does not
   * depend on the order.
   */
  function ConvertData(src: map<string, Value>, keys: seq<string>, isBinary: bool, toJson: Value -> string)
    : (r: Result<map<string, string>, Failure>)
    ensures r.Ok? <==> forall k | k in src && Selected(k, keys) :: ConvertValue(src[k], isBinary, toJson).Ok?
    ensures r.Ok? ==> r.value.Keys == SelectedKeys(src, keys)
    ensures r.Ok? ==> forall k | k in r.value :: k in src && ConvertValue(src[k], isBinary, toJson) == Ok(r.value[k])
    ensures r.Err? ==> exists k | k in src && Selected(k, keys) :: ConvertValue(src[k], isBinary, toJson) == Err(r.error)
  {
    var selected := SelectedKeys(src, keys);
    if exists k | k in selected :: ConvertValue(src[k], isBinary, toJson) == Err(ParseValueError) then
      Err(ParseValueError)
    else if exists k | k in selected :: ConvertValue(src[k], isBinary, toJson).Err? then
      Err(Base64Error)
    else
      Ok(map k | k in selected :: ConvertValue(src[k], isBinary, toJson).value)
  }

  /** When every selected value converts to the expected text, that is the result. */
  lemma ConvertExpected(src: map<string, Value>, keys: seq<string>, isBinary: bool, toJson: Value -> string,
                        expected: map<string, string>)
    requires expected.Keys == SelectedKeys(src, keys)
    requires forall k | k in expected :: ConvertValue(src[k], isBinary, toJson) == Ok(expected[k])
    ensures ConvertData(src, keys, isBinary, toJson) == Ok(expected)
  {
    forall k | k in src && Selected(k, keys)
      ensures ConvertValue(src[k], isBinary, toJson).Ok?
    {
      assert k in SelectedKeys(src, keys);
    }
    var r := ConvertData(src, keys, isBinary, toJson);
    assert r.value.Keys == expected.Keys;
    assert r.value == expected;
  }

  /** All-text data read with isBinary=false is copied verbatim. */
  lemma ConvertTextVerbatim(src: map<string, Value>, toJson: Value -> string)
    requires forall k | k in src :: src[k].Text?
    ensures ConvertData(src, [], false, toJson) == Ok(map k | k in src :: src[k].text)
  {
    ConvertExpected(src, [], false, toJson, map k | k in src :: src[k].text);
  }

  /** Every value stored as a base64 string. */
  function EncodeAll(bytes: map<string, string>): (src: map<string, Value>)
    requires forall k | k in bytes :: Base64.IsBytes(bytes[k])
    ensures src.Keys == bytes.Keys
  {
    map k | k in bytes :: Text(Base64.Encode(bytes[k]))
  }

  /**
   * Values stored as the base64 encoding of bytes and read with isBinary=true
   * come back as exactly those bytes.
   */
  lemma ConvertBinaryRoundTrip(bytes: map<string, string>, toJson: Value -> string)
    requires forall k | k in bytes :: Base64.IsBytes(bytes[k])
    ensures ConvertData(EncodeAll(bytes), [], true, toJson) == Ok(bytes)
  {
    var src := EncodeAll(bytes);
    forall k | k in bytes
      ensures ConvertValue(src[k], true, toJson) == Ok(bytes[k])
    {
      Base64.DecodeEncode(bytes[k]);
    }
    assert SelectedKeys(src, []) == bytes.Keys;
    ConvertExpected(src, [], true, toJson, bytes);
  }

  /** Adding keys to the filter can only add entries to a successful result. */
  lemma ConvertFilterMonotone(src: map<string, Value>, keys: seq<string>, more: seq<string>, toJson: Value -> string)
    requires |keys| > 0
    requires ConvertData(src, keys + more, false, toJson).Ok?
    ensures ConvertData(src, keys, false, toJson).Ok?
    ensures ConvertData(src, keys, false, toJson).value.Keys <= ConvertData(src, keys + more, false, toJson).value.Keys
  {
    forall k | ContainsKey(k, keys)
      ensures ContainsKey(k, keys + more)
    {
      var i :| 0 <= i < |keys| && keys[i] == k;
      assert (keys + more)[i] == k;
    }
  }
}

=== FILE: database.dfy ===
/**
 * The database secrets engine adapter (vault/database.go): credentials are
 * read from <path>/creds/<role>, only the username and password are copied,
 * and they expire a lease duration after the read (`time.Duration(lease) *
 * time.Second`, which wraps at 64 bits like every time.Duration product).
 */
module Database {
  import opened Wrappers
  import opened Values
  import opened GoTime
  import Convert

  const CredentialsAreNilError := Error("database credentials is nil")
  const CredentialFields: seq<string> := ["username", "password"]

  function CredsRequest(path: string, role: string): (q: ReadRequest)
    ensures q.path == path + "/creds/" + role && q.params == map[] && q.namespace == None
  {
    ReadRequest(None, path + "/creds/" + role, map[])
  }

  /** Credentials and their expiry, in nanoseconds on the same clock as `now`. */
  datatype Credentials = Credentials(data: map<string, string>, expiresAt: int)

  /** GetDatabaseCreds: the converted credentials, expiring lease seconds after now. */
  function GetDatabaseCreds(path: string, role: string, now: int, read: ReadRequest -> ReadResponse,
                            toJson: Value -> string)
    : (r: Result<Credentials, Failure>)
    ensures read(CredsRequest(path, role)).Missing? ==> r == Err(CredentialsAreNilError)
    ensures read(CredsRequest(path, role)).ReadFailed? ==> r == Err(Error(read(CredsRequest(path, role)).message))
    ensures r.Ok? ==> read(CredsRequest(path, role)).Found?
    ensures r.Ok? ==> r.value.data.Keys <= {"username", "password"}
    ensures r.Ok? ==> r.value.expiresAt == now + Seconds(read(CredsRequest(path, role)).secret.leaseDuration)
    ensures read(CredsRequest(path, role)).Found? ==>
              var data := read(CredsRequest(path, role)).secret.data;
              (r.Ok? <==> Convert.ConvertData(data, CredentialFields, false, toJson).Ok?)
    ensures r.Ok? ==> var data := read(CredsRequest(path, role)).secret.data;
                      r.value.data.Keys == data.Keys * {"username", "password"}
                      && forall k | k in r.value.data :: Convert.ConvertValue(data[k], false, toJson) == Ok(r.value.data[k])
    ensures read(CredsRequest(path, role)).Found? && r.Err? ==>
              var data := read(CredsRequest(path, role)).secret.data;
              exists k | k in data && k in CredentialFields :: Convert.ConvertValue(data[k], false, toJson) == Err(r.error)
  {
    match read(CredsRequest(path, role))
    case ReadFailed(message) => Err(Error(message))
    case Missing => Err(CredentialsAreNilError)
    case Found(secret) =>
      var data :- Convert.ConvertData(secret.data, CredentialFields, false, toJson);
      Ok(Credentials(data, now + Seconds(secret.leaseDuration)))
  }

  /** Text credentials are copied verbatim, with no other key, and an empty response is not an error. */
  lemma CredentialsCopied(user: string, password: string, other: map<string, Value>, now: int, lease: int,
                          path: string, role: string, toJson: Value -> string)
    requires "username" !in other && "password" !in other
    ensures var secret := Secret(other["username" := Text(user)]["password" := Text(password)], lease);
            GetDatabaseCreds(path, role, now, _ => Found(secret), toJson)
            == Ok(Credentials(map["username" := user, "password" := password], now + Seconds(lease)))
    ensures GetDatabaseCreds(path, role, now, _ => Found(Secret(map[], lease)), toJson)
            == Ok(Credentials(map[], now + Seconds(lease)))
  {
    var secret := Secret(other["username" := Text(user)]["password" := Text(password)], lease);
    var expected := map["username" := user, "password" := password];
    assert Convert.SelectedKeys(secret.data, CredentialFields) == {"username", "password"} by {
      assert Convert.ContainsKey("username", CredentialFields);
      assert Convert.ContainsKey("password", CredentialFields);
    }
    Convert.ConvertExpected(secret.data, CredentialFields, false, toJson, expected);
    assert Convert.SelectedKeys(map[], CredentialFields) == {};
    Convert.ConvertExpected(map[], CredentialFields, false, toJson, map[]);
  }
}

=== FILE: gostrings.dfy ===
/**
 * The parts of Go's `strings` and `strconv` packages the operator relies on.
 * A Go `string` and a Go `[]byte` are both byte sequences and converting one
 * into the other copies the bytes unchanged; the model represents both as a
 * Dafny `string`, one character per byte.
 */
module GoStrings {
  import opened Wrappers

  const MinInt64: int := -0x8000_0000_0000_0000
  const MaxInt64: int := 0x7fff_ffff_ffff_ffff
  const MaxUint64: int := 0xffff_ffff_ffff_ffff

  predicate HasPrefix(s: string, prefix: string) {
    |prefix| <= |s| && s[..|prefix|] == prefix
  }

  predicate HasSuffix(s: string, suffix: string) {
    |suffix| <= |s| && s[|s| - |suffix|..] == suffix
  }

  /** strings.TrimPrefix: removes one leading occurrence of the prefix, if any. */
  function TrimPrefix(s: string, prefix: string): (r: string)
    ensures HasPrefix(s, prefix) ==> prefix + r == s
    ensures !HasPrefix(s, prefix) ==> r == s
  {
    if HasPrefix(s, prefix) then s[|prefix|..] else s
  }

  /** strings.TrimSuffix: removes one trailing occurrence of the suffix, if any. */
  function TrimSuffix(s: string, suffix: string): (r: string)
    ensures HasSuffix(s, suffix) ==> r + suffix == s
    ensures !HasSuffix(s, suffix) ==> r == s
  {
    if HasSuffix(s, suffix) then s[..|s| - |suffix|] else s
  }

  /** strings.Contains: the substring occurs somewhere in s. */
  predicate Contains(s: string, sub: string)
    decreases |s|
  {
    HasPrefix(s, sub) || (|s| > 0 && Contains(s[1..], sub))
  }

  /** Position of the first occurrence of c in s. */
  function IndexOf(s: string, c: char): (i: nat)
    requires c in s
    ensures i < |s| && s[i] == c && c !in s[..i]
  {
    if s[0] == c then 0 else 1 + IndexOf(s[1..], c)
  }

  /**
   * strings.Split with a one-character separator: the pieces between the
   * separators, in order. Splitting the empty string yields one empty piece.
   */
  function Split(s: string, c: char): (parts: seq<string>)
    ensures |parts| >= 1
    decreases |s|
  {
    if c in s then
      var i := IndexOf(s, c);
      [s[..i]] + Split(s[i + 1..], c)
    else
      [s]
  }

  /** strings.Join: the parts with the separator between consecutive ones. */
  function Join(parts: seq<string>, sep: string): string {
    if |parts| == 0 then ""
    else if |parts| == 1 then parts[0]
    else parts[0] + sep + Join(parts[1..], sep)
  }

  /** sub occurs in s starting at position i. */
  predicate OccursAt(s: string, sub: string, i: int) {
    0 <= i && i + |sub| <= |s| && s[i..i + |sub|] == sub
  }

  /** strings.Index: the position of the first occurrence of sub in s, or -1 when there is none (first by IndexFirst). */
  function Index(s: string, sub: string): (i: int)
    ensures -1 <= i <= |s|
    ensures i == -1 <==> !Contains(s, sub)
    ensures i >= 0 ==> OccursAt(s, sub, i) && i + |sub| <= |s|
    decreases |s|
  {
    if HasPrefix(s, sub) then
      assert s[..|sub|] == s[0..|sub|];
      0
    else if |s| == 0 then -1
    else
      var k := Index(s[1..], sub);
      if k < 0 then -1
      else
        TailSlice(s, k + 1, k + 1 + |sub|);
        k + 1
  }

  /** No occurrence of sub starts before Index(s, sub): it is the first one. */
  lemma {:induction false} IndexFirst(s: string, sub: string)
    ensures forall j | 0 <= j < Index(s, sub) :: !OccursAt(s, sub, j)
    decreases |s|
  {
    if !HasPrefix(s, sub) && |s| > 0 && Index(s[1..], sub) >= 0 {
      var k := Index(s[1..], sub);
      assert Index(s, sub) == k + 1;
      IndexFirst(s[1..], sub);
      forall j | 0 <= j < k + 1
        ensures !OccursAt(s, sub, j)
      {
        if j == 0 {
          if |sub| <= |s| {
            assert s[0..|sub|] == s[..|sub|];
          }
        } else if j + |sub| <= |s| {
          TailSlice(s, j, j + |sub|);
          assert !OccursAt(s[1..], sub, j - 1);
        }
      }
    } else {
      assert Index(s, sub) <= 0;
    }
  }

  /** A slice of s past its first character is the same slice of s[1..], one position earlier. */
  lemma TailSlice(s: string, a: nat, b: nat)
    requires 1 <= a <= b <= |s|
    ensures s[a..b] == s[1..][a - 1..b - 1]
  {
    assert forall t | 0 <= t < b - a :: s[a..b][t] == s[a + t] == s[1..][a - 1..b - 1][t];
  }

  /**
   * strings.Replace(s, pattern, replacement, 1): Go finds the first
   * occurrence with strings.Index and splices the replacement there.
   */
  function ReplaceFirst(s: string, pattern: string, replacement: string): (r: string)
    requires |pattern| > 0
    ensures Index(s, pattern) == -1 ==> r == s
    ensures Index(s, pattern) >= 0 ==>
              r == s[..Index(s, pattern)] + replacement + s[Index(s, pattern) + |pattern|..]
    ensures !Contains(s, pattern) ==> r == s
    ensures |replacement| == |pattern| ==> |r| == |s|
  {
    var i := Index(s, pattern);
    if i < 0 then s else s[..i] + replacement + s[i + |pattern|..]
  }

  /** A string contains each of its suffixes. */
  lemma {:induction false} SuffixContained(s: string, suffix: string)
    requires HasSuffix(s, suffix)
    ensures Contains(s, suffix)
    decreases |s|
  {
    if |s| == |suffix| {
      assert s[..|suffix|] == s[|s| - |suffix|..];
    } else {
      assert s[1..][|s[1..]| - |suffix|..] == s[|s| - |suffix|..];
      SuffixContained(s[1..], suffix);
    }
  }

  /** Replacing an occurring pattern by a different one of the same length changes the string. */
  lemma ReplaceFirstChanges(s: string, pattern: string, replacement: string)
    requires |pattern| > 0 && |replacement| == |pattern| && replacement != pattern
    requires Contains(s, pattern)
    ensures ReplaceFirst(s, pattern, replacement) != s
  {
    var r := ReplaceFirst(s, pattern, replacement);
    var i := Index(s, pattern);
    assert r[i..i + |pattern|] == replacement;
    assert s[i..i + |pattern|] == pattern;
  }

  // ---------------------------------------------------------------------
  // strconv
  // ---------------------------------------------------------------------

  predicate IsDigit(c: char) {
    '0' <= c <= '9'
  }

  predicate AllDigits(s: string) {
    forall i | 0 <= i < |s| :: IsDigit(s[i])
  }

  /** The value of a string of decimal digits, most significant first. */
  function DigitsValue(s: string): nat
    requires AllDigits(s)
  {
    if |s| == 0 then 0
    else DigitsValue(s[..|s| - 1]) * 10 + (s[|s| - 1] as int - '0' as int)
  }

  /** The decimal digits of a natural number without leading zeros. */
  function NatDigits(n: nat): (s: string)
    ensures |s| >= 1 && AllDigits(s)
  {
    if n < 10 then [('0' as int + n) as char]
    else NatDigits(n / 10) + [('0' as int + n % 10) as char]
  }

  /** The string without one leading sign character, as ParseInt and Atoi strip it. */
  function Magnitude(s: string): (m: string)
    ensures |s| > 0 && (s[0] == '-' || s[0] == '+') ==> m == s[1..]
    ensures |s| == 0 || (s[0] != '-' && s[0] != '+') ==> m == s
  {
    if |s| > 0 && (s[0] == '-' || s[0] == '+') then s[1..] else s
  }

  /** strconv.Itoa. */
  function Itoa(n: int): string {
    if n < 0 then "-" + NatDigits(-n) else NatDigits(n)
  }

  /**
   * strconv.Atoi on a 64-bit platform: an optional sign followed by at least
   * one decimal digit, whose value fits a signed 64-bit integer.
   */
  function Atoi(s: string): (r: Option<int>)
    ensures r.Some? ==> MinInt64 <= r.value <= MaxInt64
    ensures |s| == 0 ==> r.None?
  {
    if |s| == 0 then None
    else
      var negative := s[0] == '-';
      var body := Magnitude(s);
      if |body| == 0 || !AllDigits(body) then None
      else
        var magnitude: int := DigitsValue(body);
        var v := if negative then -magnitude else magnitude;
        if MinInt64 <= v <= MaxInt64 then Some(v) else None
  }

  /** A character strconv.Quote copies as it is: printable ASCII other than the quote and the backslash. */
  predicate PlainChar(c: char) {
    (32 <= c as int < 127 || c as int >= 128) && c != '"' && c != '\\'
  }

  /** Lower-case hexadecimal digit of n < 16. */
  function HexDigit(n: nat): (d: char)
    requires n < 16
    ensures d in "0123456789abcdef"
  {
    if n < 10 then ('0' as int + n) as char else ('a' as int + n - 10) as char
  }

  /** The control characters with a letter escape: \a \b \t \n \v \f \r (7 to 13). */
  predicate HasLetterEscape(code: int) {
    7 <= code <= 13
  }

  /** The letter of the escape for control character `code`. */
  function EscapeLetter(code: int): (letter: char)
    requires HasLetterEscape(code)
    ensures 'a' <= letter <= 'v'
  {
    if code == 7 then 'a'
    else if code == 8 then 'b'
    else if code == 9 then 't'
    else if code == 10 then 'n'
    else if code == 11 then 'v'
    else if code == 12 then 'f'
    else 'r'
  }

  /** The control character a letter escape stands for, or -1 for any other letter. */
  function LetterCode(letter: char): (code: int)
    ensures code == -1 || (HasLetterEscape(code) && EscapeLetter(code) == letter)
  {
    if letter == 'a' then 7
    else if letter == 'b' then 8
    else if letter == 't' then 9
    else if letter == 'n' then 10
    else if letter == 'v' then 11
    else if letter == 'f' then 12
    else if letter == 'r' then 13
    else -1
  }

  /** Each letter escape reads back as its control character. */
  lemma LetterRoundTrip(code: int)
    requires HasLetterEscape(code)
    ensures LetterCode(EscapeLetter(code)) == code
  {
  }

  /**
   * The escape strconv.Quote writes for one character: the quote and the
   * backslash are preceded by a backslash, the seven C control characters
   * with a letter escape use it, and every other ASCII control character and
   * DEL become \x followed by two lower-case hex digits.
   */
  function EscapeChar(c: char): (e: string)
    ensures e == [c] <==> PlainChar(c)
    ensures !PlainChar(c) ==> |e| >= 2 && e[0] == '\\'
    ensures c == '"' || c == '\\' ==> e == ['\\', c]
    ensures c as int < 32 || c as int == 127 ==> |e| in {2, 4} && e[1] != '"' && e[1] != '\\'
  {
    if c == '"' || c == '\\' then ['\\', c]
    else if PlainChar(c) then [c]
    else ControlEscape(c)
  }

  /** The escape of an ASCII control character or DEL: a letter escape where C has one, \x and two hex digits otherwise. */
  function ControlEscape(c: char): (e: string)
    requires c as int < 32 || c as int == 127
    ensures |e| in {2, 4} && e[0] == '\\' && e[1] != '"' && e[1] != '\\'
  {
    if HasLetterEscape(c as int) then ['\\', EscapeLetter(c as int)]
    else ['\\', 'x', HexDigit(c as int / 16), HexDigit(c as int % 16)]
  }

  /** The value of a lower-case hexadecimal digit (the inverse of HexDigit). */
  function HexValue(d: char): (n: int)
    ensures d in "0123456789abcdef" ==> 0 <= n < 16 && HexDigit(n) == d
  {
    if '0' <= d <= '9' then d as int - '0' as int
    else if 'a' <= d <= 'f' then d as int - 'a' as int + 10
    else -1
  }

  /** Reads one escape as strconv.Unquote would: the character it stands for, if any. */
  function UnescapeChar(e: string): (r: Option<char>)
    ensures |e| == 1 && PlainChar(e[0]) ==> r == Some(e[0])
  {
    if |e| == 1 then (if PlainChar(e[0]) then Some(e[0]) else None)
    else if |e| == 2 && e[0] == '\\' then
      if e[1] == '"' || e[1] == '\\' then Some(e[1])
      else if LetterCode(e[1]) >= 0 then Some(LetterCode(e[1]) as char)
      else None
    else if |e| == 4 && e[0] == '\\' && e[1] == 'x' && 0 <= HexValue(e[2]) < 8 && 0 <= HexValue(e[3]) < 16 then
      Some((HexValue(e[2]) * 16 + HexValue(e[3])) as char)
    else None
  }

  /** Every escape strconv.Quote writes reads back as the character it escaped. */
  lemma UnescapeEscape(c: char)
    ensures UnescapeChar(EscapeChar(c)) == Some(c)
  {
    if c == '"' || c == '\\' || PlainChar(c) {
    } else if HasLetterEscape(c as int) {
      UnescapeLetter(c);
    } else {
      UnescapeHex(c);
    }
  }

  lemma UnescapeLetter(c: char)
    requires HasLetterEscape(c as int)
    ensures UnescapeChar(['\\', EscapeLetter(c as int)]) == Some(c)
  {
    LetterRoundTrip(c as int);
  }

  lemma UnescapeHex(c: char)
    requires c as int < 128
    ensures UnescapeChar(['\\', 'x', HexDigit(c as int / 16), HexDigit(c as int % 16)]) == Some(c)
  {
    var hi, lo := c as int / 16, c as int % 16;
    assert c as int == hi * 16 + lo && hi < 8;
    HexDigitValue(hi);
    HexDigitValue(lo);
    var e := ['\\', 'x', HexDigit(hi), HexDigit(lo)];
    assert |e| == 4 && e[0] == '\\' && e[1] == 'x' && e[2] == HexDigit(hi) && e[3] == HexDigit(lo);
    assert UnescapeChar(e) == Some((HexValue(e[2]) * 16 + HexValue(e[3])) as char);
  }

  /** A hex digit reads back as the value it was written for. */
  lemma HexDigitValue(m: nat)
    requires m < 16
    ensures HexValue(HexDigit(m)) == m
  {
  }

  /** strconv.Quote: s between double quotes, each character escaped as EscapeChar says. */
  function Quote(s: string): (q: string)
    ensures |q| >= |s| + 2 && q[0] == '"' && q[|q| - 1] == '"'
  {
    "\"" + QuoteBody(s) + "\""
  }

  function QuoteBody(s: string): (b: string)
    ensures |b| >= |s|
  {
    if |s| == 0 then "" else EscapeChar(s[0]) + QuoteBody(s[1..])
  }

  /** A string of plain characters is quoted by adding the two double quotes and nothing else. */
  lemma {:induction false} QuotePlain(s: string)
    requires forall i | 0 <= i < |s| :: PlainChar(s[i])
    ensures Quote(s) == "\"" + s + "\""
  {
    QuoteBodyPlain(s);
  }

  lemma {:induction false} QuoteBodyPlain(s: string)
    requires forall i | 0 <= i < |s| :: PlainChar(s[i])
    ensures QuoteBody(s) == s
  {
    if |s| > 0 {
      QuoteBodyPlain(s[1..]);
      assert s == [s[0]] + s[1..];
    }
  }

  /** The quoted body is exactly as long as the input if and only if no character needed an escape. */
  lemma {:induction false} QuoteBodyLengthIffPlain(s: string)
    ensures |QuoteBody(s)| == |s| <==> forall i | 0 <= i < |s| :: PlainChar(s[i])
  {
    if |s| > 0 {
      QuoteBodyLengthIffPlain(s[1..]);
      if PlainChar(s[0]) {
        assert forall i | 1 <= i < |s| :: s[i] == s[1..][i - 1];
      }
    }
  }

  const OutOfRange := "value out of range"
  const InvalidSyntax := "invalid syntax"

  /** The value of the digits d read left to right, starting from the value n already read. */
  function ReadDigits(n: nat, d: string): (v: nat)
    requires AllDigits(d)
    ensures v >= n
    decreases |d|
  {
    if |d| == 0 then n
    else
      assert AllDigits(d[1..]) by {
        forall i | 0 <= i < |d[1..]| ensures IsDigit(d[1..][i]) { assert d[1..][i] == d[i + 1]; }
      }
      ReadDigits(n * 10 + (d[0] as int - '0' as int), d[1..])
  }

  /** Where ParseUint's digit loop stops: at a non-digit, at an overflow, or at the end with a value. */
  datatype Scan = BadDigit | Overflow | Scanned(value: nat)

  /**
   * ParseUint's loop over the digits of s in base 10, starting from the value
   * n read so far: a non-digit stops it with a syntax error, and a digit that
   * takes the value past 2^64 - 1 stops it with a range error before any
   * later character is looked at.
   */
  function ScanUint(s: string, n: nat): (r: Scan)
    requires n <= MaxUint64
    ensures r.Scanned? ==> AllDigits(s) && n <= r.value <= MaxUint64
    ensures AllDigits(s) ==> !r.BadDigit?
    ensures |s| > 0 && !IsDigit(s[0]) ==> r == BadDigit
    decreases |s|
  {
    if |s| == 0 then Scanned(n)
    else if !IsDigit(s[0]) then BadDigit
    else
      var next := n * 10 + (s[0] as int - '0' as int);
      if next > MaxUint64 then Overflow
      else
        var r := ScanUint(s[1..], next);
        assert r.Scanned? ==> AllDigits(s) by {
          if r.Scanned? {
            forall i | 1 <= i < |s| ensures IsDigit(s[i]) { assert s[i] == s[1..][i - 1]; }
          }
        }
        assert AllDigits(s) ==> AllDigits(s[1..]) by {
          if AllDigits(s) {
            forall i | 0 <= i < |s[1..]| ensures IsDigit(s[1..][i]) { assert s[1..][i] == s[i + 1]; }
          }
        }
        r
  }

  /**
   * Why strconv.ParseInt (and Atoi, which reports through it) rejects s:
   * after an optional sign, whatever stopped ParseUint's digit loop; digits
   * that fit 64 bits but not the signed range are out of range too, and
   * nothing after the sign is a syntax error.
   */
  function ParseIntReason(s: string): (reason: string)
    ensures reason == OutOfRange || reason == InvalidSyntax
    ensures |Magnitude(s)| == 0 ==> reason == InvalidSyntax
    ensures |Magnitude(s)| > 0 && !IsDigit(Magnitude(s)[0]) ==> reason == InvalidSyntax
    ensures Atoi(s).None? && |Magnitude(s)| > 0 && AllDigits(Magnitude(s)) ==> reason == OutOfRange
  {
    var body := Magnitude(s);
    if |body| == 0 then InvalidSyntax
    else match ScanUint(body, 0)
      case BadDigit => InvalidSyntax
      case Overflow => OutOfRange
      case Scanned(_) => OutOfRange
  }

  /** The message of the error strconv returns when `fn` ("Atoi", "ParseInt") rejects s, which it shows through strconv.Quote. */
  function ParseIntErrorMessage(fn: string, s: string): (m: string)
    ensures HasPrefix(m, "strconv." + fn + ": parsing " + "\"")
    ensures HasSuffix(m, "\"" + ": " + ParseIntReason(s))
    ensures |m| >= |"strconv." + fn + ": parsing "| + |s| + 2 + |": " + ParseIntReason(s)|
  {
    var q := Quote(s);
    QuotedBetween("strconv." + fn + ": parsing ", q, ": " + ParseIntReason(s));
    "strconv." + fn + ": parsing " + q + ": " + ParseIntReason(s)
  }

  /** A quoted text between a head and a tail: the head is followed by the opening quote, and the tail preceded by the closing one. */
  lemma QuotedBetween(head: string, q: string, tail: string)
    requires |q| >= 2 && q[0] == '"' && q[|q| - 1] == '"'
    ensures HasPrefix(head + q + tail, head + "\"")
    ensures HasSuffix(head + q + tail, "\"" + tail)
  {
    var m := head + q + tail;
    assert m[..|head| + 1] == head + [q[0]];
    assert m[|m| - |tail| - 1..] == [q[|q| - 1]] + tail;
  }


  /** strconv.ParseBool: exactly the spellings Go accepts. */
  function ParseBool(s: string): (r: Option<bool>)
    ensures r == Some(true) <==> s in {"1", "t", "T", "TRUE", "true", "True"}
    ensures r == Some(false) <==> s in {"0", "f", "F", "FALSE", "false", "False"}
  {
    if s in {"1", "t", "T", "TRUE", "true", "True"} then Some(true)
    else if s in {"0", "f", "F", "FALSE", "false", "False"} then Some(false)
    else None
  }

  // ---------------------------------------------------------------------
  // Lemmas
  // ---------------------------------------------------------------------

  /** Reading back the digits of n gives n. */
  lemma {:induction false} DigitsRoundTrip(n: nat)
    ensures DigitsValue(NatDigits(n)) == n
  {
    if n >= 10 {
      var s := NatDigits(n);
      assert s[..|s| - 1] == NatDigits(n / 10);
      DigitsRoundTrip(n / 10);
    }
  }

  /** Atoi inverts Itoa on every 64-bit integer. */
  lemma AtoiItoa(n: int)
    requires MinInt64 <= n <= MaxInt64
    ensures Atoi(Itoa(n)) == Some(n)
  {
    var s := Itoa(n);
    if n < 0 {
      DigitsRoundTrip(-n);
      assert s[1..] == NatDigits(-n);
    } else {
      DigitsRoundTrip(n);
      assert IsDigit(s[0]);
    }
  }

  /** A digit appended to d is read after all of d. */
  lemma {:induction false} ReadDigitsAppend(n: nat, d: string, c: char)
    requires AllDigits(d) && IsDigit(c)
    ensures AllDigits(d + [c])
    ensures ReadDigits(n, d + [c]) == ReadDigits(n, d) * 10 + (c as int - '0' as int)
    decreases |d|
  {
    var u := d + [c];
    forall i | 0 <= i < |u| ensures IsDigit(u[i]) {
      if i < |d| { assert u[i] == d[i]; }
    }
    if |d| > 0 {
      var t := d[1..];
      assert AllDigits(t) by {
        forall i | 0 <= i < |t| ensures IsDigit(t[i]) { assert t[i] == d[i + 1]; }
      }
      assert u[0] == d[0] && u[1..] == t + [c];
      ReadDigitsAppend(n * 10 + (d[0] as int - '0' as int), t, c);
    } else {
      assert u == [c];
    }
  }

  /** Reading digits left to right from zero gives their value. */
  lemma {:induction false} ReadDigitsValue(d: string)
    requires AllDigits(d)
    ensures ReadDigits(0, d) == DigitsValue(d)
    decreases |d|
  {
    if |d| > 0 {
      var init := d[..|d| - 1];
      assert AllDigits(init) by {
        forall i | 0 <= i < |init| ensures IsDigit(init[i]) { assert init[i] == d[i]; }
      }
      assert d == init + [d[|d| - 1]];
      ReadDigitsValue(init);
      ReadDigitsAppend(0, init, d[|d| - 1]);
    }
  }

  /** Digits whose value fits 64 bits are read through, leaving the loop at the character after them. */
  lemma {:induction false} ScanThrough(d: string, rest: string, n: nat)
    requires AllDigits(d) && n <= MaxUint64 && ReadDigits(n, d) <= MaxUint64
    ensures ScanUint(d + rest, n) == ScanUint(rest, ReadDigits(n, d))
    decreases |d|
  {
    if |d| == 0 {
      assert d + rest == rest;
    } else {
      var t := d[1..];
      assert AllDigits(t) by {
        forall i | 0 <= i < |t| ensures IsDigit(t[i]) { assert t[i] == d[i + 1]; }
      }
      var next := n * 10 + (d[0] as int - '0' as int);
      assert ReadDigits(n, d) == ReadDigits(next, t);
      assert next <= MaxUint64;
      assert (d + rest)[0] == d[0] && (d + rest)[1..] == t + rest;
      assert ScanUint(d + rest, n) == ScanUint(t + rest, next);
      ScanThrough(t, rest, next);
    }
  }

  /** Digits whose value exceeds 64 bits stop the loop with an overflow, whatever follows them. */
  lemma {:induction false} ScanOverflow(d: string, rest: string, n: nat)
    requires AllDigits(d) && n <= MaxUint64 && ReadDigits(n, d) > MaxUint64
    ensures ScanUint(d + rest, n) == Overflow
    decreases |d|
  {
    assert |d| > 0;
    var t := d[1..];
    assert AllDigits(t) by {
      forall i | 0 <= i < |t| ensures IsDigit(t[i]) { assert t[i] == d[i + 1]; }
    }
    var next := n * 10 + (d[0] as int - '0' as int);
    assert (d + rest)[0] == d[0] && (d + rest)[1..] == t + rest;
    if next <= MaxUint64 {
      assert ReadDigits(n, d) == ReadDigits(next, t);
      assert ScanUint(d + rest, n) == ScanUint(t + rest, next);
      ScanOverflow(t, rest, next);
    }
  }

  /** The sign is stripped and the digits and what follows them are left. */
  lemma MagnitudeAfterSign(sign: string, digits: string, rest: string)
    requires sign == "" || sign == "+" || sign == "-"
    requires |digits| > 0 && IsDigit(digits[0])
    ensures Magnitude(sign + digits + rest) == digits + rest
  {
    var body := digits + rest;
    assert sign + digits + rest == sign + body;
    if sign == "" {
      assert sign + body == body;
    } else {
      assert (sign + body)[1..] == body;
    }
  }

  /**
   * A run of digits too large for 64 bits is reported out of range even when
   * a non-digit follows it, because ParseUint checks for overflow digit by
   * digit.
   */
  lemma OutOfRangeBeforeSyntax(sign: string, digits: string, rest: string)
    requires sign == "" || sign == "+" || sign == "-"
    requires |digits| > 0 && AllDigits(digits) && DigitsValue(digits) > MaxUint64
    ensures ParseIntReason(sign + digits + rest) == OutOfRange
  {
    MagnitudeAfterSign(sign, digits, rest);
    ReadDigitsValue(digits);
    ScanOverflow(digits, rest, 0);
  }

  /** A non-digit met while the digits before it still fit 64 bits is a syntax error. */
  lemma SyntaxBeforeOutOfRange(sign: string, digits: string, rest: string)
    requires sign == "" || sign == "+" || sign == "-"
    requires |digits| > 0 && AllDigits(digits) && DigitsValue(digits) <= MaxUint64
    requires |rest| > 0 && !IsDigit(rest[0])
    ensures ParseIntReason(sign + digits + rest) == InvalidSyntax
  {
    MagnitudeAfterSign(sign, digits, rest);
    ReadDigitsValue(digits);
    ScanThrough(digits, rest, 0);
    assert ScanUint(rest, DigitsValue(digits)) == BadDigit;
  }

  /** Every piece produced by Split is free of the separator. */
  lemma {:induction false} SplitPiecesHaveNoSeparator(s: string, c: char)
    ensures forall k | 0 <= k < |Split(s, c)| :: c !in Split(s, c)[k]
    decreases |s|
  {
    if c in s {
      var i := IndexOf(s, c);
      SplitPiecesHaveNoSeparator(s[i + 1..], c);
    }
  }

  /** Joining the pieces of Split with the separator restores the input. */
  lemma {:induction false} JoinSplit(s: string, c: char)
    ensures Join(Split(s, c), [c]) == s
    decreases |s|
  {
    if c in s {
      var i := IndexOf(s, c);
      var rest := Split(s[i + 1..], c);
      JoinSplit(s[i + 1..], c);
      assert Split(s, c) == [s[..i]] + rest;
      assert s == s[..i] + [c] + s[i + 1..];
    }
  }

  /** Splitting at a first separator: the prefix is the first piece. */
  lemma SplitAtFirst(a: string, b: string, c: char)
    requires c !in a
    ensures Split(a + [c] + b, c) == [a] + Split(b, c)
  {
    var s := a + [c] + b;
    assert s[|a|] == c;
    var i := IndexOf(s, c);
    assert s[..|a|] == a;
    assert i == |a|;
    assert s[i + 1..] == b;
  }

  /** Split inverts Join when no part contains the separator. */
  lemma {:induction false} SplitJoin(parts: seq<string>, c: char)
    requires |parts| >= 1
    requires forall k | 0 <= k < |parts| :: c !in parts[k]
    ensures Split(Join(parts, [c]), c) == parts
  {
    if |parts| == 1 {
    } else {
      SplitJoin(parts[1..], c);
      SplitAtFirst(parts[0], Join(parts[1..], [c]), c);
      assert parts == [parts[0]] + parts[1..];
    }
  }
}

=== FILE: gotime.dfy ===
/**
 * Go's time.Duration arithmetic on 64-bit nanosecond counts: multiplying and
 * subtracting durations wraps around, while time.Time.Sub saturates at the
 * largest and smallest duration.
 */
module GoTime {
  import opened GoStrings
  import opened Values

  const TwoTo64: int := 0x1_0000_0000_0000_0000

  /** Two's-complement wrap-around into the int64 range. */
  function Wrap64(x: int): (r: int)
    ensures MinInt64 <= r <= MaxInt64
    ensures MinInt64 <= x <= MaxInt64 ==> r == x
    ensures (x - r) % TwoTo64 == 0
  {
    (x - MinInt64) % TwoTo64 + MinInt64
  }

  /** Clamping into the int64 range. */
  function Saturate64(x: int): (r: int)
    ensures MinInt64 <= r <= MaxInt64
    ensures MinInt64 <= x <= MaxInt64 ==> r == x
    ensures x > MaxInt64 ==> r == MaxInt64
    ensures x < MinInt64 ==> r == MinInt64
  {
    if x > MaxInt64 then MaxInt64 else if x < MinInt64 then MinInt64 else x
  }

  /** time.Until(t) at instant `now`, both in nanoseconds: t.Sub(now), saturated. */
  function Until(t: int, now: int): (d: int)
    ensures MinInt64 <= d <= MaxInt64
    ensures MinInt64 <= t - now <= MaxInt64 ==> d == t - now
    ensures (d < t - now ==> d == MaxInt64) && (d > t - now ==> d == MinInt64)
  {
    Saturate64(t - now)
  }

  /** `time.Second * time.Duration(n)`, wrapping on overflow. */
  function Seconds(n: int): (d: int)
    ensures MinInt64 <= d <= MaxInt64
    ensures MinInt64 <= n * Second <= MaxInt64 ==> d == n * Second
    ensures (n * Second - d) % TwoTo64 == 0
  {
    Wrap64(n * Second)
  }

  /** A non-negative count of seconds that fits is an exact, whole-second duration. */
  lemma WholeSeconds(n: int)
    requires 0 <= n && n * Second <= MaxInt64
    ensures Seconds(n) == n * Second
    ensures 0 <= Seconds(n) && Seconds(n) % Second == 0
  {
  }

  /** Halving an integer count in float64 and truncating is Go's integer division by 2. */
  lemma TruncateHalf(x: int)
    ensures x >= 0 ==> Truncate(x as real * 0.5) == x / 2
    ensures x < 0 ==> Truncate(x as real * 0.5) == -((-x) / 2)
  {
    var half := x as real * 0.5;
    if x >= 0 {
      var q := x / 2;
      assert q as real <= half < q as real + 1.0;
    } else {
      var p := (-x) / 2;
      assert p as real <= -half < p as real + 1.0;
    }
  }
}

=== FILE: keystore.dfy ===
/**
 * Java keystores and truststores built from Vault secret values (jks/keystore.go).
 *
 * A keystore holds one private-key entry per secret key: the value's first
 * PEM block is an RSA private key (re-encoded from PKCS #1 to PKCS #8) and the
 * blocks after it are its certificate chain. A truststore is a base truststore
 * read from disk, extended with Vault CA certificates, plus one trusted
 * certificate per secret key (the last PEM block wins). An existing store in
 * the Kubernetes secret is kept, bytes and all, when its content matches the
 * newly built one, creation times aside.
 *
 * PEM decoding, the PKCS conversions, the keystore encoding and decoding, the
 * file read and the Vault CA certificate fetch are oracles. Go iterates maps in
 * an unspecified order; where the outcome depends on that order (which key an
 * error names, a mismatch against a panic) the model visits keys in ascending
 * order, which is one of the orders Go may take.
 */
module Keystore {
  import opened Wrappers
  import opened Values
  import opened GoStrings
  import opened StringOrder

  datatype Certificate = Certificate(certType: string, content: string)

  /** A keystore entry; `created` is the creation time, which comparisons ignore. */
  datatype Entry =
    | PrivateKeyEntry(created: int, privateKey: string, chain: seq<Certificate>)
    | TrustedCertificateEntry(created: int, certificate: Certificate)

  /** Entries by alias. */
  type KeyStore = map<string, Entry>

  /** One decoded PEM block: its type line and its payload. */
  datatype PemBlock = PemBlock(blockType: string, bytes: string)

  /** Parsing a PKCS #1 key and marshalling it as PKCS #8. */
  datatype KeyConversion = NotPkcs1 | NotPkcs8 | Pkcs8(key: string)

  /** The outside world a store is built against. */
  datatype JksIo = JksIo(
    pemBlocks: string -> seq<PemBlock>,   // the blocks successive pem.Decode calls yield
    toPkcs8: string -> KeyConversion,
    decode: (string, string) -> Option<KeyStore>,
    encode: (KeyStore, string) -> Result<string, string>,
    readKeystoreFile: (string, string) -> Result<KeyStore, string>,
    getCaCert: string -> Result<Certificate, string>,
    env: map<string, string>)

  const KeystoreType := "keystore"
  const TruststoreType := "truststore"
  const CertificateType := "X.509"
  const BaseTruststoreLocation := "/cacerts"
  const BaseTruststorePassword := "changeit"
  const CaCertPathsVariable := "VAULT_CA_CERT_PATHS"
  const KeyInCertError := Error("found Key in what's supposed to be a Cert")
  const BaseTruststoreError := Error("can't create base Truststore")

  predicate ValidType(ksType: string) {
    ksType == KeystoreType || ksType == TruststoreType
  }

  function TypeError(ksType: string): (f: Failure)
    ensures f.Error? && HasSuffix(f.message, ksType)
  {
    Error("Jks type must either be 'keystore' or 'truststore', recieved " + ksType)
  }

  // ---------------------------------------------------------------- keystore

  function ChainOf(blocks: seq<PemBlock>): (chain: seq<Certificate>)
    ensures |chain| == |blocks|
    ensures forall i | 0 <= i < |blocks| :: chain[i] == Certificate(CertificateType, blocks[i].bytes)
  {
    if |blocks| == 0 then [] else [Certificate(CertificateType, blocks[0].bytes)] + ChainOf(blocks[1..])
  }

  /** The keystore entry for one secret key, or the error naming that key. */
  function KeyEntry(key: string, value: string, io: JksIo, now: int): (r: Result<Entry, Failure>)
    ensures r.Ok? <==> |io.pemBlocks(value)| > 0 && Contains(io.pemBlocks(value)[0].blockType, "RSA PRIVATE KEY")
                       && io.toPkcs8(io.pemBlocks(value)[0].bytes).Pkcs8?
    ensures r.Ok? ==> r.value.PrivateKeyEntry? && r.value.created == now
                      && r.value.privateKey == io.toPkcs8(io.pemBlocks(value)[0].bytes).key
                      && |r.value.chain| == |io.pemBlocks(value)| - 1
                      && forall i | 0 <= i < |r.value.chain| ::
                           r.value.chain[i] == Certificate(CertificateType, io.pemBlocks(value)[i + 1].bytes)
    ensures r.Err? ==> r.error.Error? && Contains(r.error.message, key)
  {
    var blocks := io.pemBlocks(value);
    if |blocks| == 0 then
      Err(Error(NamedMessage("no block found in key ", key, " entry, private key should have at least one pem block")))
    else if !Contains(blocks[0].blockType, "RSA PRIVATE KEY") then
      Err(Error(NamedMessage("private key block of ", key, " is not of type RSA PRIVATE KEY")))
    else
      match io.toPkcs8(blocks[0].bytes)
      case NotPkcs1 => Err(Error(NamedMessage("could not parse/decode private key of ", key, "'s PEM block to PKCS #1")))
      case NotPkcs8 => Err(Error(NamedMessage("could not convert/encode private key of ", key, "'s PEM block to PKCS #8")))
      case Pkcs8(k) => Ok(PrivateKeyEntry(now, k, ChainOf(blocks[1..])))
  }

  /** A message with a key spliced in, which then contains the key. */
  function NamedMessage(before: string, key: string, after: string): (m: string)
    ensures Contains(m, key)
  {
    ContainsMiddle(before, key, after);
    before + key + after
  }

  lemma {:induction false} ContainsMiddle(a: string, b: string, c: string)
    ensures Contains(a + b + c, b)
    decreases |a|
  {
    if |a| == 0 {
      assert a + b + c == b + c;
      assert HasPrefix(b + c, b);
    } else {
      ContainsMiddle(a[1..], b, c);
      assert (a + b + c)[1..] == a[1..] + b + c;
      assert |a + b + c| >= |b|;
    }
  }

  /** createKeystore's loop over the given aliases, stopping at the first failure. */
  function KeystoreFrom(aliases: seq<string>, data: map<string, string>, io: JksIo, now: int)
    : (r: Result<KeyStore, Failure>)
    requires forall i | 0 <= i < |aliases| :: aliases[i] in data
    ensures r.Ok? <==> forall i | 0 <= i < |aliases| :: KeyEntry(aliases[i], data[aliases[i]], io, now).Ok?
    ensures r.Ok? ==> forall k :: k in r.value <==> k in aliases
    ensures r.Ok? ==> forall k | k in r.value :: r.value[k] == KeyEntry(k, data[k], io, now).value
    ensures r.Err? ==> exists i | 0 <= i < |aliases| :: KeyEntry(aliases[i], data[aliases[i]], io, now) == Err(r.error)
    decreases |aliases|
  {
    if |aliases| == 0 then Ok(map[])
    else
      var head := KeyEntry(aliases[0], data[aliases[0]], io, now);
      var tail := KeystoreFrom(aliases[1..], data, io, now);
      if head.Err? then Err(head.error)
      else if tail.Err? then
        assert exists i | 0 <= i < |aliases| :: KeyEntry(aliases[i], data[aliases[i]], io, now) == Err(tail.error) by {
          var j :| 0 <= j < |aliases| - 1 && KeyEntry(aliases[1..][j], data[aliases[1..][j]], io, now) == Err(tail.error);
          assert aliases[1..][j] == aliases[j + 1];
        }
        Err(tail.error)
      else
        assert forall k :: k in aliases <==> k == aliases[0] || k in aliases[1..] by {
          assert aliases == [aliases[0]] + aliases[1..];
        }
        Ok(tail.value[aliases[0] := head.value])
  }

  /** createKeystore: one private-key entry per secret key, or the error of a failing key. */
  function CreateKeystore(data: map<string, string>, io: JksIo, now: int): (r: Result<KeyStore, Failure>)
    ensures r.Ok? <==> forall k | k in data :: KeyEntry(k, data[k], io, now).Ok?
    ensures r.Ok? ==> r.value.Keys == data.Keys
    ensures r.Ok? ==> forall k | k in data :: r.value[k] == KeyEntry(k, data[k], io, now).value
    ensures r.Err? ==> exists k | k in data :: KeyEntry(k, data[k], io, now) == Err(r.error)
  {
    var aliases := Sorted(data.Keys);
    KeystoreOverAllKeys(aliases, data, io, now);
    KeystoreFrom(aliases, data, io, now)
  }

  lemma KeystoreOverAllKeys(aliases: seq<string>, data: map<string, string>, io: JksIo, now: int)
    requires forall k :: k in aliases <==> k in data
    ensures KeystoreFrom(aliases, data, io, now).Ok? <==> forall k | k in data :: KeyEntry(k, data[k], io, now).Ok?
    ensures KeystoreFrom(aliases, data, io, now).Ok? ==> KeystoreFrom(aliases, data, io, now).value.Keys == data.Keys
    ensures KeystoreFrom(aliases, data, io, now).Ok? ==>
              forall k | k in data :: KeystoreFrom(aliases, data, io, now).value[k] == KeyEntry(k, data[k], io, now).value
    ensures KeystoreFrom(aliases, data, io, now).Err? ==>
              exists k | k in data :: KeyEntry(k, data[k], io, now) == Err(KeystoreFrom(aliases, data, io, now).error)
  {
    var r := KeystoreFrom(aliases, data, io, now);
    if r.Ok? {
      forall k | k in data
        ensures KeyEntry(k, data[k], io, now).Ok?
      {
        var i :| 0 <= i < |aliases| && aliases[i] == k;
      }
    } else {
      var i :| 0 <= i < |aliases| && KeyEntry(aliases[i], data[aliases[i]], io, now) == Err(r.error);
      assert aliases[i] in data;
    }
  }

  // -------------------------------------------------------------- truststore

  function TrustedEntry(now: int, block: PemBlock): (e: Entry)
    ensures e.TrustedCertificateEntry? && e.certificate.content == block.bytes
  {
    TrustedCertificateEntry(now, Certificate(CertificateType, block.bytes))
  }

  /** Some block of the value is a key (its type mentions KEY). */
  predicate HasKeyBlock(blocks: seq<PemBlock>) {
    exists i | 0 <= i < |blocks| :: Contains(blocks[i].blockType, "KEY")
  }

  /** createTruststore's inner loop: every block overwrites the alias, a key block aborts. */
  function AddBlocks(store: KeyStore, key: string, blocks: seq<PemBlock>, now: int): (r: Result<KeyStore, Failure>)
    ensures r.Ok? <==> !HasKeyBlock(blocks)
    ensures r.Err? ==> r.error == KeyInCertError
    ensures r.Ok? && |blocks| == 0 ==> r.value == store
    ensures r.Ok? && |blocks| > 0 ==> r.value == store[key := TrustedEntry(now, blocks[|blocks| - 1])]
    decreases |blocks|
  {
    if |blocks| == 0 then Ok(store)
    else if Contains(blocks[0].blockType, "KEY") then Err(KeyInCertError)
    else
      var r := AddBlocks(store[key := TrustedEntry(now, blocks[0])], key, blocks[1..], now);
      assert HasKeyBlock(blocks) <==> HasKeyBlock(blocks[1..]) by {
        if HasKeyBlock(blocks) {
          var i :| 0 <= i < |blocks| && Contains(blocks[i].blockType, "KEY");
          assert blocks[1..][i - 1] == blocks[i];
        }
        if HasKeyBlock(blocks[1..]) {
          var i :| 0 <= i < |blocks[1..]| && Contains(blocks[1..][i].blockType, "KEY");
          assert blocks[i + 1] == blocks[1..][i];
        }
      }
      r
  }

  /** The entry a secret value contributes to a truststore, if any: its last block. */
  function CertificateOf(value: string, io: JksIo, now: int): (e: Option<Entry>)
    ensures e.Some? <==> |io.pemBlocks(value)| > 0
  {
    var blocks := io.pemBlocks(value);
    if |blocks| == 0 then None else Some(TrustedEntry(now, blocks[|blocks| - 1]))
  }

  /** createTruststore's outer loop over the given aliases. */
  function TruststoreFrom(store: KeyStore, aliases: seq<string>, data: map<string, string>, io: JksIo, now: int)
    : (r: Result<KeyStore, Failure>)
    requires forall i | 0 <= i < |aliases| :: aliases[i] in data
    ensures r.Ok? <==> forall i | 0 <= i < |aliases| :: !HasKeyBlock(io.pemBlocks(data[aliases[i]]))
    ensures r.Err? ==> r.error == KeyInCertError
    ensures r.Ok? ==> forall k :: k in r.value <==>
                        k in store || (k in aliases && CertificateOf(data[k], io, now).Some?)
    ensures r.Ok? ==> forall k | k in r.value ::
                        r.value[k] == if k in aliases && CertificateOf(data[k], io, now).Some?
                                      then CertificateOf(data[k], io, now).value else store[k]
    decreases |aliases|
  {
    if |aliases| == 0 then Ok(store)
    else
      var key := aliases[0];
      var added :- AddBlocks(store, key, io.pemBlocks(data[key]), now);
      assert forall k :: k in aliases <==> k == key || k in aliases[1..] by {
        assert aliases == [key] + aliases[1..];
      }
      TruststoreFrom(added, aliases[1..], data, io, now)
  }

  /**
   * createTruststore: the base truststore plus the last certificate of every
   * secret value, or an error when the base cannot be built or a value holds a key.
   */
  function CreateTruststore(data: map<string, string>, base: Result<KeyStore, string>, io: JksIo, now: int)
    : (r: Result<KeyStore, Failure>)
    ensures base.Err? ==> r == Err(BaseTruststoreError)
    ensures base.Ok? ==> (r.Ok? <==> forall k | k in data :: !HasKeyBlock(io.pemBlocks(data[k])))
    ensures base.Ok? && r.Err? ==> r.error == KeyInCertError
    ensures r.Ok? ==> forall k :: k in r.value <==>
                        k in base.value || (k in data && CertificateOf(data[k], io, now).Some?)
    ensures r.Ok? ==> forall k | k in r.value ::
                        r.value[k] == if k in data && CertificateOf(data[k], io, now).Some?
                                      then CertificateOf(data[k], io, now).value else base.value[k]
  {
    if base.Err? then Err(BaseTruststoreError)
    else
      var aliases := Sorted(data.Keys);
      var r := TruststoreFrom(base.value, aliases, data, io, now);
      assert r.Ok? <== forall k | k in data :: !HasKeyBlock(io.pemBlocks(data[k]));
      r
  }

  /** The alias a Vault CA certificate is stored under. */
  function VaultAlias(path: string): (alias: string)
    ensures HasPrefix(alias, "pz_vault:") && alias[|"pz_vault:"|..] == path
  {
    "pz_vault:" + path
  }

  /** createBaseTruststore's loop: each CA path in order, stopping at the first fetch error. */
  function AddCaCerts(store: KeyStore, paths: seq<string>, io: JksIo, now: int): (r: Result<KeyStore, string>)
    ensures r.Ok? <==> forall i | 0 <= i < |paths| :: io.getCaCert(paths[i]).Ok?
    ensures r.Err? ==> exists i | 0 <= i < |paths| :: io.getCaCert(paths[i]) == Err(r.error)
    ensures r.Ok? ==> forall k :: k in r.value <==> k in store || exists i | 0 <= i < |paths| :: k == VaultAlias(paths[i])
    ensures r.Ok? ==> forall i | 0 <= i < |paths| :: VaultAlias(paths[i]) in r.value
    ensures r.Ok? ==> forall i | 0 <= i < |paths| ::
                        r.value[VaultAlias(paths[i])] == TrustedCertificateEntry(now, io.getCaCert(paths[i]).value)
    ensures r.Ok? ==> forall k | k in store && (forall i | 0 <= i < |paths| :: k != VaultAlias(paths[i])) ::
                        r.value[k] == store[k]
    decreases |paths|, 2
  {
    if |paths| == 0 then Ok(store)
    else
      var first := io.getCaCert(paths[0]);
      if first.Err? then Err(first.error)
      else
        var r := AddCaCerts(store[VaultAlias(paths[0]) := TrustedCertificateEntry(now, first.value)], paths[1..], io, now);
        AddCaCertsStep(store, paths, io, now, r);
        r
  }

  /** One step of AddCaCerts: adding the first certificate, then the rest, adds them all. */
  lemma AddCaCertsStep(store: KeyStore, paths: seq<string>, io: JksIo, now: int, r: Result<KeyStore, string>)
    requires |paths| > 0 && io.getCaCert(paths[0]).Ok?
    requires r == AddCaCerts(store[VaultAlias(paths[0]) := TrustedCertificateEntry(now, io.getCaCert(paths[0]).value)],
                             paths[1..], io, now)
    ensures r.Ok? <==> forall i | 0 <= i < |paths| :: io.getCaCert(paths[i]).Ok?
    ensures r.Err? ==> exists i | 0 <= i < |paths| :: io.getCaCert(paths[i]) == Err(r.error)
    ensures r.Ok? ==> forall k :: k in r.value <==> k in store || exists i | 0 <= i < |paths| :: k == VaultAlias(paths[i])
    ensures r.Ok? ==> forall i | 0 <= i < |paths| :: VaultAlias(paths[i]) in r.value
    ensures r.Ok? ==> forall i | 0 <= i < |paths| ::
                        r.value[VaultAlias(paths[i])] == TrustedCertificateEntry(now, io.getCaCert(paths[i]).value)
    ensures r.Ok? ==> forall k | k in store && (forall i | 0 <= i < |paths| :: k != VaultAlias(paths[i])) ::
                        r.value[k] == store[k]
    decreases |paths|, 1
  {
    AddCaCertsStepOutcome(store, paths, io, now, r);
    if r.Ok? {
      AddCaCertsStepKeys(store, paths, io, now, r);
      AddCaCertsStepCerts(store, paths, io, now, r);
      AddCaCertsStepKept(store, paths, io, now, r);
    }
  }

  lemma AddCaCertsStepOutcome(store: KeyStore, paths: seq<string>, io: JksIo, now: int, r: Result<KeyStore, string>)
    requires |paths| > 0 && io.getCaCert(paths[0]).Ok?
    requires r == AddCaCerts(store[VaultAlias(paths[0]) := TrustedCertificateEntry(now, io.getCaCert(paths[0]).value)],
                             paths[1..], io, now)
    ensures r.Ok? <==> forall i | 0 <= i < |paths| :: io.getCaCert(paths[i]).Ok?
    ensures r.Err? ==> exists i | 0 <= i < |paths| :: io.getCaCert(paths[i]) == Err(r.error)
    decreases |paths|, 0
  {
    var rest := paths[1..];
    assert forall i | 1 <= i < |paths| :: paths[i] == rest[i - 1];
    if r.Err? {
      var j :| 0 <= j < |rest| && io.getCaCert(rest[j]) == Err(r.error);
      assert io.getCaCert(paths[j + 1]) == Err(r.error);
    }
  }

  lemma AddCaCertsStepKeys(store: KeyStore, paths: seq<string>, io: JksIo, now: int, r: Result<KeyStore, string>)
    requires |paths| > 0 && io.getCaCert(paths[0]).Ok?
    requires r == AddCaCerts(store[VaultAlias(paths[0]) := TrustedCertificateEntry(now, io.getCaCert(paths[0]).value)],
                             paths[1..], io, now)
    requires r.Ok?
    ensures forall k :: k in r.value <==> k in store || exists i | 0 <= i < |paths| :: k == VaultAlias(paths[i])
    ensures forall i | 0 <= i < |paths| :: VaultAlias(paths[i]) in r.value
    decreases |paths|, 0
  {
    var rest := paths[1..];
    forall k
      ensures k in r.value <==> k in store || exists i | 0 <= i < |paths| :: k == VaultAlias(paths[i])
    {
      if exists i | 0 <= i < |rest| :: k == VaultAlias(rest[i]) {
        var i :| 0 <= i < |rest| && k == VaultAlias(rest[i]);
        assert k == VaultAlias(paths[i + 1]);
      }
      if exists i | 0 <= i < |paths| :: k == VaultAlias(paths[i]) {
        var i :| 0 <= i < |paths| && k == VaultAlias(paths[i]);
        if i > 0 { assert k == VaultAlias(rest[i - 1]); }
      }
    }
    forall i | 0 <= i < |paths|
      ensures VaultAlias(paths[i]) in r.value
    {
      if i > 0 { assert paths[i] == rest[i - 1]; }
    }
  }

  lemma AddCaCertsStepCerts(store: KeyStore, paths: seq<string>, io: JksIo, now: int, r: Result<KeyStore, string>)
    requires |paths| > 0 && io.getCaCert(paths[0]).Ok?
    requires r == AddCaCerts(store[VaultAlias(paths[0]) := TrustedCertificateEntry(now, io.getCaCert(paths[0]).value)],
                             paths[1..], io, now)
    requires r.Ok?
    ensures forall i | 0 <= i < |paths| ::
              VaultAlias(paths[i]) in r.value
              && r.value[VaultAlias(paths[i])] == TrustedCertificateEntry(now, io.getCaCert(paths[i]).value)
    decreases |paths|, 0
  {
    var rest := paths[1..];
    forall i | 0 <= i < |paths|
      ensures VaultAlias(paths[i]) in r.value
              && r.value[VaultAlias(paths[i])] == TrustedCertificateEntry(now, io.getCaCert(paths[i]).value)
    {
      if i > 0 {
        assert paths[i] == rest[i - 1];
      } else if j :| 0 <= j < |rest| && rest[j] == paths[0] {
        assert VaultAlias(rest[j]) == VaultAlias(paths[0]);
      } else {
        forall j | 0 <= j < |rest|
          ensures VaultAlias(paths[0]) != VaultAlias(rest[j])
        {
          VaultAliasInjective(paths[0], rest[j]);
        }
      }
    }
  }

  lemma AddCaCertsStepKept(store: KeyStore, paths: seq<string>, io: JksIo, now: int, r: Result<KeyStore, string>)
    requires |paths| > 0 && io.getCaCert(paths[0]).Ok?
    requires r == AddCaCerts(store[VaultAlias(paths[0]) := TrustedCertificateEntry(now, io.getCaCert(paths[0]).value)],
                             paths[1..], io, now)
    requires r.Ok?
    ensures forall k | k in store && (forall i | 0 <= i < |paths| :: k != VaultAlias(paths[i])) ::
              k in r.value && r.value[k] == store[k]
    decreases |paths|, 0
  {
    var rest := paths[1..];
    forall k | k in store && (forall i | 0 <= i < |paths| :: k != VaultAlias(paths[i]))
      ensures k in r.value && r.value[k] == store[k]
    {
      assert k != VaultAlias(paths[0]);
      forall i | 0 <= i < |rest|
        ensures k != VaultAlias(rest[i])
      {
        assert rest[i] == paths[i + 1];
      }
    }
  }

  /** Different paths get different aliases. */
  lemma VaultAliasInjective(a: string, b: string)
    ensures VaultAlias(a) == VaultAlias(b) ==> a == b
  {
  }

  /** The comma-separated paths in VAULT_CA_CERT_PATHS; an unset variable is the single path "". */
  function CaCertPaths(io: JksIo): (paths: seq<string>)
    ensures |paths| >= 1
  {
    Split(Getenv(io.env, CaCertPathsVariable), ',')
  }

  /**
   * createBaseTruststore: the truststore file read with its fixed password,
   * plus the CA certificate of every comma-separated path in
   * VAULT_CA_CERT_PATHS (an unset variable is the single path "").
   */
  function CreateBaseTruststore(io: JksIo, now: int): (r: Result<KeyStore, string>)
    ensures io.readKeystoreFile(BaseTruststoreLocation, BaseTruststorePassword).Err? ==>
              r == Err(io.readKeystoreFile(BaseTruststoreLocation, BaseTruststorePassword).error)
    ensures r.Ok? <==> io.readKeystoreFile(BaseTruststoreLocation, BaseTruststorePassword).Ok?
                       && forall p | p in CaCertPaths(io) :: io.getCaCert(p).Ok?
    ensures r.Ok? ==> forall p | p in CaCertPaths(io) ::
                        VaultAlias(p) in r.value && r.value[VaultAlias(p)] == TrustedCertificateEntry(now, io.getCaCert(p).value)
  {
    match io.readKeystoreFile(BaseTruststoreLocation, BaseTruststorePassword)
    case Err(message) => Err(message)
    case Ok(base) => AddCaCerts(base, CaCertPaths(io), io, now)
  }

  // -------------------------------------------------------------- comparison

  /** The content reflect.DeepEqual compares: key and chain, or the certificate. */
  predicate SameContent(e1: Entry, e2: Entry) {
    match (e1, e2)
    case (PrivateKeyEntry(_, k1, c1), PrivateKeyEntry(_, k2, c2)) => k1 == k2 && c1 == c2
    case (TrustedCertificateEntry(_, c1), TrustedCertificateEntry(_, c2)) => c1 == c2
    case _ => false
  }

  /** The entry passes the type assertion the store type makes. */
  predicate OfKind(e: Entry, ksType: string) {
    if ksType == KeystoreType then e.PrivateKeyEntry? else e.TrustedCertificateEntry?
  }

  function KindName(e: Entry): string {
    if e.PrivateKeyEntry? then "*keystore.PrivateKeyEntry" else "*keystore.TrustedCertificateEntry"
  }

  function ConversionPanic(e: Entry, ksType: string): (f: Failure)
    ensures f.Panic?
  {
    var wanted := if ksType == KeystoreType then "*keystore.PrivateKeyEntry" else "*keystore.TrustedCertificateEntry";
    Panic("interface conversion: keystore.Entry is " + KindName(e) + ", not " + wanted)
  }

  /** compareKeystores' loop over the shared aliases. */
  function CompareFrom(aliases: seq<string>, ks1: KeyStore, ks2: KeyStore, ksType: string): (r: Result<bool, Failure>)
    requires forall i | 0 <= i < |aliases| :: aliases[i] in ks1 && aliases[i] in ks2
    ensures r.Err? ==> r.error.Panic?
    ensures r == Ok(true) <==> forall i | 0 <= i < |aliases| ::
                                 OfKind(ks1[aliases[i]], ksType) && OfKind(ks2[aliases[i]], ksType)
                                 && SameContent(ks1[aliases[i]], ks2[aliases[i]])
    ensures (forall i | 0 <= i < |aliases| :: OfKind(ks1[aliases[i]], ksType) && OfKind(ks2[aliases[i]], ksType)) ==> r.Ok?
    decreases |aliases|
  {
    if |aliases| == 0 then Ok(true)
    else
      var key := aliases[0];
      if !OfKind(ks1[key], ksType) then Err(ConversionPanic(ks1[key], ksType))
      else if !OfKind(ks2[key], ksType) then Err(ConversionPanic(ks2[key], ksType))
      else if !SameContent(ks1[key], ks2[key]) then Ok(false)
      else
        var r := CompareFrom(aliases[1..], ks1, ks2, ksType);
        assert forall i | 1 <= i < |aliases| :: aliases[i] == aliases[1..][i - 1];
        r
  }

  /** Every entry passes the store type's assertion. */
  predicate Kinded(ks: KeyStore, ksType: string) {
    forall k | k in ks :: OfKind(ks[k], ksType)
  }

  /**
   * compareKeystores: equal alias sets and, alias by alias, equal content;
   * creation times are not compared. An entry of the wrong kind panics.
   */
  function CompareKeystores(ks1: KeyStore, ks2: KeyStore, ksType: string): (r: Result<bool, Failure>)
    ensures !ValidType(ksType) ==> r == Err(TypeError(ksType))
    ensures ValidType(ksType) && ks1.Keys != ks2.Keys ==> r == Ok(false)
    ensures r == Ok(true) <==> ValidType(ksType) && ks1.Keys == ks2.Keys
                               && forall k | k in ks1 :: OfKind(ks1[k], ksType) && OfKind(ks2[k], ksType)
                                                         && SameContent(ks1[k], ks2[k])
    ensures ValidType(ksType) && Kinded(ks1, ksType) && Kinded(ks2, ksType) ==> r.Ok?
    ensures ValidType(ksType) && r.Err? ==> r.error.Panic?
  {
    if !ValidType(ksType) then Err(TypeError(ksType))
    else if Sorted(ks1.Keys) != Sorted(ks2.Keys) then Ok(false)
    else
      SortedKeysAgree(ks1, ks2);
      CompareAllAliases(Sorted(ks1.Keys), ks1, ks2, ksType);
      CompareFrom(Sorted(ks1.Keys), ks1, ks2, ksType)
  }

  /** The sorted alias lists are equal exactly when the alias sets are. */
  lemma SortedKeysAgree(ks1: KeyStore, ks2: KeyStore)
    ensures Sorted(ks1.Keys) == Sorted(ks2.Keys) <==> ks1.Keys == ks2.Keys
  {
    if Sorted(ks1.Keys) == Sorted(ks2.Keys) {
      assert forall k :: k in ks1.Keys <==> k in Sorted(ks1.Keys);
    }
  }

  /** Comparing over the sorted aliases is comparing over every alias. */
  lemma CompareAllAliases(aliases: seq<string>, ks1: KeyStore, ks2: KeyStore, ksType: string)
    requires ks1.Keys == ks2.Keys
    requires forall k :: k in aliases <==> k in ks1
    ensures CompareFrom(aliases, ks1, ks2, ksType) == Ok(true) <==>
              forall k | k in ks1 :: OfKind(ks1[k], ksType) && OfKind(ks2[k], ksType) && SameContent(ks1[k], ks2[k])
    ensures Kinded(ks1, ksType) && Kinded(ks2, ksType) ==> CompareFrom(aliases, ks1, ks2, ksType).Ok?
  {
    if CompareFrom(aliases, ks1, ks2, ksType) == Ok(true) {
      forall k | k in ks1
        ensures OfKind(ks1[k], ksType) && OfKind(ks2[k], ksType) && SameContent(ks1[k], ks2[k])
      {
        var i :| 0 <= i < |aliases| && aliases[i] == k;
      }
    }
  }

  /** A well-kinded store equals itself, whatever its creation times. */
  lemma CompareReflexive(ks: KeyStore, ksType: string)
    requires ValidType(ksType) && Kinded(ks, ksType)
    ensures CompareKeystores(ks, ks, ksType) == Ok(true)
  {
    forall k | k in ks
      ensures SameContent(ks[k], ks[k])
    {
    }
  }

  // ---------------------------------------------------------- the whole call

  /** readKeystore: a store that does not decode reads as empty. */
  function ReadKeystore(encoded: string, password: string, io: JksIo): (ks: KeyStore)
    ensures io.decode(encoded, password).Some? ==> ks == io.decode(encoded, password).value
    ensures io.decode(encoded, password).None? ==> ks == map[]
  {
    io.decode(encoded, password).GetOr(map[])
  }

  /** The newly built store of the requested type. */
  function NewStore(data: map<string, string>, ksType: string, io: JksIo, now: int): (r: Result<KeyStore, Failure>)
    ensures ksType == KeystoreType ==> r == CreateKeystore(data, io, now)
    ensures ksType != KeystoreType ==> r == CreateTruststore(data, CreateBaseTruststore(io, now), io, now)
  {
    if ksType == KeystoreType then CreateKeystore(data, io, now)
    else CreateTruststore(data, CreateBaseTruststore(io, now), io, now)
  }

  /**
   * What GetKeystoreFromSecret returns: the encoded store, its password and
   * the error; `Some(Panic(_))` stands for a call that panicked.
   */
  datatype Jks = Jks(bytes: string, password: string, error: Option<Failure>)

  function Failed(f: Failure): (j: Jks)
    ensures j.error == Some(f) && j.bytes == "" && j.password == ""
  {
    Jks("", "", Some(f))
  }

  function Encoded(ks: KeyStore, password: string, io: JksIo): (j: Jks)
    ensures io.encode(ks, password).Ok? ==> j == Jks(io.encode(ks, password).value, password, None)
    ensures io.encode(ks, password).Err? ==> j == Failed(Error(io.encode(ks, password).error))
  {
    match io.encode(ks, password)
    case Ok(b) => Jks(b, password, None)
    case Err(message) => Failed(Error(message))
  }

  /** The keystore password: the one already in the secret, else the freshly generated one. */
  function Password(existing: map<string, string>, passName: string, generated: string): (p: string)
    ensures passName in existing ==> p == existing[passName]
    ensures passName !in existing ==> p == generated
  {
    if passName in existing then existing[passName] else generated
  }

  /**
   * The tail of GetKeystoreFromSecret once the new store `ks` is built: keep
   * the existing bytes when they decode to a store of the same content,
   * otherwise encode `ks`.
   */
  function StoreFor(existing: map<string, string>, name: string, password: string, ks: KeyStore,
                    ksType: string, io: JksIo)
    : (j: Jks)
    requires ValidType(ksType)
    ensures j.error.Some? ==> j.bytes == "" && j.password == ""
    ensures j.error.None? ==> j.password == password
    ensures name in existing && CompareKeystores(ReadKeystore(existing[name], password, io), ks, ksType) == Ok(true) ==>
              j == Jks(existing[name], password, None)
    ensures name in existing && CompareKeystores(ReadKeystore(existing[name], password, io), ks, ksType) == Ok(false) ==>
              j == Encoded(ks, password, io)
    ensures name in existing && CompareKeystores(ReadKeystore(existing[name], password, io), ks, ksType).Err? ==>
              j == Failed(CompareKeystores(ReadKeystore(existing[name], password, io), ks, ksType).error)
    ensures j.error.None? && (name !in existing || j.bytes != existing[name]) ==> io.encode(ks, password) == Ok(j.bytes)
    ensures name !in existing ==> j == Encoded(ks, password, io)
  {
    if name in existing then
      match CompareKeystores(ReadKeystore(existing[name], password, io), ks, ksType)
      case Err(f) => Failed(f)
      case Ok(same) => if same then Jks(existing[name], password, None) else Encoded(ks, password, io)
    else Encoded(ks, password, io)
  }

  /**
   * GetKeystoreFromSecret: the store to put under `name` in the Kubernetes
   * secret whose current data is `existing`, with its password.
   */
  function GetKeystoreFromSecret(existing: map<string, string>, data: map<string, string>, name: string,
                                 passName: string, ksType: string, generated: string, io: JksIo, now: int)
    : (j: Jks)
    ensures !ValidType(ksType) ==> j == Failed(TypeError(ksType))
    ensures j.error.Some? ==> j.bytes == "" && j.password == ""
    ensures ValidType(ksType) && NewStore(data, ksType, io, now).Err? ==>
              j == Failed(NewStore(data, ksType, io, now).error)
    ensures ValidType(ksType) && NewStore(data, ksType, io, now).Ok? ==>
              j == StoreFor(existing, name, Password(existing, passName, generated), NewStore(data, ksType, io, now).value,
                            ksType, io)
  {
    if !ValidType(ksType) then Failed(TypeError(ksType))
    else
      match NewStore(data, ksType, io, now)
      case Err(f) => Failed(f)
      case Ok(ks) => StoreFor(existing, name, Password(existing, passName, generated), ks, ksType, io)
  }

  /**
   * A stale keystore is replaced: when the store in the secret (or the empty
   * store, if it does not decode) has other aliases than the secret data has
   * keys, the newly built keystore is encoded with the password.
   */
  lemma StaleKeystoreReencoded(existing: map<string, string>, data: map<string, string>, name: string,
                               passName: string, generated: string, io: JksIo, now: int)
    requires name in existing
    requires CreateKeystore(data, io, now).Ok?
    requires ReadKeystore(existing[name], Password(existing, passName, generated), io).Keys != data.Keys
    ensures GetKeystoreFromSecret(existing, data, name, passName, KeystoreType, generated, io, now)
            == Encoded(CreateKeystore(data, io, now).value, Password(existing, passName, generated), io)
  {
    var ks := CreateKeystore(data, io, now).value;
    assert ks.Keys == data.Keys;
  }

  /** A key entry built at another time differs only in its creation time. */
  lemma KeyEntryTimeless(key: string, value: string, io: JksIo, now1: int, now2: int)
    ensures KeyEntry(key, value, io, now1).Ok? == KeyEntry(key, value, io, now2).Ok?
    ensures KeyEntry(key, value, io, now1).Ok? ==>
              SameContent(KeyEntry(key, value, io, now1).value, KeyEntry(key, value, io, now2).value)
  {
  }

  /**
   * Reconciling a keystore is stable: once the secret holds the encoded store
   * and its password, and the encoding decodes back to the store, the next
   * reconcile (at any later time, with any freshly generated password)
   * returns the same bytes and password.
   */
  lemma KeystoreReconcileStable(existing: map<string, string>, data: map<string, string>, name: string,
                                passName: string, generated: string, generatedAgain: string,
                                io: JksIo, now1: int, now2: int)
    requires name != passName
    requires GetKeystoreFromSecret(existing, data, name, passName, KeystoreType, generated, io, now1).error.None?
    requires CreateKeystore(data, io, now1).Ok?
    requires var first := GetKeystoreFromSecret(existing, data, name, passName, KeystoreType, generated, io, now1);
             io.decode(first.bytes, first.password) == Some(CreateKeystore(data, io, now1).value)
    ensures var first := GetKeystoreFromSecret(existing, data, name, passName, KeystoreType, generated, io, now1);
            GetKeystoreFromSecret(existing[name := first.bytes][passName := first.password], data, name, passName,
                                  KeystoreType, generatedAgain, io, now2) == first
  {
    var first := GetKeystoreFromSecret(existing, data, name, passName, KeystoreType, generated, io, now1);
    var password := Password(existing, passName, generated);
    var ks1 := CreateKeystore(data, io, now1).value;
    assert first == StoreFor(existing, name, password, ks1, KeystoreType, io);
    assert first == Jks(first.bytes, password, None);
    var secret := existing[name := first.bytes][passName := first.password];
    assert name in secret && secret[name] == first.bytes;
    assert Password(secret, passName, generatedAgain) == password;
    RebuiltKeystoreMatches(data, io, now1, now2);
    var ks2 := CreateKeystore(data, io, now2).value;
    assert ReadKeystore(secret[name], password, io) == ks1;
    assert GetKeystoreFromSecret(secret, data, name, passName, KeystoreType, generatedAgain, io, now2)
           == StoreFor(secret, name, password, ks2, KeystoreType, io);
  }

  /** A keystore rebuilt from the same data at another time compares equal to the first. */
  lemma RebuiltKeystoreMatches(data: map<string, string>, io: JksIo, now1: int, now2: int)
    requires CreateKeystore(data, io, now1).Ok?
    ensures CreateKeystore(data, io, now2).Ok?
    ensures CompareKeystores(CreateKeystore(data, io, now1).value, CreateKeystore(data, io, now2).value, KeystoreType)
            == Ok(true)
  {
    forall k | k in data
      ensures KeyEntry(k, data[k], io, now2).Ok?
      ensures SameContent(KeyEntry(k, data[k], io, now1).value, KeyEntry(k, data[k], io, now2).value)
    {
      KeyEntryTimeless(k, data[k], io, now1, now2);
    }
  }

  // ---------------------------------------------------------------- password

  const PassAlphabet := "ABCDEFGHIJKLMNOPQRSTUVWXYZabcdefghijklmnopqrstuvwxyz0123456789"
  const PassLength := 8

  /** genPass: eight characters drawn at random from letters and digits. */
  method GenPass() returns (password: string)
    ensures |password| == PassLength
    ensures forall i | 0 <= i < |password| :: password[i] in PassAlphabet
  {
    password := "";
    while |password| < PassLength
      invariant |password| <= PassLength
      invariant forall i | 0 <= i < |password| :: password[i] in PassAlphabet
    {
      assert PassAlphabet[0] in PassAlphabet;
      var c :| c in PassAlphabet;
      password := password + [c];
    }
  }
}

=== FILE: kubesecrets.dfy ===
/**
 * What both controller revisions (internal/controller/vaultsecret_controller.go
 * and controllers/vaultsecret_controller.go) share: the effects a reconcile
 * has on the cluster, running the resource's templates over the Vault data,
 * merging the data of the secret already in the cluster, and the base
 * requeue interval.
 */
module KubeSecrets {
  import opened Wrappers
  import opened Values
  import opened Api
  import opened StringOrder
  import opened GoTime
  import opened GoStrings

  /**
   * One effect of a reconcile, in the order it happens: a write to the
   * cluster, or a change to the operator's reconciliation metrics.
   */
  datatype Action =
    | UpdateResource(resource: VaultSecret)   // r.Update on the VaultSecret
    | UpdateStatus(resource: VaultSecret)     // r.Status().Update; its error is only logged
    | CreateSecret(secret: KubeSecret)
    | UpdateSecret(secret: KubeSecret)
    | CountReconciliation(status: string)     // vaultsecrets_reconciliations_total
    | SetStatusGauge(value: int)              // vaultsecrets_reconciliation_status
    | DeleteMetrics                           // both metrics' series of the resource

  /** The reconcile result: the effects, the requeue delay in nanoseconds and the returned error. */
  datatype Outcome = Outcome(actions: seq<Action>, requeueAfter: int, error: Option<Failure>)

  predicate WritesSecret(actions: seq<Action>) {
    exists i | 0 <= i < |actions| :: actions[i].CreateSecret? || actions[i].UpdateSecret?
  }

  /**
   * The base reconcile result: requeue after ReconciliationTime seconds when
   * it is positive, otherwise no timed requeue (zero).
   */
  function BaseRequeue(reconciliationTime: int): (after: int)
    ensures reconciliationTime <= 0 ==> after == 0
    ensures 0 < reconciliationTime && reconciliationTime * Second <= MaxInt64 ==> after == reconciliationTime * Second
  {
    if reconciliationTime > 0 then Seconds(reconciliationTime) else 0
  }

  // ---------------------------------------------------------------- clients

  /**
   * Which client serves a resource: one logged in with the resource's own
   * Vault role, else the shared client, whose absence is the error `missing`.
   */
  function ChooseClient<C>(vaultRole: string, createClient: string -> Result<C, string>,
                           sharedClient: Option<C>, missing: string): (r: Result<C, string>)
    ensures vaultRole != "" ==> r == createClient(vaultRole)
    ensures vaultRole == "" ==> (r.Ok? <==> sharedClient.Some?)
    ensures vaultRole == "" && r.Ok? ==> r.value == sharedClient.value
    ensures vaultRole == "" && r.Err? ==> r.error == missing
  {
    if vaultRole != "" then createClient(vaultRole)
    else match sharedClient
      case None => Err(missing)
      case Some(client) => Ok(client)
  }

  // ------------------------------------------------------------------ merge

  /** mergeSecretData's loop over the found keys: each key missing from the new data is copied over. */
  function MergeFrom(keys: seq<string>, newData: map<string, string>, found: map<string, string>)
    : (merged: map<string, string>)
    requires forall i | 0 <= i < |keys| :: keys[i] in found
    ensures forall k :: k in merged <==> k in newData || k in keys
    ensures forall k | k in newData :: merged[k] == newData[k]
    ensures forall k | k in merged && k !in newData :: merged[k] == found[k]
    decreases |keys|
  {
    if |keys| == 0 then newData
    else
      var key := keys[0];
      var next := if key in newData then newData else newData[key := found[key]];
      var merged := MergeFrom(keys[1..], next, found);
      assert forall k :: k in keys <==> k == key || k in keys[1..] by {
        assert keys == [key] + keys[1..];
      }
      merged
  }

  const NilMapPanic := Panic("assignment to entry in nil map")

  /**
   * mergeSecretData on the data maps: the found data is copied into the new
   * data key by key where the new data lacks the key. New data that is a nil
   * map panics on the first such key.
   */
  function MergeData(newData: Option<map<string, string>>, foundData: Option<map<string, string>>)
    : (r: Result<Option<map<string, string>>, Failure>)
    ensures newData.None? && |foundData.GetOr(map[])| > 0 ==> r == Err(NilMapPanic)
    ensures newData.None? && |foundData.GetOr(map[])| == 0 ==> r == Ok(None)
    ensures newData.Some? ==> r.Ok? && r.value.Some?
    ensures r.Ok? && newData.Some? ==>
              var merged := r.value.value;
              merged.Keys == newData.value.Keys + foundData.GetOr(map[]).Keys
              && (forall k | k in newData.value :: merged[k] == newData.value[k])
              && (forall k | k in merged && k !in newData.value :: merged[k] == foundData.value[k])
  {
    var found := foundData.GetOr(map[]);
    match newData
    case None => if |found| == 0 then Ok(None) else Err(NilMapPanic)
    case Some(d) =>
      var keys := Sorted(found.Keys);
      Ok(Some(MergeFrom(keys, d, found)))
  }

  /** The merged data is the found data overridden by the new data. */
  lemma MergeIsOverride(newData: map<string, string>, foundData: Option<map<string, string>>)
    ensures MergeData(Some(newData), foundData) == Ok(Some(foundData.GetOr(map[]) + newData))
  {
    var found := foundData.GetOr(map[]);
    MergeFromIsOverride(Sorted(found.Keys), newData, found);
  }

  lemma MergeFromIsOverride(keys: seq<string>, newData: map<string, string>, found: map<string, string>)
    requires forall k :: k in keys <==> k in found
    ensures MergeFrom(keys, newData, found) == found + newData
  {
    var merged := MergeFrom(keys, newData, found);
    var expected := found + newData;
    assert merged.Keys == expected.Keys;
    forall k | k in merged
      ensures merged[k] == expected[k]
    {
    }
    assert merged == expected;
  }

  /** Merging the same found data a second time changes nothing. */
  lemma MergeIdempotent(newData: map<string, string>, foundData: Option<map<string, string>>)
    ensures var once := MergeData(Some(newData), foundData).value;
            MergeData(once, foundData) == Ok(once)
  {
    MergeIsOverride(newData, foundData);
    var found := foundData.GetOr(map[]);
    MergeIsOverride(found + newData, foundData);
    assert found + (found + newData) == found + newData;
  }

  /** mergeSecretData on whole secrets: everything but the data comes from the new secret. */
  function MergeSecretData(newSecret: KubeSecret, found: KubeSecret): (r: Result<KubeSecret, Failure>)
    ensures r.Ok? <==> MergeData(newSecret.data, found.data).Ok?
    ensures r.Ok? ==> r.value == newSecret.(data := MergeData(newSecret.data, found.data).value)
  {
    var data :- MergeData(newSecret.data, found.data);
    Ok(newSecret.(data := data))
  }

  // -------------------------------------------------------------- templates

  /** Running the templates with the given names in order; the first failure aborts. */
  function RunTemplates(names: seq<string>, templates: map<string, string>, cr: VaultSecret,
                        data: map<string, string>,
                        runTemplate: (VaultSecret, string, map<string, string>) -> Result<string, string>)
    : (r: Result<map<string, string>, string>)
    requires forall i | 0 <= i < |names| :: names[i] in templates
    ensures r.Ok? <==> forall i | 0 <= i < |names| :: runTemplate(cr, templates[names[i]], data).Ok?
    ensures r.Ok? ==> forall k :: k in r.value <==> k in names
    ensures r.Ok? ==> forall k | k in r.value :: r.value[k] == runTemplate(cr, templates[k], data).value
    ensures r.Err? ==> exists i | 0 <= i < |names| :: runTemplate(cr, templates[names[i]], data) == Err(r.error)
    decreases |names|
  {
    if |names| == 0 then Ok(map[])
    else
      var name := names[0];
      var rendered :- runTemplate(cr, templates[name], data);
      var rest :- RunTemplates(names[1..], templates, cr, data, runTemplate);
      assert forall k :: k in names <==> k == name || k in names[1..] by {
        assert names == [name] + names[1..];
      }
      Ok(rest[name := rendered])
  }

  /**
   * The data of the new secret: the Vault data itself without templates,
   * otherwise exactly one entry per template, or the error of a failing
   * template behind `errorPrefix`.
   */
  function TemplatedData(cr: VaultSecret, data: Option<map<string, string>>,
                         runTemplate: (VaultSecret, string, map<string, string>) -> Result<string, string>,
                         errorPrefix: string)
    : (r: Result<Option<map<string, string>>, Failure>)
    ensures cr.spec.templates.None? ==> r == Ok(data)
    ensures cr.spec.templates.Some? ==>
              var templates := cr.spec.templates.value;
              (r.Ok? <==> forall k | k in templates :: runTemplate(cr, templates[k], data.GetOr(map[])).Ok?)
              && (r.Ok? ==> r.value.Some? && r.value.value.Keys == templates.Keys
                            && forall k | k in templates :: r.value.value[k] == runTemplate(cr, templates[k], data.GetOr(map[])).value)
              && (r.Err? ==> exists k | k in templates :: runTemplate(cr, templates[k], data.GetOr(map[])).Err?
                                                         && r.error == Error(errorPrefix + runTemplate(cr, templates[k], data.GetOr(map[])).error))
  {
    match cr.spec.templates
    case None => Ok(data)
    case Some(templates) =>
      var names := Sorted(templates.Keys);
      TemplatesOverAllNames(names, templates, cr, data.GetOr(map[]), runTemplate);
      match RunTemplates(names, templates, cr, data.GetOr(map[]), runTemplate)
      case Err(message) => Err(Error(errorPrefix + message))
      case Ok(rendered) => Ok(Some(rendered))
  }

  /** The template function map: the names sprig's hermetic set offers, less the excluded ones. */
  function FunctionMap(hermetic: set<string>, excluded: set<string>): (r: set<string>)
    ensures r <= hermetic
    ensures forall f | f in excluded :: f !in r
    ensures forall f | f in hermetic && f !in excluded :: f in r
  {
    set f | f in hermetic && f !in excluded
  }

  lemma TemplatesOverAllNames(names: seq<string>, templates: map<string, string>, cr: VaultSecret,
                              data: map<string, string>,
                              runTemplate: (VaultSecret, string, map<string, string>) -> Result<string, string>)
    requires forall k :: k in names <==> k in templates
    ensures RunTemplates(names, templates, cr, data, runTemplate).Ok? <==>
              forall k | k in templates :: runTemplate(cr, templates[k], data).Ok?
    ensures RunTemplates(names, templates, cr, data, runTemplate).Ok? ==>
              RunTemplates(names, templates, cr, data, runTemplate).value.Keys == templates.Keys
  {
    if RunTemplates(names, templates, cr, data, runTemplate).Ok? {
      forall k | k in templates
        ensures runTemplate(cr, templates[k], data).Ok?
      {
        var i :| 0 <= i < |names| && names[i] == k;
      }
    }
  }
}

=== FILE: kvgenerations.dfy ===
/**
 * The three generations of the KV read path side by side: the package-level
 * client (pkg/vault/vault.go), the middle client (vault/client.go) and the
 * namespaced reader (vault/kv.go). On a version 2 mount whose response
 * carries its data as an object they read the same values; and the two
 * token renewal loops sleep equally long under the default intervals.
 */
module KvGenerations {
  import opened Wrappers
  import opened Values
  import KvHelpers
  import Convert
  import PkgVault
  import ClientKV
  import KvRead

  /** A preflight answer naming a version 2 mount. */
  function Kv2Mount(mount: string): (resp: KvHelpers.PreflightResponse)
    ensures KvHelpers.IsKVv2(resp) == Ok((mount, true))
  {
    KvHelpers.PreflightVersionMapping(mount, "2");
    KvHelpers.Answer(map["path" := Text(mount), "options" := Object(map["version" := Text("2")])])
  }

  /** A preflight answer naming a version 1 mount. */
  function Kv1Mount(mount: string): (resp: KvHelpers.PreflightResponse)
    ensures KvHelpers.IsKVv2(resp) == Ok((mount, false))
  {
    KvHelpers.PreflightVersionMapping(mount, "1");
    KvHelpers.Answer(map["path" := Text(mount), "options" := Object(map["version" := Text("1")])])
  }

  /**
   * A version 2 response whose `data` object converts to non-empty values
   * yields exactly those values from the middle client and from the
   * namespaced reader's rendering.
   */
  lemma Kv2FoundGivesData(path: string, keys: seq<string>, version: int, isBinary: bool, mount: string,
                          inner: map<string, Value>, metadata: Value, lease: int, toJson: Value -> string,
                          values: map<string, string>)
    requires Convert.ConvertData(inner, keys, isBinary, toJson) == Ok(values) && |values| > 0
    ensures var secret := Secret(map["data" := Object(inner), "metadata" := metadata], lease);
            ClientKV.GetSecret("kv", path, keys, version, isBinary, Kv2Mount(mount), _ => Found(secret), toJson) == Ok(values)
            && KvRead.KVRenderData(secret, keys, isBinary, toJson) == Ok(values)
  {
    var secret := Secret(map["data" := Object(inner), "metadata" := metadata], lease);
    assert Lookup(secret.data, "data") == Object(inner);
    assert ClientKV.SecretData(secret, true) == Ok(inner);
    assert KvRead.Payload(secret) == inner;
  }

  /**
   * On a version 2 mount, the package-level client told "kv2" and the middle
   * client reading text values agree on every response that carries an
   * object under `data`, whatever the path and the keys; the namespaced
   * reader renders the same secret to the same result.
   */
  lemma Kv2GenerationsAgree(path: string, keys: seq<string>, version: int, mount: string,
                            secret: Secret, toJson: Value -> string)
    requires PkgVault.Kv2Path(path).Ok?
    requires Lookup(secret.data, "data").Object?
    ensures PkgVault.GetSecret("kv2", path, keys, version, _ => Found(secret), toJson)
            == ClientKV.GetSecret("kv2", path, keys, version, false, Kv2Mount(mount), _ => Found(secret), toJson)
    ensures ClientKV.GetSecret("kv2", path, keys, version, false, Kv2Mount(mount), _ => Found(secret), toJson)
            == KvRead.KVRenderData(secret, keys, false, toJson)
  {
    var inner := secret.data["data"].fields;
    assert ClientKV.SecretData(secret, true) == Ok(inner);
    assert KvRead.Payload(secret) == inner;
  }

  /**
   * On a version 1 mount, the package-level client told any engine but
   * "kv2" and the middle client reading text values agree on every response.
   */
  lemma Kv1GenerationsAgree(secretEngine: string, path: string, keys: seq<string>, version: int, mount: string,
                            response: ReadResponse, toJson: Value -> string)
    requires secretEngine != "kv2"
    ensures PkgVault.GetSecret(secretEngine, path, keys, version, _ => response, toJson)
            == ClientKV.GetSecret(secretEngine, path, keys, version, false, Kv1Mount(mount), _ => response, toJson)
  {
  }

  /**
   * With the default renewal interval of half the lease, the middle client
   * sleeps after a successful renewal exactly as long as the package-level
   * client sleeps after every renewal, for any lease, negative ones included.
   */
  lemma RenewDelaysAgree(lease: int)
    ensures ClientKV.RenewDelay(true, lease as real * 0.5, 30.0) == PkgVault.RenewDelay(lease)
  {
  }
}

=== FILE: kvhelpers.dfy ===
/**
 * KV secrets engine helpers: the preflight request that tells a version 1
 * mount from a version 2 mount, and the splice that puts the `data` segment of
 * the version 2 API behind the mount path. The three copies in
 * pkg/vault/kvhelpers.go, vault/client.go and vault/kv.go are identical, so
 * they are defined once here.
 */
module KvHelpers {
  import opened Wrappers
  import opened Values
  import opened GoStrings
  import opened Paths

  const NilPreflightError := Error("nil response from pre-flight request")
  const SecretIsNilError := Error("secret is nil")
  const InvalidSecretDataError := Error("invalid secret data")
  const ParseSecretError := Error("could not parse secret")

  /**
   * What the preflight GET of /v1/sys/internal/ui/mounts/<path> produced: a
   * request error (with the HTTP status when a response arrived), a body that
   * does not parse, a body that parses to no secret, or a secret.
   */
  datatype PreflightResponse =
    | RequestFailed(status: Option<int>, message: string)
    | Unparsable(message: string)
    | NoSecret
    | Answer(data: map<string, Value>)

  datatype Preflight = Preflight(mountPath: string, version: int)

  /**
   * The mount path field: absent gives "", a string is taken, anything else
   * panics. Go's runtime names the dynamic type in the panic message; only
   * the panic's kind is modelled, so the texts below are descriptive.
   */
  function MountPathOf(data: map<string, Value>): (r: Result<string, Failure>)
    ensures "path" !in data ==> r == Ok("")
    ensures "path" in data && data["path"].Text? ==> r == Ok(data["path"].text)
    ensures r.Err? <==> "path" in data && !data["path"].Text?
    ensures r.Err? ==> r.error.Panic?
  {
    if "path" !in data then Ok("")
    else match data["path"]
      case Text(s) => Ok(s)
      case _ => Err(Panic("interface conversion: path is not a string"))
  }

  /** The version an options value announces; only the string "2" selects version 2. */
  function OptionsVersion(options: Value): (r: Result<int, Failure>)
    ensures r.Ok? ==> r.value in {1, 2}
    ensures r == Ok(2) <==> options.Object? && Lookup(options.fields, "version") == Text("2")
    ensures r.Ok? && r != Ok(2) ==> r == Ok(1)
    ensures r.Err? <==> !(options.Null? || (options.Object? && (Lookup(options.fields, "version").Null?
                                                                || Lookup(options.fields, "version").Text?)))
    ensures r.Err? ==> r.error.Panic?
  {
    match options
    case Null => Ok(1)
    case Object(fields) =>
      (match Lookup(fields, "version")
       case Null => Ok(1)
       case Text(v) => if v == "2" then Ok(2) else Ok(1)
       case _ => Err(Panic("interface conversion: version is not a string")))
    case _ => Err(Panic("interface conversion: options is not a map"))
  }

  /** kvPreflightVersionRequest: the mount path and KV version for a path. */
  function KvPreflightVersion(resp: PreflightResponse): (r: Result<Preflight, Failure>)
    ensures r.Ok? ==> r.value.version in {1, 2}
    ensures resp.RequestFailed? ==>
              r == (if resp.status == Some(404) then Ok(Preflight("", 1)) else Err(Error(resp.message)))
    ensures resp.Unparsable? ==> r == Err(Error(resp.message))
    ensures resp.NoSecret? ==> r == Err(NilPreflightError)
    ensures resp.Answer? && MountPathOf(resp.data).Err? ==> r == Err(MountPathOf(resp.data).error) && r.error.Panic?
    ensures resp.Answer? && MountPathOf(resp.data).Ok? ==>
              r == (match OptionsVersion(Lookup(resp.data, "options"))
                    case Ok(v) => Ok(Preflight(MountPathOf(resp.data).value, v))
                    case Err(e) => Err(e))
  {
    match resp
    case RequestFailed(status, message) =>
      if status == Some(404) then Ok(Preflight("", 1)) else Err(Error(message))
    case Unparsable(message) => Err(Error(message))
    case NoSecret => Err(NilPreflightError)
    case Answer(data) =>
      var mountPath :- MountPathOf(data);
      var version :- OptionsVersion(Lookup(data, "options"));
      Ok(Preflight(mountPath, version))
  }

  /** isKVv2: the mount path and whether the mount is version 2; errors propagate. */
  function IsKVv2(resp: PreflightResponse): (r: Result<(string, bool), Failure>)
    ensures r.Ok? <==> KvPreflightVersion(resp).Ok?
    ensures r.Ok? ==> r.value.0 == KvPreflightVersion(resp).value.mountPath
    ensures r.Ok? ==> (r.value.1 <==> KvPreflightVersion(resp).value.version == 2)
    ensures r.Err? ==> r.error == KvPreflightVersion(resp).error
  {
    match KvPreflightVersion(resp)
    case Ok(p) => Ok((p.mountPath, p.version == 2))
    case Err(e) => Err(e)
  }

  /**
   * addPrefixToVKVPath: a path naming the mount itself (with or without its
   * trailing slash) becomes mount/prefix; any other path has the mount
   * stripped and becomes mount/prefix/rest, cleaned.
   */
  function AddPrefixToVKVPath(p: string, mountPath: string, apiPrefix: string): string {
    if p == mountPath || p == TrimSuffix(mountPath, "/") then PathJoin([mountPath, apiPrefix])
    else PathJoin([mountPath, apiPrefix, TrimPrefix(p, mountPath)])
  }

  /**
   * The query parameters of a version 2 read in vault/kv.go and
   * vault/client.go: the version, as decimal text, only when it is positive.
   */
  function VersionParams(version: int): (params: map<string, seq<string>>)
    ensures "version" in params <==> version > 0
    ensures params.Keys <= {"version"}
    ensures "version" in params ==> |params["version"]| == 1
  {
    if version > 0 then map["version" := [Itoa(version)]] else map[]
  }

  /** The version parameter Vault receives reads back as the requested version. */
  lemma VersionParamRoundTrip(version: int)
    requires 0 < version <= MaxInt64
    ensures Atoi(VersionParams(version)["version"][0]) == Some(version)
  {
    AtoiItoa(version);
  }

  /** A preflight that found a version 2 mount reports it; any other version string means 1. */
  lemma PreflightVersionMapping(mount: string, v: string)
    ensures var resp := Answer(map["path" := Text(mount), "options" := Object(map["version" := Text(v)])]);
            KvPreflightVersion(resp) == Ok(Preflight(mount, if v == "2" then 2 else 1))
            && IsKVv2(resp) == Ok((mount, v == "2"))
  {
  }

  /** A preflight without options, or with options lacking a version, means version 1. */
  lemma PreflightDefaultsToVersion1(mount: string, options: Option<map<string, Value>>)
    requires options.Some? ==> "version" !in options.value
    ensures var data := if options.Some? then map["path" := Text(mount), "options" := Object(options.value)]
                        else map["path" := Text(mount)];
            KvPreflightVersion(Answer(data)) == Ok(Preflight(mount, 1))
  {
  }

  /** The path a version 2 read goes to when the path names the mount itself. */
  lemma AddPrefixAtMount(mount: string, prefix: string)
    requires mount != "" && prefix != "" && PlainElement(mount) && PlainElement(prefix)
    ensures AddPrefixToVKVPath(mount + "/", mount + "/", prefix) == mount + "/" + prefix
    ensures AddPrefixToVKVPath(mount, mount + "/", prefix) == mount + "/" + prefix
  {
    assert TrimSuffix(mount + "/", "/") == mount;
    var joined := Join([mount + "/", prefix], "/");
    assert joined == Join([mount, "", prefix], "/");
    CleanPlainPath([mount, "", prefix]);
    NonEmptyGap(mount, prefix);
  }

  lemma NonEmptyGap(a: string, b: string)
    requires a != "" && b != ""
    ensures NonEmpty([a, "", b]) == [a, b]
  {
    assert [a, "", b][1..] == ["", b];
    assert ["", b][1..] == [b];
    assert [b][1..] == [];
    assert NonEmpty([b]) == [b] + NonEmpty([]);
  }

  lemma Join3(a: string, b: string, c: string, sep: string)
    ensures Join([a, b, c], sep) == a + sep + b + sep + c
  {
    assert [a, b, c][1..] == [b, c];
    assert [b, c][1..] == [c];
    assert Join([c], sep) == c;
    assert Join([b, c], sep) == b + sep + c;
    assert Join([a, b, c], sep) == a + sep + (b + sep + c);
  }

  /** The text path.Join receives below the mount, as a join of elements with an empty one after the mount. */
  lemma JoinBelowMount(mount: string, prefix: string, rest: seq<string>)
    requires |rest| >= 1
    ensures Join([mount + "/", prefix, Join(rest, "/")], "/") == Join([mount, "", prefix] + rest, "/")
  {
    var tail := Join(rest, "/");
    var m := mount + "/";
    calc {
      Join([mount, "", prefix] + rest, "/");
      { JoinAppend([mount, "", prefix], rest, "/"); }
      Join([mount, "", prefix], "/") + "/" + tail;
      { Join3(mount, "", prefix, "/"); assert mount + "/" + "" == m; }
      m + "/" + prefix + "/" + tail;
      { Join3(m, prefix, tail, "/"); }
      Join([m, prefix, tail], "/");
    }
  }

  lemma PlainSplice(mount: string, prefix: string, rest: seq<string>)
    requires PlainElement(mount) && PlainElement(prefix)
    requires forall k | 0 <= k < |rest| :: PlainElement(rest[k])
    ensures forall k | 0 <= k < |[mount, "", prefix] + rest| :: PlainElement(([mount, "", prefix] + rest)[k])
  {
    var elements := [mount, "", prefix] + rest;
    forall k | 0 <= k < |elements|
      ensures PlainElement(elements[k])
    {
      if k >= 3 {
        assert elements[k] == rest[k - 3];
      } else if k == 1 {
        assert elements[k] == "";
      }
    }
  }

  /**
   * The path a version 2 read goes to for a secret below the mount: the prefix
   * is spliced in after the mount and empty segments disappear.
   */
  lemma AddPrefixBelowMount(mount: string, prefix: string, rest: seq<string>)
    requires mount != "" && prefix != "" && PlainElement(mount) && PlainElement(prefix)
    requires |rest| >= 1 && rest[0] != ""
    requires forall k | 0 <= k < |rest| :: PlainElement(rest[k])
    ensures AddPrefixToVKVPath(mount + "/" + Join(rest, "/"), mount + "/", prefix)
            == Join([mount, prefix] + NonEmpty(rest), "/")
  {
    var tail := Join(rest, "/");
    var p := mount + "/" + tail;
    JoinHead(rest, "/");
    assert p != mount + "/" && p != mount;
    assert TrimSuffix(mount + "/", "/") == mount;
    assert p[..|mount + "/"|] == mount + "/" && p[|mount + "/"|..] == tail;
    assert TrimPrefix(p, mount + "/") == tail;
    var head := [mount, "", prefix];
    JoinBelowMount(mount, prefix, rest);
    PlainSplice(mount, prefix, rest);
    CleanPlainPath(head + rest);
    NonEmptyAppend(head, rest);
    NonEmptyGap(mount, prefix);
  }
}

=== FILE: kvread.dfy ===
/**
 * The newest KV read path (vault/kv.go): the Vault namespace is composed from
 * the operator's root namespace and the resource's own, the preflight decides
 * between KV version 1 and 2, a version 2 read goes to the `data` endpoint
 * (with the requested version when one is given), and rendering unwraps the
 * version 2 envelope before converting the values.
 */
module KvRead {
  import opened Wrappers
  import opened Values
  import opened GoStrings
  import KvHelpers
  import Convert

  const NamespaceWithoutRootError :=
    Error("vaultNamespace field can not be used, because the VAULT_NAMESPACE environment variable is not set")

  /**
   * The namespace the client is switched to before reading: Some(ns) sets it,
   * None leaves the client's namespace untouched.
   */
  function ResolveNamespace(root: string, requested: string): (r: Result<Option<string>, Failure>)
    ensures root != "" && requested != "" ==> r == Ok(Some(root + "/" + requested))
    ensures root != "" && requested == "" ==> r == Ok(Some(root))
    ensures root == "" && requested != "" ==> r == Err(NamespaceWithoutRootError)
    ensures root == "" && requested == "" ==> r == Ok(None)
  {
    if root != "" then
      if requested != "" then Ok(Some(root + "/" + requested)) else Ok(Some(root))
    else if requested != "" then Err(NamespaceWithoutRootError)
    else Ok(None)
  }

  /**
   * The read GetSecret issues, or the failure that stops it first: the
   * namespace check comes before the preflight, and the preflight (made in
   * the resolved namespace) before the read.
   */
  function KvReadRequest(root: string, path: string, version: int, requested: string,
                         preflight: (Option<string>, string) -> KvHelpers.PreflightResponse)
    : (r: Result<ReadRequest, Failure>)
    ensures ResolveNamespace(root, requested).Err? ==> r == Err(ResolveNamespace(root, requested).error)
    ensures r.Ok? ==> ResolveNamespace(root, requested) == Ok(r.value.namespace)
    ensures r.Ok? ==> KvHelpers.IsKVv2(preflight(r.value.namespace, path)).Ok?
    ensures r.Ok? && !KvHelpers.IsKVv2(preflight(r.value.namespace, path)).value.1 ==>
              r.value.path == path && r.value.params == map[]
    ensures r.Ok? && KvHelpers.IsKVv2(preflight(r.value.namespace, path)).value.1 ==>
              r.value.path == KvHelpers.AddPrefixToVKVPath(path, KvHelpers.IsKVv2(preflight(r.value.namespace, path)).value.0, "data")
              && r.value.params == KvHelpers.VersionParams(version)
  {
    var namespace :- ResolveNamespace(root, requested);
    var kv :- KvHelpers.IsKVv2(preflight(namespace, path));
    if kv.1 then Ok(ReadRequest(namespace, KvHelpers.AddPrefixToVKVPath(path, kv.0, "data"), KvHelpers.VersionParams(version)))
    else Ok(ReadRequest(namespace, path, map[]))
  }

  /** GetSecret: the secret Vault returned for the request; a nil secret is an error. */
  function GetSecret(root: string, path: string, version: int, requested: string,
                     preflight: (Option<string>, string) -> KvHelpers.PreflightResponse,
                     read: ReadRequest -> ReadResponse)
    : (r: Result<Secret, Failure>)
    ensures KvReadRequest(root, path, version, requested, preflight).Err? ==>
              r == Err(KvReadRequest(root, path, version, requested, preflight).error)
    ensures r.Ok? <==> KvReadRequest(root, path, version, requested, preflight).Ok?
                       && read(KvReadRequest(root, path, version, requested, preflight).value).Found?
    ensures r.Ok? ==> r.value == read(KvReadRequest(root, path, version, requested, preflight).value).secret
    ensures KvReadRequest(root, path, version, requested, preflight).Ok?
            && read(KvReadRequest(root, path, version, requested, preflight).value).Missing? ==>
              r == Err(KvHelpers.SecretIsNilError)
    ensures KvReadRequest(root, path, version, requested, preflight).Ok?
            && read(KvReadRequest(root, path, version, requested, preflight).value).ReadFailed? ==>
              r == Err(Error(read(KvReadRequest(root, path, version, requested, preflight).value).message))
  {
    var request :- KvReadRequest(root, path, version, requested, preflight);
    match read(request)
    case ReadFailed(message) => Err(Error(message))
    case Missing => Err(KvHelpers.SecretIsNilError)
    case Found(secret) => Ok(secret)
  }

  /** The data KVRenderData converts: the `data` object of a version 2 envelope, else the whole data. */
  function Payload(secret: Secret): (d: map<string, Value>)
    ensures Lookup(secret.data, "data").Object? ==> d == secret.data["data"].fields
    ensures !Lookup(secret.data, "data").Object? ==> d == secret.data
  {
    match AsObject(Lookup(secret.data, "data"))
    case Some(fields) => fields
    case None => secret.data
  }

  /** KVRenderData: the converted payload, which must not be empty. */
  function KVRenderData(secret: Secret, keys: seq<string>, isBinary: bool, toJson: Value -> string)
    : (r: Result<map<string, string>, Failure>)
    ensures r.Ok? ==> |r.value| > 0
    ensures r.Ok? ==> Convert.ConvertData(Payload(secret), keys, isBinary, toJson) == Ok(r.value)
    ensures Convert.ConvertData(Payload(secret), keys, isBinary, toJson).Err? ==>
              r == Err(Convert.ConvertData(Payload(secret), keys, isBinary, toJson).error)
    ensures Convert.ConvertData(Payload(secret), keys, isBinary, toJson) == Ok(map[]) ==>
              r == Err(KvHelpers.InvalidSecretDataError)
    ensures Convert.ConvertData(Payload(secret), keys, isBinary, toJson).Ok?
            && |Convert.ConvertData(Payload(secret), keys, isBinary, toJson).value| > 0 ==>
              r == Convert.ConvertData(Payload(secret), keys, isBinary, toJson)
  {
    var data :- Convert.ConvertData(Payload(secret), keys, isBinary, toJson);
    if |data| == 0 then Err(KvHelpers.InvalidSecretDataError) else Ok(data)
  }

  /** With both namespaces empty nothing is set, and the preflight decides the rest. */
  lemma NoNamespaceLeavesClientAlone(path: string, version: int,
                                     preflight: (Option<string>, string) -> KvHelpers.PreflightResponse)
    requires KvHelpers.IsKVv2(preflight(None, path)).Ok?
    ensures KvReadRequest("", path, version, "", preflight).Ok?
    ensures KvReadRequest("", path, version, "", preflight).value.namespace == None
  {
  }

  /** A namespace without a root fails before the preflight: the preflight outcome does not matter. */
  lemma NamespaceErrorPrecedesPreflight(path: string, version: int, requested: string,
                                        p1: (Option<string>, string) -> KvHelpers.PreflightResponse,
                                        p2: (Option<string>, string) -> KvHelpers.PreflightResponse,
                                        read: ReadRequest -> ReadResponse)
    requires requested != ""
    ensures GetSecret("", path, version, requested, p1, read) == Err(NamespaceWithoutRootError)
    ensures GetSecret("", path, version, requested, p1, read) == GetSecret("", path, version, requested, p2, read)
  {
  }

  /**
   * A version 2 envelope renders exactly like its inner data stored unwrapped,
   * as long as that inner data does not itself hold an object under "data".
   */
  lemma EnvelopeIsTransparent(inner: map<string, Value>, metadata: Value, lease: int, keys: seq<string>,
                              isBinary: bool, toJson: Value -> string)
    requires !Lookup(inner, "data").Object?
    ensures KVRenderData(Secret(map["data" := Object(inner), "metadata" := metadata], lease), keys, isBinary, toJson)
            == KVRenderData(Secret(inner, lease), keys, isBinary, toJson)
  {
    var wrapped := Secret(map["data" := Object(inner), "metadata" := metadata], lease);
    assert Lookup(wrapped.data, "data") == Object(inner);
    assert Payload(wrapped) == inner;
    assert Payload(Secret(inner, lease)) == inner;
  }
}

=== FILE: legacycontroller.dfy ===
/**
 * The older reconciler (controllers/vaultsecret_controller.go): no
 * finalizers, conditions or metrics; a truststore may be built even when
 * Vault has no secret; the secret may be packaged as a Java keystore or
 * truststore; and an existing secret is always written.
 */
module LegacyController {
  import opened Wrappers
  import opened Values
  import opened Api
  import opened GoStrings
  import opened KubeSecrets
  import Keystore
  import Controller

  const SharedClientMissing := "shared client not initilized and vaultRole property missing"
  const TemplateErrorPrefix := "Template ERROR: "
  const CreatedByLabel := "created-by"
  const CreatedByValue := "vault-secrets-operator"
  const MergeStrategy := "Merge"
  const JksExtension := ".jks"
  const PassSuffix := "Pass"

  /** The read errors after which a truststore is still built, from the CA certificates alone. */
  const ToleratedErrors: set<string> := {"secret is nil", "invalid secret data", "path field is nil"}

  /** The Vault client of the vault package, as this reconciler and the keystore builder use it. */
  datatype VaultClient = VaultClient(
    // GetSecret(secretEngine, path, keys, version, isBinary, vaultNamespace)
    getSecret: (string, string, seq<string>, int, bool, string) -> Result<map<string, string>, string>,
    jks: Keystore.JksIo)

  /** Everything a reconcile observes. */
  datatype Cluster = Cluster(
    getResource: Lookup<VaultSecret>,
    createClient: string -> Result<VaultClient, string>,
    sharedClient: Option<VaultClient>,
    reconciliationTime: int,
    ownerError: Option<string>,
    getSecret: (string, string) -> Lookup<KubeSecret>,
    createSecret: KubeSecret -> Option<string>,
    updateSecret: KubeSecret -> Option<string>,
    runTemplate: (VaultSecret, string, map<string, string>) -> Result<string, string>,
    generatedPassword: string,   // what genPass would return
    now: int)

  /** Which client serves the resource. */
  function SelectClient(instance: VaultSecret, c: Cluster): Result<VaultClient, string> {
    ChooseClient(instance.spec.vaultRole, c.createClient, c.sharedClient, SharedClientMissing)
  }

  /**
   * Reading the secret from Vault. For a truststore, the errors of a missing
   * or empty secret give an empty map instead, so the default truststore is
   * still written.
   */
  function FetchSecret(spec: VaultSecretSpec, client: VaultClient): (r: Result<map<string, string>, string>)
    ensures var got := client.getSecret(spec.secretEngine, spec.path, spec.keys, spec.version, spec.isBinary, spec.vaultNamespace);
            (got.Ok? ==> r == got)
            && (got.Err? && spec.jks.jksType == Keystore.TruststoreType && got.error in ToleratedErrors ==> r == Ok(map[]))
            && (got.Err? && !(spec.jks.jksType == Keystore.TruststoreType && got.error in ToleratedErrors) ==> r == got)
  {
    match client.getSecret(spec.secretEngine, spec.path, spec.keys, spec.version, spec.isBinary, spec.vaultNamespace)
    case Ok(data) => Ok(data)
    case Err(m) =>
      if spec.jks.jksType == Keystore.TruststoreType && m in ToleratedErrors then Ok(map[]) else Err(m)
  }

  /** A failed read fails the reconcile unless the resource is a truststore and the error is a tolerated one. */
  lemma FetchFailsExactlyUntolerated(spec: VaultSecretSpec, client: VaultClient)
    ensures FetchSecret(spec, client).Err? <==>
              var got := client.getSecret(spec.secretEngine, spec.path, spec.keys, spec.version, spec.isBinary, spec.vaultNamespace);
              got.Err? && (spec.jks.jksType != Keystore.TruststoreType || got.error !in ToleratedErrors)
  {
  }

  /**
   * newSecretForCR: labels start from `created-by: vault-secrets-operator`,
   * each overridden by the resource's own; annotations are the resource's;
   * data comes from the templates when there are any.
   */
  function NewSecretForCR(cr: VaultSecret, data: map<string, string>,
                          runTemplate: (VaultSecret, string, map<string, string>) -> Result<string, string>)
    : (r: Result<KubeSecret, Failure>)
    ensures r.Ok? <==> TemplatedData(cr, Some(data), runTemplate, TemplateErrorPrefix).Ok?
    ensures r.Ok? ==> r.value.name == cr.name && r.value.namespace == cr.namespace
                      && r.value.annotations == cr.annotations && r.value.secretType == cr.spec.secretType
    ensures r.Ok? ==> forall k :: k in r.value.labels <==> k == CreatedByLabel || k in cr.labels
    ensures r.Ok? ==> forall k | k in cr.labels :: r.value.labels[k] == cr.labels[k]
    ensures r.Ok? && CreatedByLabel !in cr.labels ==> r.value.labels[CreatedByLabel] == CreatedByValue
    ensures r.Ok? ==> r.value.data.Some?
    ensures r.Ok? && cr.spec.templates.None? ==> r.value.data == Some(data)
    ensures r.Ok? && cr.spec.templates.Some? ==> r.value.data.value.Keys == cr.spec.templates.value.Keys
    ensures r.Ok? && cr.spec.templates.Some? ==>
              forall k | k in cr.spec.templates.value ::
                r.value.data.value[k] == runTemplate(cr, cr.spec.templates.value[k], data).value
    ensures r.Err? ==> r.error.Error? && HasPrefix(r.error.message, TemplateErrorPrefix)
  {
    var labels := map[CreatedByLabel := CreatedByValue] + cr.labels;
    var d :- TemplatedData(cr, Some(data), runTemplate, TemplateErrorPrefix);
    Ok(KubeSecret(cr.name, cr.namespace, labels, cr.annotations, d, cr.spec.secretType))
  }

  // ------------------------------------------------------------------- JKS

  predicate IsJks(jksType: string) {
    jksType == Keystore.KeystoreType || jksType == Keystore.TruststoreType
  }

  /** The secret keys of the encoded store and of its password. */
  function JksNames(jks: JksSpec): (names: (string, string))
    ensures HasSuffix(names.0, JksExtension)
    ensures jks.name == "" ==> names.0 == jks.jksType + JksExtension
    ensures jks.name != "" && HasSuffix(jks.name, JksExtension) ==> names.0 == jks.name
    ensures jks.name != "" && !HasSuffix(jks.name, JksExtension) ==> names.0 == jks.name + JksExtension
    ensures names.1 == ReplaceFirst(names.0, JksExtension, PassSuffix)
    ensures names.0 != names.1 && |names.0| == |names.1|
  {
    var name :=
      if jks.name == "" then jks.jksType + JksExtension
      else if HasSuffix(jks.name, JksExtension) then jks.name
      else jks.name + JksExtension;
    assert HasSuffix(name, JksExtension) by {
      if name != jks.name {
        assert name[|name| - |JksExtension|..] == JksExtension;
      }
    }
    SuffixContained(name, JksExtension);
    ReplaceFirstChanges(name, JksExtension, PassSuffix);
    (name, ReplaceFirst(name, JksExtension, PassSuffix))
  }

  /**
   * getDataBasedOnSecretCategory: for a keystore or truststore, the data is
   * replaced by exactly two entries, the encoded store and its password;
   * otherwise it is returned unchanged. `existing` is the secret whose stored
   * keystore and password may be reused.
   */
  function SecretCategoryData(cr: VaultSecret, existing: Option<map<string, string>>, data: Option<map<string, string>>,
                              io: Keystore.JksIo, generated: string, now: int)
    : (r: Result<Option<map<string, string>>, Failure>)
    ensures !IsJks(cr.spec.jks.jksType) ==> r == Ok(data)
    ensures IsJks(cr.spec.jks.jksType) ==>
              var (name, passName) := JksNames(cr.spec.jks);
              var j := Keystore.GetKeystoreFromSecret(existing.GetOr(map[]), data.GetOr(map[]), name, passName,
                                                      cr.spec.jks.jksType, generated, io, now);
              (j.error.Some? ==> r == Err(j.error.value))
              && (j.error.None? ==> r.Ok? && r.value.Some? && r.value.value.Keys == {name, passName}
                                    && r.value.value[name] == j.bytes && r.value.value[passName] == j.password)
  {
    if !IsJks(cr.spec.jks.jksType) then Ok(data)
    else
      var (name, passName) := JksNames(cr.spec.jks);
      var j := Keystore.GetKeystoreFromSecret(existing.GetOr(map[]), data.GetOr(map[]), name, passName,
                                              cr.spec.jks.jksType, generated, io, now);
      match j.error
      case Some(f) => Err(f)
      case None => Ok(Some(map[name := j.bytes, passName := j.password]))
  }

  // ------------------------------------------------------------- reconcile

  /** Reconcile: read, build, and create or write the secret. Nothing is recorded in the resource. */
  function Reconcile(c: Cluster): (o: Outcome)
    ensures c.getResource.NotFound? ==> o == Outcome([], 0, None)
    ensures c.getResource.GetFailed? ==> o == Outcome([], 0, Some(Error(c.getResource.message)))
    ensures o.error.Some? ==> o.requeueAfter == 0
    ensures o.error.None? && WritesSecret(o.actions) ==> o.requeueAfter == BaseRequeue(c.reconciliationTime)
    ensures |o.actions| <= 1
    ensures forall i | 0 <= i < |o.actions| :: o.actions[i].CreateSecret? || o.actions[i].UpdateSecret?
    ensures c.getResource.Present? && SelectClient(c.getResource.item, c).Err? ==>
              o == Outcome([], 0, Some(Error(SelectClient(c.getResource.item, c).error)))
    ensures c.getResource.Present? && SelectClient(c.getResource.item, c).Ok? ==>
              var instance := c.getResource.item;
              var client := SelectClient(instance, c).value;
              var fetched := FetchSecret(instance.spec, client);
              (fetched.Err? ==> o == Outcome([], 0, Some(Error(fetched.error))))
              && (fetched.Ok? ==>
                    var built := NewSecretForCR(instance, fetched.value, c.runTemplate);
                    (built.Err? ==> o == Outcome([], 0, Some(built.error)))
                    && (built.Ok? && c.ownerError.Some? ==> o == Outcome([], 0, Some(Error(c.ownerError.value))))
                    && (built.Ok? && c.ownerError.None? ==> o == WriteSecret(instance, built.value, client, c)))
  {
    match c.getResource
    case NotFound => Outcome([], 0, None)
    case GetFailed(m) => Outcome([], 0, Some(Error(m)))
    case Present(instance) =>
      match SelectClient(instance, c)
      case Err(m) => Outcome([], 0, Some(Error(m)))
      case Ok(client) =>
        match FetchSecret(instance.spec, client)
        case Err(m) => Outcome([], 0, Some(Error(m)))
        case Ok(data) =>
          match NewSecretForCR(instance, data, c.runTemplate)
          case Err(f) => Outcome([], 0, Some(f))
          case Ok(secret) =>
            match c.ownerError
            case Some(m) => Outcome([], 0, Some(Error(m)))
            case None => WriteSecret(instance, secret, client, c)
  }

  /** Creating the secret, or writing it over the one in the cluster, merged or not. */
  function WriteSecret(instance: VaultSecret, secret: KubeSecret, client: VaultClient, c: Cluster): (o: Outcome)
    ensures o.error.Some? ==> o.requeueAfter == 0
    ensures o.error.None? ==> o.requeueAfter == BaseRequeue(c.reconciliationTime) && |o.actions| == 1
    ensures |o.actions| <= 1
    ensures forall i | 0 <= i < |o.actions| :: o.actions[i].CreateSecret? || o.actions[i].UpdateSecret?
    ensures c.getSecret(secret.name, secret.namespace).NotFound? ==>
              forall i | 0 <= i < |o.actions| :: o.actions[i].CreateSecret?
    ensures c.getSecret(secret.name, secret.namespace).Present? ==>
              forall i | 0 <= i < |o.actions| :: o.actions[i].UpdateSecret?
    ensures c.getSecret(secret.name, secret.namespace).GetFailed? ==>
              o == Outcome([], 0, Some(Error(c.getSecret(secret.name, secret.namespace).message)))
    ensures c.getSecret(secret.name, secret.namespace).NotFound? ==>
              var category := SecretCategoryData(instance, secret.data, secret.data, client.jks, c.generatedPassword, c.now);
              (category.Err? ==> o == Outcome([], 0, Some(category.error)))
              && (category.Ok? ==> o.actions == [CreateSecret(secret.(data := category.value))])
    ensures c.getSecret(secret.name, secret.namespace).Present? ==>
              var found := c.getSecret(secret.name, secret.namespace).item;
              var category := SecretCategoryData(instance, found.data, secret.data, client.jks, c.generatedPassword, c.now);
              (category.Err? ==> o == Outcome([], 0, Some(category.error)))
              && (category.Ok? && instance.spec.reconcileStrategy != MergeStrategy ==>
                    o.actions == [UpdateSecret(secret.(data := category.value))])
              && (category.Ok? && instance.spec.reconcileStrategy == MergeStrategy ==>
                    var merged := MergeSecretData(secret.(data := category.value), found);
                    (merged.Err? ==> o == Outcome([], 0, Some(merged.error)))
                    && (merged.Ok? ==> o.actions == [UpdateSecret(merged.value)]))
    ensures |o.actions| == 1 && o.actions[0].CreateSecret? ==>
              o.error == (if c.createSecret(o.actions[0].secret).Some? then Some(Error(c.createSecret(o.actions[0].secret).value)) else None)
    ensures |o.actions| == 1 && o.actions[0].UpdateSecret? ==>
              o.error == (if c.updateSecret(o.actions[0].secret).Some? then Some(Error(c.updateSecret(o.actions[0].secret).value)) else None)
  {
    var requeue := BaseRequeue(c.reconciliationTime);
    match c.getSecret(secret.name, secret.namespace)
    case NotFound =>
      (match SecretCategoryData(instance, secret.data, secret.data, client.jks, c.generatedPassword, c.now)
       case Err(f) => Outcome([], 0, Some(f))
       case Ok(data) =>
         var built := secret.(data := data);
         match c.createSecret(built)
         case Some(m) => Outcome([CreateSecret(built)], 0, Some(Error(m)))
         case None => Outcome([CreateSecret(built)], requeue, None))
    case GetFailed(m) => Outcome([], 0, Some(Error(m)))
    case Present(found) =>
      match SecretCategoryData(instance, found.data, secret.data, client.jks, c.generatedPassword, c.now)
      case Err(f) => Outcome([], 0, Some(f))
      case Ok(data) =>
        var built := secret.(data := data);
        match (if instance.spec.reconcileStrategy == MergeStrategy then MergeSecretData(built, found) else Ok(built))
        case Err(f) => Outcome([], 0, Some(f))
        case Ok(written) =>
          match c.updateSecret(written)
          case Some(m) => Outcome([UpdateSecret(written)], 0, Some(Error(m)))
          case None => Outcome([UpdateSecret(written)], requeue, None)
  }

  // ----------------------------------------------------------------- lemmas

  /**
   * Unlike the current reconciler, an existing secret is written on every
   * reconcile that gets that far, even when nothing changed.
   */
  lemma ExistingSecretAlwaysWritten(instance: VaultSecret, secret: KubeSecret, client: VaultClient, c: Cluster,
                                    found: KubeSecret)
    requires c.getSecret(secret.name, secret.namespace) == Present(found)
    requires secret.data.Some? && !IsJks(instance.spec.jks.jksType)
    ensures var o := WriteSecret(instance, secret, client, c);
            |o.actions| == 1 && o.actions[0].UpdateSecret?
            && (instance.spec.reconcileStrategy != MergeStrategy ==> o.actions[0].secret == secret)
            && (instance.spec.reconcileStrategy == MergeStrategy ==>
                  o.actions[0].secret.data == Some(found.data.GetOr(map[]) + secret.data.value))
  {
    MergeIsOverride(secret.data.value, found.data);
  }

  /** Without a JKS type, the secret is created with the data as built. */
  lemma PlainSecretCreatedAsBuilt(instance: VaultSecret, secret: KubeSecret, client: VaultClient, c: Cluster)
    requires c.getSecret(secret.name, secret.namespace).NotFound?
    requires !IsJks(instance.spec.jks.jksType)
    ensures WriteSecret(instance, secret, client, c).actions == [CreateSecret(secret)]
  {
  }

  /**
   * A reconcile from start to finish: a resource without templates or a JKS
   * type whose secret does not exist yet gets a secret holding exactly the
   * values read from Vault, labelled as created by the operator, and is
   * requeued after the reconciliation time.
   */
  lemma PlainSecretCreatedEndToEnd(c: Cluster, instance: VaultSecret, client: VaultClient, values: map<string, string>)
    requires c.getResource == Present(instance)
    requires SelectClient(instance, c) == Ok(client)
    requires client.getSecret(instance.spec.secretEngine, instance.spec.path, instance.spec.keys, instance.spec.version,
                              instance.spec.isBinary, instance.spec.vaultNamespace) == Ok(values)
    requires instance.spec.templates.None? && !IsJks(instance.spec.jks.jksType) && c.ownerError.None?
    requires c.getSecret(instance.name, instance.namespace).NotFound?
    requires c.createSecret(KubeSecret(instance.name, instance.namespace, map[CreatedByLabel := CreatedByValue] + instance.labels,
                                       instance.annotations, Some(values), instance.spec.secretType)).None?
    ensures Reconcile(c) == Outcome(
              [CreateSecret(KubeSecret(instance.name, instance.namespace, map[CreatedByLabel := CreatedByValue] + instance.labels,
                                       instance.annotations, Some(values), instance.spec.secretType))],
              BaseRequeue(c.reconciliationTime), None)
  {
    var secret := KubeSecret(instance.name, instance.namespace, map[CreatedByLabel := CreatedByValue] + instance.labels,
                             instance.annotations, Some(values), instance.spec.secretType);
    assert FetchSecret(instance.spec, client) == Ok(values);
    assert NewSecretForCR(instance, values, c.runTemplate) == Ok(secret);
    assert WriteSecret(instance, secret, client, c).actions == [CreateSecret(secret)];
  }

  /** A name that already ends in ".jks" keeps it, and its password key is the name with "Pass" in its place. */
  lemma JksNameWithExtension(jksType: string, base: string)
    requires '.' !in base
    ensures var names := JksNames(JksSpec(jksType, base + JksExtension));
            names.0 == base + JksExtension && names.1 == base + PassSuffix
  {
    var name := base + JksExtension;
    assert HasSuffix(name, JksExtension) by {
      assert name[|name| - |JksExtension|..] == JksExtension;
    }
    ReplaceAtDotFree(base);
  }

  /** In a dot-free base followed by ".jks", the first ".jks" is the appended one. */
  lemma ReplaceAtDotFree(base: string)
    requires '.' !in base
    ensures ReplaceFirst(base + JksExtension, JksExtension, PassSuffix) == base + PassSuffix
  {
    var s := base + JksExtension;
    assert OccursAt(s, JksExtension, |base|) by {
      assert s[|base|..|base| + |JksExtension|] == JksExtension;
    }
    assert HasSuffix(s, JksExtension) by {
      assert s[|s| - |JksExtension|..] == JksExtension;
    }
    SuffixContained(s, JksExtension);
    forall j | 0 <= j < |base|
      ensures !OccursAt(s, JksExtension, j)
    {
      assert s[j] == base[j] != '.';
    }
    IndexFirst(s, JksExtension);
    assert Index(s, JksExtension) == |base|;
    assert s[..|base|] == base && s[|base| + |JksExtension|..] == [];
  }

  // ------------------------------------------------------ template functions

  /** The functions runTemplate removes from sprig's hermetic set: its function map is `FunctionMap(hermetic, ExcludedFunctions)`. */
  const ExcludedFunctions: set<string> := {"genPrivateKey", "genCA", "genSelfSignedCert", "genSignedCert", "htpasswd"}

  /**
   * The current reconciler offers a subset of these functions: it also drops
   * the key-taking certificate generators, bcrypt and randInt.
   */
  lemma CurrentFunctionsNarrower(hermetic: set<string>)
    ensures FunctionMap(hermetic, Controller.ExcludedFunctions) <= FunctionMap(hermetic, ExcludedFunctions)
    ensures FunctionMap(hermetic, ExcludedFunctions) - FunctionMap(hermetic, Controller.ExcludedFunctions)
            == hermetic * {"genCAWithKey", "genSelfSignedCertWithKey", "genSignedCertWithKey", "bcrypt", "randInt"}
  {
    var extra := {"genCAWithKey", "genSelfSignedCertWithKey", "genSignedCertWithKey", "bcrypt", "randInt"};
    assert Controller.ExcludedFunctions == ExcludedFunctions + extra;
  }
}

=== FILE: ordering.dfy ===
/**
 * Byte-wise lexicographic order on strings (Go's `<` on strings, the order
 * `sort.Strings` produces) and the sorted listing of a set of strings.
 */
module StringOrder {

  /** a sorts before or equal to b. */
  predicate Below(a: string, b: string)
    decreases |a|
  {
    |a| == 0 || (|b| > 0 && (a[0] < b[0] || (a[0] == b[0] && Below(a[1..], b[1..]))))
  }

  lemma {:induction false} BelowReflexive(a: string)
    ensures Below(a, a)
    decreases |a|
  {
    if |a| > 0 {
      BelowReflexive(a[1..]);
    }
  }

  lemma {:induction false} BelowTotal(a: string, b: string)
    ensures Below(a, b) || Below(b, a)
    decreases |a|
  {
    if |a| > 0 && |b| > 0 && a[0] == b[0] {
      BelowTotal(a[1..], b[1..]);
    }
  }

  lemma {:induction false} BelowAntisymmetric(a: string, b: string)
    requires Below(a, b) && Below(b, a)
    ensures a == b
    decreases |a|
  {
    if |a| > 0 {
      BelowAntisymmetric(a[1..], b[1..]);
      assert a == [a[0]] + a[1..] && b == [b[0]] + b[1..];
    }
  }

  lemma {:induction false} BelowTransitive(a: string, b: string, c: string)
    requires Below(a, b) && Below(b, c)
    ensures Below(a, c)
    decreases |a|
  {
    if |a| > 0 && a[0] == b[0] && b[0] == c[0] {
      BelowTransitive(a[1..], b[1..], c[1..]);
    }
  }

  /** Every non-empty set of strings has a least element. */
  lemma {:induction false} LeastExists(s: set<string>)
    requires s != {}
    ensures exists m | m in s :: forall y | y in s :: Below(m, y)
    decreases |s|
  {
    var x :| x in s;
    var rest := s - {x};
    BelowReflexive(x);
    if rest == {} {
      forall y | y in s
        ensures Below(x, y)
      {
        assert y == x by { assert y !in rest; }
      }
    } else {
      assert |rest| < |s|;
      LeastExists(rest);
      var m :| m in rest && forall y | y in rest :: Below(m, y);
      BelowTotal(x, m);
      var least := if Below(x, m) then x else m;
      forall y | y in s
        ensures Below(least, y)
      {
        if y != x {
          assert y in rest;
          if least == x {
            BelowTransitive(x, m, y);
          }
        }
      }
      assert least in s;
    }
  }

  /** The least element of a non-empty set. */
  function Least(s: set<string>): (m: string)
    requires s != {}
    ensures m in s && forall y | y in s :: Below(m, y)
  {
    LeastExists(s);
    LeastUnique(s);
    var m :| m in s && forall y | y in s :: Below(m, y);
    m
  }

  lemma LeastUnique(s: set<string>)
    ensures forall m1, m2 | m1 in s && m2 in s && (forall y | y in s :: Below(m1, y))
                            && (forall y | y in s :: Below(m2, y)) :: m1 == m2
  {
    forall m1, m2 | m1 in s && m2 in s && (forall y | y in s :: Below(m1, y)) && (forall y | y in s :: Below(m2, y))
      ensures m1 == m2
    {
      BelowAntisymmetric(m1, m2);
    }
  }

  predicate SortedDistinct(r: seq<string>) {
    forall i, j | 0 <= i < j < |r| :: Below(r[i], r[j]) && r[i] != r[j]
  }

  /** The elements of a set in ascending order, each once. */
  function Sorted(s: set<string>): (r: seq<string>)
    ensures |r| == |s|
    ensures forall k :: k in r <==> k in s
    ensures SortedDistinct(r)
    decreases |s|
  {
    if s == {} then []
    else
      var m := Least(s);
      var rest := Sorted(s - {m});
      [m] + rest
  }
}

=== FILE: paths.dfy ===
/**
 * Go's `path.Clean` and `path.Join` (slash-separated, purely lexical paths),
 * which the KV helpers use to splice the `data` segment into a secret path.
 */
module Paths {
  import opened GoStrings

  /** One step of Clean over the "/"-separated elements, left to right. */
  function CleanStep(out: seq<string>, element: string, rooted: bool): seq<string> {
    if element == "" || element == "." then out
    else if element == ".." then
      if |out| > 0 && out[|out| - 1] != ".." then out[..|out| - 1]
      else if rooted then out
      else out + [".."]
    else out + [element]
  }

  function CleanElements(out: seq<string>, elements: seq<string>, rooted: bool): seq<string>
    decreases |elements|
  {
    if |elements| == 0 then out
    else CleanElements(CleanStep(out, elements[0], rooted), elements[1..], rooted)
  }

  /**
   * path.Clean: collapse repeated slashes, drop "." elements, let ".." remove
   * the element before it (or vanish at the root), drop a trailing slash; an
   * empty result becomes "." (or "/" for a rooted path).
   */
  function Clean(p: string): string {
    if p == "" then "."
    else
      var rooted := p[0] == '/';
      var joined := Join(CleanElements([], Split(p, '/'), rooted), "/");
      if rooted then "/" + joined
      else if joined == "" then "."
      else joined
  }

  /**
   * path.Join: joins the elements from the first non-empty one onwards with
   * slashes and cleans the result; all-empty input gives "".
   */
  function PathJoin(elements: seq<string>): string
    decreases |elements|
  {
    if |elements| == 0 then ""
    else if elements[0] != "" then Clean(Join(elements, "/"))
    else PathJoin(elements[1..])
  }

  /** An element that Clean keeps verbatim (when non-empty) or drops (when empty). */
  predicate PlainElement(e: string) {
    e != "." && e != ".." && '/' !in e
  }

  /** The non-empty elements, in order. */
  function NonEmpty(elements: seq<string>): (r: seq<string>)
    ensures forall k | 0 <= k < |r| :: r[k] != ""
  {
    if |elements| == 0 then []
    else if elements[0] == "" then NonEmpty(elements[1..])
    else [elements[0]] + NonEmpty(elements[1..])
  }

  /** The non-empty "/"-separated segments of a path. */
  function Segments(p: string): seq<string> {
    NonEmpty(Split(p, '/'))
  }

  lemma {:induction false} NonEmptyAppend(a: seq<string>, b: seq<string>)
    ensures NonEmpty(a + b) == NonEmpty(a) + NonEmpty(b)
  {
    if |a| > 0 {
      assert (a + b)[1..] == a[1..] + b;
      NonEmptyAppend(a[1..], b);
    } else {
      assert a + b == b;
    }
  }

  /** On plain elements Clean only drops the empty ones. */
  lemma {:induction false} CleanElementsPlain(out: seq<string>, elements: seq<string>, rooted: bool)
    requires forall k | 0 <= k < |elements| :: PlainElement(elements[k])
    ensures CleanElements(out, elements, rooted) == out + NonEmpty(elements)
    decreases |elements|
  {
    if |elements| > 0 {
      CleanElementsPlain(CleanStep(out, elements[0], rooted), elements[1..], rooted);
    }
  }

  lemma {:induction false} JoinAppend(a: seq<string>, b: seq<string>, sep: string)
    requires |a| >= 1 && |b| >= 1
    ensures Join(a + b, sep) == Join(a, sep) + sep + Join(b, sep)
  {
    if |a| == 1 {
      assert (a + b)[1..] == b;
    } else {
      assert (a + b)[1..] == a[1..] + b;
      JoinAppend(a[1..], b, sep);
    }
  }

  /** Splitting at any separator distributes over the two sides. */
  lemma SplitAround(a: string, b: string, c: char)
    ensures Split(a + [c] + b, c) == Split(a, c) + Split(b, c)
  {
    var pa := Split(a, c);
    var pb := Split(b, c);
    JoinSplit(a, c);
    JoinSplit(b, c);
    JoinAppend(pa, pb, [c]);
    assert Join(pa + pb, [c]) == a + [c] + b;
    SplitPiecesHaveNoSeparator(a, c);
    SplitPiecesHaveNoSeparator(b, c);
    SeparatorFreeAppend(pa, pb, c);
    SplitJoin(pa + pb, c);
  }

  lemma SeparatorFreeAppend(pa: seq<string>, pb: seq<string>, c: char)
    requires forall k | 0 <= k < |pa| :: c !in pa[k]
    requires forall k | 0 <= k < |pb| :: c !in pb[k]
    ensures forall k | 0 <= k < |pa + pb| :: c !in (pa + pb)[k]
  {
  }

  /**
   * Clean of a relative path made of plain elements is the "/"-join of its
   * non-empty elements.
   */
  lemma CleanPlainPath(elements: seq<string>)
    requires |elements| >= 1 && elements[0] != ""
    requires forall k | 0 <= k < |elements| :: PlainElement(elements[k])
    ensures Clean(Join(elements, "/")) == Join(NonEmpty(elements), "/")
  {
    var p := Join(elements, "/");
    JoinHead(elements, "/");
    SplitJoin(elements, '/');
    assert Split(p, '/') == elements;
    CleanElementsPlain([], elements, false);
    var kept := NonEmpty(elements);
    assert [] + kept == kept;
    assert CleanElements([], Split(p, '/'), false) == kept;
    assert kept == [elements[0]] + NonEmpty(elements[1..]);
    JoinHead(kept, "/");
    var joined := Join(CleanElements([], Split(p, '/'), false), "/");
    assert joined == Join(kept, "/");
    assert joined != "";
  }

  /** A join whose first part is non-empty starts with that part's first character. */
  lemma JoinHead(parts: seq<string>, sep: string)
    requires |parts| >= 1 && parts[0] != ""
    ensures |Join(parts, sep)| > 0 && Join(parts, sep)[0] == parts[0][0]
  {
    if |parts| > 1 {
      assert Join(parts, sep) == parts[0] + sep + Join(parts[1..], sep);
    }
  }
}

=== FILE: pkgvault.dfy ===
/**
 * The oldest generation of the Vault access (pkg/vault/vault.go): a client
 * configured from the environment with the token or Kubernetes auth method,
 * and a KV read that is told the engine version by the resource instead of
 * asking Vault, splicing `data` into the path itself.
 */
module PkgVault {
  import opened Wrappers
  import opened Values
  import opened GoStrings
  import opened GoTime
  import KvHelpers
  import Convert

  const ErrMissingVaultAddress := Error("missing vault address")
  const ErrInvalidAuthMethod := Error("invalid auth method")
  const ErrMissingVaultToken := Error("missing vault token")
  const ErrMissingVaultTokenLeaseDuration := Error("missing lease duration for vault token")
  const ErrMissingVaultKubernetesPathAsWritten := Error("missing ttl for vault token")
  const ErrMissingVaultKubernetesRoleAsWritten := Error("missing ttl for vault token")
  const ErrMissingVaultKubernetesPath := Error("missing Kubernetes auth path")
  const ErrMissingVaultKubernetesRole := Error("missing Kubernetes role")
  const ErrMissingVaultAuthInfo := Error("missing authentication information")
  const ErrInvalidPath := Error("invalid path")

  /** Reading `secret.Auth` of the nil secret a login write may return. */
  const NilDereference := Panic("invalid memory address or nil pointer dereference")

  /** The package-level client state CreateClient establishes. */
  datatype PkgClient = PkgClient(token: string, tokenLeaseDuration: int)

  /**
   * CreateClient exactly as written: an empty lease duration is reported as a
   * missing token, and the Kubernetes path and role errors share the text of
   * an unrelated "ttl" error.
   */
  function CreateClientAsWritten(env: map<string, string>, newClientError: Option<string>,
                                 readFile: string -> Result<string, string>,
                                 login: (string, map<string, string>) -> LoginResponse)
    : (r: Result<PkgClient, Failure>)
    ensures Getenv(env, "VAULT_ADDRESS") == "" ==> r == Err(ErrMissingVaultAddress)
    ensures Getenv(env, "VAULT_ADDRESS") != "" && newClientError.Some? ==> r == Err(Error(newClientError.value))
    ensures Getenv(env, "VAULT_ADDRESS") != "" && newClientError.None? ==>
              var authMethod := Getenv(env, "VAULT_AUTH_METHOD");
              var token := Getenv(env, "VAULT_TOKEN");
              var lease := Getenv(env, "VAULT_TOKEN_LEASE_DURATION");
              var path := Getenv(env, "VAULT_KUBERNETES_PATH");
              var role := Getenv(env, "VAULT_KUBERNETES_ROLE");
              (authMethod != "token" && authMethod != "kubernetes" ==> r == Err(ErrInvalidAuthMethod))
              && (authMethod == "token" ==>
                    (token == "" || lease == "" ==> r == Err(ErrMissingVaultToken))
                    && (token != "" && lease != "" && Atoi(lease).None? ==> r == Err(Error(ParseIntErrorMessage("Atoi", lease))))
                    && (token != "" && Atoi(lease).Some? ==> r == Ok(PkgClient(token, Atoi(lease).value))))
              && (authMethod == "kubernetes" ==>
                    (path == "" ==> r == Err(ErrMissingVaultKubernetesPathAsWritten))
                    && (path != "" && role == "" ==> r == Err(ErrMissingVaultKubernetesRoleAsWritten))
                    && (path != "" && role != "" ==> r == KubernetesLogin(path, role, readFile, login)))
  {
    var address := Getenv(env, "VAULT_ADDRESS");
    var authMethod := Getenv(env, "VAULT_AUTH_METHOD");
    if address == "" then Err(ErrMissingVaultAddress)
    else if newClientError.Some? then Err(Error(newClientError.value))
    else if authMethod == "token" then
      var token := Getenv(env, "VAULT_TOKEN");
      var lease := Getenv(env, "VAULT_TOKEN_LEASE_DURATION");
      if token == "" then Err(ErrMissingVaultToken)
      else if lease == "" then Err(ErrMissingVaultToken)
      else match Atoi(lease)
        case None => Err(Error(ParseIntErrorMessage("Atoi", lease)))
        case Some(n) => Ok(PkgClient(token, n))
    else if authMethod == "kubernetes" then
      var path := Getenv(env, "VAULT_KUBERNETES_PATH");
      var role := Getenv(env, "VAULT_KUBERNETES_ROLE");
      if path == "" then Err(ErrMissingVaultKubernetesPathAsWritten)
      else if role == "" then Err(ErrMissingVaultKubernetesRoleAsWritten)
      else KubernetesLogin(path, role, readFile, login)
    else Err(ErrInvalidAuthMethod)
  }

  /** The Kubernetes login: the service account token and the role go to path/login. */
  function KubernetesLogin(path: string, role: string, readFile: string -> Result<string, string>,
                           login: (string, map<string, string>) -> LoginResponse)
    : (r: Result<PkgClient, Failure>)
    ensures readFile(ServiceAccountTokenPath).Err? ==> r == Err(Error(readFile(ServiceAccountTokenPath).error))
    ensures r.Ok? ==> readFile(ServiceAccountTokenPath).Ok?
                      && login(path + "/login", map["jwt" := readFile(ServiceAccountTokenPath).value, "role" := role])
                         == Auth(r.value.token, r.value.tokenLeaseDuration)
    ensures readFile(ServiceAccountTokenPath).Ok? ==>
              var response := login(path + "/login", map["jwt" := readFile(ServiceAccountTokenPath).value, "role" := role]);
              (response.LoginFailed? ==> r == Err(Error(response.message)))
              && (response.NilSecret? ==> r == Err(NilDereference))
              && (response.NoAuth? ==> r == Err(ErrMissingVaultAuthInfo))
              && (response.Auth? ==> r == Ok(PkgClient(response.clientToken, response.leaseDuration)))
  {
    match readFile(ServiceAccountTokenPath)
    case Err(message) => Err(Error(message))
    case Ok(jwt) =>
      match login(path + "/login", map["jwt" := jwt, "role" := role])
      case LoginFailed(message) => Err(Error(message))
      case NilSecret => Err(NilDereference)
      case NoAuth => Err(ErrMissingVaultAuthInfo)
      case Auth(clientToken, leaseDuration) => Ok(PkgClient(clientToken, leaseDuration))
  }

  /**
   * CreateClient as evidently intended: an empty lease duration reports the
   * (declared but unused) lease-duration error, and the Kubernetes path and
   * role errors say what is missing.
   */
  function CreateClient(env: map<string, string>, newClientError: Option<string>,
                        readFile: string -> Result<string, string>,
                        login: (string, map<string, string>) -> LoginResponse)
    : (r: Result<PkgClient, Failure>)
    ensures Getenv(env, "VAULT_ADDRESS") == "" ==> r == Err(ErrMissingVaultAddress)
    ensures Getenv(env, "VAULT_ADDRESS") != "" && newClientError.None? ==>
              var authMethod := Getenv(env, "VAULT_AUTH_METHOD");
              (authMethod != "token" && authMethod != "kubernetes" ==> r == Err(ErrInvalidAuthMethod))
              && (authMethod == "token" ==>
                    (r == Err(ErrMissingVaultToken) <==> Getenv(env, "VAULT_TOKEN") == "")
                    && (r == Err(ErrMissingVaultTokenLeaseDuration) <==>
                          Getenv(env, "VAULT_TOKEN") != "" && Getenv(env, "VAULT_TOKEN_LEASE_DURATION") == "")
                    && (r.Ok? <==> Getenv(env, "VAULT_TOKEN") != "" && Atoi(Getenv(env, "VAULT_TOKEN_LEASE_DURATION")).Some?)
                    && (r.Ok? ==> r.value == PkgClient(Getenv(env, "VAULT_TOKEN"), Atoi(Getenv(env, "VAULT_TOKEN_LEASE_DURATION")).value)))
              && (authMethod == "kubernetes" ==>
                    (Getenv(env, "VAULT_KUBERNETES_PATH") == "" ==> r == Err(ErrMissingVaultKubernetesPath))
                    && (Getenv(env, "VAULT_KUBERNETES_PATH") != "" && Getenv(env, "VAULT_KUBERNETES_ROLE") == "" ==>
                          r == Err(ErrMissingVaultKubernetesRole))
                    && (Getenv(env, "VAULT_KUBERNETES_PATH") != "" && Getenv(env, "VAULT_KUBERNETES_ROLE") != "" ==>
                          r == KubernetesLogin(Getenv(env, "VAULT_KUBERNETES_PATH"), Getenv(env, "VAULT_KUBERNETES_ROLE"),
                                               readFile, login)))
    ensures Getenv(env, "VAULT_ADDRESS") != "" && newClientError.Some? ==> r == Err(Error(newClientError.value))
    ensures Getenv(env, "VAULT_ADDRESS") != "" && newClientError.None? && Getenv(env, "VAULT_AUTH_METHOD") == "token"
            && Getenv(env, "VAULT_TOKEN") != "" && Getenv(env, "VAULT_TOKEN_LEASE_DURATION") != ""
            && Atoi(Getenv(env, "VAULT_TOKEN_LEASE_DURATION")).None? ==>
              r == Err(Error(ParseIntErrorMessage("Atoi", Getenv(env, "VAULT_TOKEN_LEASE_DURATION"))))
  {
    var address := Getenv(env, "VAULT_ADDRESS");
    var authMethod := Getenv(env, "VAULT_AUTH_METHOD");
    if address == "" then Err(ErrMissingVaultAddress)
    else if newClientError.Some? then Err(Error(newClientError.value))
    else if authMethod == "token" then
      var token := Getenv(env, "VAULT_TOKEN");
      var lease := Getenv(env, "VAULT_TOKEN_LEASE_DURATION");
      if token == "" then Err(ErrMissingVaultToken)
      else if lease == "" then Err(ErrMissingVaultTokenLeaseDuration)
      else match Atoi(lease)
        case None => Err(Error(ParseIntErrorMessage("Atoi", lease)))
        case Some(n) => Ok(PkgClient(token, n))
    else if authMethod == "kubernetes" then
      var path := Getenv(env, "VAULT_KUBERNETES_PATH");
      var role := Getenv(env, "VAULT_KUBERNETES_ROLE");
      if path == "" then Err(ErrMissingVaultKubernetesPath)
      else if role == "" then Err(ErrMissingVaultKubernetesRole)
      else KubernetesLogin(path, role, readFile, login)
    else Err(ErrInvalidAuthMethod)
  }

  /**
   * The as-written setup and the corrected one differ exactly on a present
   * token without a lease duration and on a Kubernetes setup missing its
   * path or role; on every other environment they agree.
   */
  lemma AsWrittenDiffersOnlyInMessages(env: map<string, string>, newClientError: Option<string>,
                                       readFile: string -> Result<string, string>,
                                       login: (string, map<string, string>) -> LoginResponse)
    ensures CreateClientAsWritten(env, newClientError, readFile, login) != CreateClient(env, newClientError, readFile, login)
            <==> Getenv(env, "VAULT_ADDRESS") != "" && newClientError.None?
                 && ((Getenv(env, "VAULT_AUTH_METHOD") == "token" && Getenv(env, "VAULT_TOKEN") != ""
                      && Getenv(env, "VAULT_TOKEN_LEASE_DURATION") == "")
                     || (Getenv(env, "VAULT_AUTH_METHOD") == "kubernetes"
                         && (Getenv(env, "VAULT_KUBERNETES_PATH") == "" || Getenv(env, "VAULT_KUBERNETES_ROLE") == "")))
  {
  }

  /** As written, a present token with no lease duration is reported as a missing token. */
  lemma LeaseErrorAsWritten(token: string, readFile: string -> Result<string, string>,
                            login: (string, map<string, string>) -> LoginResponse)
    requires token != ""
    ensures var env := map["VAULT_ADDRESS" := "http://vault:8200", "VAULT_AUTH_METHOD" := "token", "VAULT_TOKEN" := token];
            CreateClientAsWritten(env, None, readFile, login) == Err(ErrMissingVaultToken)
            && CreateClient(env, None, readFile, login) == Err(ErrMissingVaultTokenLeaseDuration)
  {
  }

  /** As written, a missing Kubernetes path and a missing role cannot be told apart; corrected, they can. */
  lemma KubernetesErrorsAsWritten(path: string, role: string, readFile: string -> Result<string, string>,
                                  login: (string, map<string, string>) -> LoginResponse)
    requires path != "" && role != ""
    ensures var noPath := map["VAULT_ADDRESS" := "a", "VAULT_AUTH_METHOD" := "kubernetes", "VAULT_KUBERNETES_ROLE" := role];
            var noRole := map["VAULT_ADDRESS" := "a", "VAULT_AUTH_METHOD" := "kubernetes", "VAULT_KUBERNETES_PATH" := path];
            CreateClientAsWritten(noPath, None, readFile, login) == CreateClientAsWritten(noRole, None, readFile, login)
            && CreateClient(noPath, None, readFile, login) != CreateClient(noRole, None, readFile, login)
  {
  }

  /**
   * RenewToken's sleep between renewals, in nanoseconds: half the lease,
   * truncated toward zero to whole seconds, whether or not the renewal
   * succeeded, scaled by `time.Second` with the 64-bit wrap of time.Duration.
   */
  function RenewDelay(tokenLeaseDuration: int): (d: int)
    ensures tokenLeaseDuration >= 0 ==> d == Seconds(tokenLeaseDuration / 2)
    ensures tokenLeaseDuration < 0 ==> d == Seconds(-((-tokenLeaseDuration) / 2))
    ensures MinInt64 <= d <= MaxInt64
    ensures tokenLeaseDuration >= 0 && (tokenLeaseDuration / 2) * Second <= MaxInt64 ==>
              d == (tokenLeaseDuration / 2) * Second && d % Second == 0
  {
    var q := tokenLeaseDuration / 2;
    TruncateHalf(tokenLeaseDuration);
    assert tokenLeaseDuration >= 0 && q * Second <= MaxInt64 ==> Seconds(q) == q * Second && Seconds(q) % Second == 0 by {
      if tokenLeaseDuration >= 0 && q * Second <= MaxInt64 {
        WholeSeconds(q);
      }
    }
    Seconds(Truncate(tokenLeaseDuration as real * 0.5))
  }

  /**
   * The kv2 path: "data" becomes the second "/"-segment unless it already is;
   * a path without a "/" is invalid.
   */
  function Kv2Path(path: string): (r: Result<string, Failure>)
    ensures r.Err? <==> |Split(path, '/')| < 2
    ensures r.Err? ==> r.error == ErrInvalidPath
    ensures r.Ok? && Split(path, '/')[1] == "data" ==> r.value == path
  {
    var parts := Split(path, '/');
    if |parts| < 2 then Err(ErrInvalidPath)
    else if parts[1] != "data" then Ok(parts[0] + "/data/" + Join(parts[1..], "/"))
    else Ok(path)
  }

  /** The segments of a spliced path: the first segment, "data", then the remaining ones. */
  lemma Kv2PathSegments(path: string)
    requires |Split(path, '/')| >= 2 && Split(path, '/')[1] != "data"
    ensures Split(Kv2Path(path).value, '/') == [Split(path, '/')[0], "data"] + Split(path, '/')[1..]
  {
    var parts := Split(path, '/');
    var tail := parts[1..];
    var rest := Join(tail, "/");
    SplitPiecesHaveNoSeparator(path, '/');
    assert '/' !in parts[0];
    assert forall k | 0 <= k < |tail| :: '/' !in tail[k] by {
      forall k | 0 <= k < |tail| ensures '/' !in tail[k] {
        assert tail[k] == parts[k + 1];
      }
    }
    SplitJoin(tail, '/');
    SpliceSegments(parts[0], rest);
  }

  lemma SpliceSegments(first: string, rest: string)
    requires '/' !in first
    ensures Split(first + "/data/" + rest, '/') == [first, "data"] + Split(rest, '/')
  {
    var tail := "data" + ['/'] + rest;
    SlashDataSlash(first, rest);
    SplitAtFirst(first, tail, '/');
    SplitAtFirst("data", rest, '/');
    ConsTwo(first, "data", Split(rest, '/'));
  }

  lemma SlashDataSlash(first: string, rest: string)
    ensures first + "/data/" + rest == first + ['/'] + ("data" + ['/'] + rest)
  {
  }

  lemma ConsTwo(a: string, b: string, parts: seq<string>)
    ensures [a] + ([b] + parts) == [a, b] + parts
  {
  }

  /** Splicing is idempotent: a spliced path already has "data" second. */
  lemma Kv2PathIdempotent(path: string)
    requires Kv2Path(path).Ok?
    ensures Kv2Path(Kv2Path(path).value) == Kv2Path(path)
  {
    if Split(path, '/')[1] != "data" {
      Kv2PathSegments(path);
    }
  }

  /** The version parameter: sent for kv2 whenever the version is not zero. */
  function VersionParams(secretEngine: string, version: int): (params: map<string, seq<string>>)
    ensures "version" in params <==> secretEngine == "kv2" && version != 0
    ensures params.Keys <= {"version"}
  {
    if secretEngine == "kv2" && version != 0 then map["version" := [Itoa(version)]] else map[]
  }

  /**
   * Unlike the later generations, which send the version only when it is
   * positive, this one sends a negative version to Vault.
   */
  lemma NegativeVersionSent(version: int)
    requires version < 0
    ensures "version" in VersionParams("kv2", version)
    ensures "version" !in KvHelpers.VersionParams(version)
  {
  }

  /** The request GetSecret reads from, or ErrInvalidPath. */
  function ReadRequestFor(secretEngine: string, path: string, version: int): (r: Result<ReadRequest, Failure>)
    ensures secretEngine != "kv2" ==> r == Ok(ReadRequest(None, path, map[]))
    ensures secretEngine == "kv2" ==>
              (r.Ok? <==> Kv2Path(path).Ok?)
              && (r.Ok? ==> r.value == ReadRequest(None, Kv2Path(path).value, VersionParams(secretEngine, version)))
  {
    if secretEngine == "kv2" then
      var spliced :- Kv2Path(path);
      Ok(ReadRequest(None, spliced, VersionParams(secretEngine, version)))
    else Ok(ReadRequest(None, path, VersionParams(secretEngine, version)))
  }

  /** GetSecret: read, unwrap for kv2, convert the values as text; an empty result is invalid. */
  function GetSecret(secretEngine: string, path: string, keys: seq<string>, version: int,
                     read: ReadRequest -> ReadResponse, toJson: Value -> string)
    : (r: Result<map<string, string>, Failure>)
    ensures r.Ok? ==> |r.value| > 0
    ensures ReadRequestFor(secretEngine, path, version).Err? ==> r == Err(ErrInvalidPath)
    ensures ReadRequestFor(secretEngine, path, version).Ok? && read(ReadRequestFor(secretEngine, path, version).value).Missing? ==>
              r == Err(KvHelpers.SecretIsNilError)
    ensures secretEngine == "kv2" && ReadRequestFor(secretEngine, path, version).Ok?
            && read(ReadRequestFor(secretEngine, path, version).value).Found?
            && !Lookup(read(ReadRequestFor(secretEngine, path, version).value).secret.data, "data").Object? ==>
              r == Err(KvHelpers.ParseSecretError)
    ensures r.Ok? ==> ReadRequestFor(secretEngine, path, version).Ok? && read(ReadRequestFor(secretEngine, path, version).value).Found?
    ensures r.Ok? ==>
              var secret := read(ReadRequestFor(secretEngine, path, version).value).secret;
              var payload := if secretEngine == "kv2" then secret.data["data"].fields else secret.data;
              Convert.ConvertData(payload, keys, false, toJson) == Ok(r.value)
    ensures ReadRequestFor(secretEngine, path, version).Ok? && read(ReadRequestFor(secretEngine, path, version).value).ReadFailed? ==>
              r == Err(Error(read(ReadRequestFor(secretEngine, path, version).value).message))
    ensures ReadRequestFor(secretEngine, path, version).Ok? && read(ReadRequestFor(secretEngine, path, version).value).Found?
            && (secretEngine != "kv2" || Lookup(read(ReadRequestFor(secretEngine, path, version).value).secret.data, "data").Object?) ==>
              var secret := read(ReadRequestFor(secretEngine, path, version).value).secret;
              var converted := Convert.ConvertData(if secretEngine == "kv2" then secret.data["data"].fields else secret.data,
                                                   keys, false, toJson);
              (converted.Err? ==> r == Err(converted.error))
              && (converted.Ok? && |converted.value| == 0 ==> r == Err(KvHelpers.InvalidSecretDataError))
              && (converted.Ok? && |converted.value| > 0 ==> r == Ok(converted.value))
  {
    var request :- ReadRequestFor(secretEngine, path, version);
    match read(request)
    case ReadFailed(message) => Err(Error(message))
    case Missing => Err(KvHelpers.SecretIsNilError)
    case Found(secret) =>
      var payload :- if secretEngine != "kv2" then Ok(secret.data)
                     else match AsObject(Lookup(secret.data, "data"))
                       case Some(fields) => Ok(fields)
                       case None => Err(KvHelpers.ParseSecretError);
      var data :- Convert.ConvertData(payload, keys, false, toJson);
      if |data| == 0 then Err(KvHelpers.InvalidSecretDataError) else Ok(data)
  }
}

=== FILE: pki.dfy ===
/**
 * The PKI secrets engine adapter (vault/pki.go): a certificate is issued by a
 * write to <path>/issue/<role>, its expiry is the integer `expiration` field
 * read as Unix seconds, and only the certificate fields are copied into the
 * Kubernetes secret.
 */
module Pki {
  import opened Wrappers
  import opened Values
  import opened GoStrings
  import Convert

  const CertificateIsNilError := Error("certificate is nil")

  /** The fields PKIConvertData keeps. */
  const CertificateFields: seq<string> :=
    ["certificate", "expiration", "issuing_ca", "private_key", "private_key_type", "serial_number"]

  /** The write GetCertificate issues: every option, unchanged, as a string value. */
  datatype WriteRequest = WriteRequest(path: string, body: map<string, Value>)

  function IssueRequest(path: string, role: string, options: map<string, string>): (w: WriteRequest)
    ensures w.path == path + "/issue/" + role
    ensures w.body.Keys == options.Keys
    ensures forall k | k in options :: w.body[k] == Text(options[k])
  {
    WriteRequest(path + "/issue/" + role, map k | k in options :: Text(options[k]))
  }

  /** An issued certificate and its expiry, in nanoseconds since the Unix epoch. */
  datatype Issued = Issued(secret: Secret, expiresAt: int)

  /**
   * The expiry of an issued certificate: the `expiration` number parsed as a
   * 64-bit integer of seconds. A missing or non-number field fails the
   * single-value type assertion and panics; only the panic's kind is
   * modelled, not the runtime's wording of it.
   */
  function Expiration(secret: Secret): (r: Result<int, Failure>)
    ensures Lookup(secret.data, "expiration").Number? && Atoi(Lookup(secret.data, "expiration").literal).Some? ==>
              r == Ok(Atoi(Lookup(secret.data, "expiration").literal).value * Second)
    ensures Lookup(secret.data, "expiration").Number? && Atoi(Lookup(secret.data, "expiration").literal).None? ==>
              r.Err? && r.error.Error?
    ensures !Lookup(secret.data, "expiration").Number? ==> r.Err? && r.error.Panic?
  {
    match Lookup(secret.data, "expiration")
    case Number(literal) =>
      (match Atoi(literal)
       case Some(seconds) => Ok(seconds * Second)
       case None => Err(Error("error converting expiration date: " + ParseIntErrorMessage("ParseInt", literal))))
    case _ => Err(Panic("interface conversion: expiration is not json.Number"))
  }

  /** GetCertificate: the issued certificate and its expiry, or why there is none. */
  function GetCertificate(path: string, role: string, options: map<string, string>,
                          write: WriteRequest -> ReadResponse)
    : (r: Result<Issued, Failure>)
    ensures write(IssueRequest(path, role, options)).Missing? ==> r == Err(CertificateIsNilError)
    ensures write(IssueRequest(path, role, options)).ReadFailed? ==>
              r == Err(Error(write(IssueRequest(path, role, options)).message))
    ensures r.Ok? <==> write(IssueRequest(path, role, options)).Found?
                       && Expiration(write(IssueRequest(path, role, options)).secret).Ok?
    ensures r.Ok? ==> r.value.secret == write(IssueRequest(path, role, options)).secret
                      && r.value.expiresAt == Expiration(r.value.secret).value
  {
    match write(IssueRequest(path, role, options))
    case ReadFailed(message) => Err(Error(message))
    case Missing => Err(CertificateIsNilError)
    case Found(secret) =>
      var expiresAt :- Expiration(secret);
      Ok(Issued(secret, expiresAt))
  }

  /** PKIConvertData: the certificate fields of the response, converted as text. */
  function PKIConvertData(secret: Secret, toJson: Value -> string): (r: Result<map<string, string>, Failure>)
    ensures r.Ok? ==> r.value.Keys == secret.data.Keys * set k | k in CertificateFields
    ensures r.Ok? <==> forall k | k in secret.data && k in CertificateFields ::
                         Convert.ConvertValue(secret.data[k], false, toJson).Ok?
    ensures r.Ok? ==> forall k | k in r.value :: k in secret.data
                        && Convert.ConvertValue(secret.data[k], false, toJson) == Ok(r.value[k])
    ensures r.Err? ==> exists k | k in secret.data && k in CertificateFields ::
                         Convert.ConvertValue(secret.data[k], false, toJson) == Err(r.error)
  {
    Convert.ConvertData(secret.data, CertificateFields, false, toJson)
  }

  /**
   * Fields outside the certificate set never matter: a response with extra
   * fields of any type (an array `ca_chain`, say) converts like the response
   * without them.
   */
  lemma ExtraFieldsIgnored(secret: Secret, extra: map<string, Value>, toJson: Value -> string)
    requires forall k | k in extra :: k !in CertificateFields && k !in secret.data
    ensures PKIConvertData(Secret(secret.data + extra, secret.leaseDuration), toJson) == PKIConvertData(secret, toJson)
  {
    var bigger := Secret(secret.data + extra, secret.leaseDuration);
    var selected := Convert.SelectedKeys(secret.data, CertificateFields);
    assert Convert.SelectedKeys(bigger.data, CertificateFields) == selected;
    var a := PKIConvertData(bigger, toJson);
    var b := PKIConvertData(secret, toJson);
    if a.Ok? && b.Ok? {
      assert a.value == b.value;
    }
  }

  /** A numeric expiration of s seconds is an expiry of s seconds after the epoch. */
  lemma ExpirationRoundTrip(seconds: int, data: map<string, Value>, lease: int)
    requires MinInt64 <= seconds <= MaxInt64
    ensures Expiration(Secret(data["expiration" := Number(Itoa(seconds))], lease)) == Ok(seconds * Second)
  {
    AtoiItoa(seconds);
  }
}

=== FILE: validators.dfy ===
/** Resource validation before a PKI certificate is issued (controllers/validators.go). */
module Validators {
  import opened Wrappers
  import opened Api

  const MissingRoleError := "`PKIRole' must be set"
  const MissingCommonNameError := "`engineOptions.common_name' must be set"

  /**
   * ValidatePKI: None when the resource is valid. Only the pki engine is
   * checked; it needs a role and a `common_name` option, whose value may be empty.
   */
  function ValidatePKI(spec: VaultSecretSpec): (error: Option<string>)
    ensures spec.secretEngine != "pki" ==> error == None
    ensures spec.secretEngine == "pki" ==> (error == None <==> spec.role != "" && "common_name" in spec.engineOptions)
    ensures spec.secretEngine == "pki" && spec.role == "" ==> error == Some(MissingRoleError)
    ensures spec.secretEngine == "pki" && spec.role != "" && "common_name" !in spec.engineOptions ==>
              error == Some(MissingCommonNameError)
  {
    if spec.secretEngine != "pki" then None
    else if spec.role == "" then Some(MissingRoleError)
    else if "common_name" !in spec.engineOptions then Some(MissingCommonNameError)
    else None
  }

  /** Only the presence of `common_name` is checked: an empty common name validates. */
  lemma EmptyCommonNameValidates(spec: VaultSecretSpec)
    requires spec.secretEngine == "pki" && spec.role != ""
    ensures ValidatePKI(spec.(engineOptions := spec.engineOptions["common_name" := ""])) == None
  {
  }
}

=== FILE: values.dfy ===
/**
 * The data a Vault response carries. The Vault client decodes JSON bodies with
 * numbers kept as their literal text, so every value in `Secret.Data` is one
 * of: a nested object, a string, a number literal, a boolean, JSON null or an
 * array. Errors are Go `error` values (identified by their message) or runtime
 * panics from a failed single-value type assertion.
 */
module Values {
  import opened Wrappers

  datatype Value =
    | Object(fields: map<string, Value>)
    | Text(text: string)
    | Number(literal: string)
    | Boolean(flag: bool)
    | Null
    | Array(items: seq<Value>)

  datatype Failure =
    | Error(message: string)
    | Panic(reason: string)

  /** A Vault `api.Secret` as the operator reads it. */
  datatype Secret = Secret(data: map<string, Value>, leaseDuration: int)

  /** time.Duration counts nanoseconds. */
  const Second: int := 1_000_000_000

  /** Go's float64-to-integer conversion, which truncates toward zero. */
  function Truncate(x: real): (n: int)
    ensures x >= 0.0 ==> n as real <= x < n as real + 1.0
    ensures x < 0.0 ==> n as real - 1.0 < x <= n as real
  {
    if x >= 0.0 then x.Floor else -((-x).Floor)
  }

  /**
   * What a logical read or write against Vault returned: an error from the
   * HTTP layer, no secret (Go's nil *api.Secret with a nil error), or a secret.
   */
  datatype ReadResponse =
    | ReadFailed(message: string)
    | Missing
    | Found(secret: Secret)

  /** A logical read: the namespace set on the client (None leaves it as it was), the path and the query parameters. */
  datatype ReadRequest = ReadRequest(namespace: Option<string>, path: string, params: map<string, seq<string>>)

  /** Go's `m[k]` on a map[string]interface{}: a missing key reads as nil. */
  function Lookup(m: map<string, Value>, k: string): (v: Value)
    ensures k !in m ==> v == Null
    ensures k in m ==> v == m[k]
  {
    if k in m then m[k] else Null
  }

  /**
   * What a login write returned: an error, no secret at all (nil with a nil
   * error), a secret without auth information, or the client token and its
   * lease duration in seconds.
   */
  datatype LoginResponse =
    | LoginFailed(message: string)
    | NilSecret
    | NoAuth
    | Auth(clientToken: string, leaseDuration: int)

  /** Where Kubernetes mounts the pod's service account token. */
  const ServiceAccountTokenPath := "/var/run/secrets/kubernetes.io/serviceaccount/token"

  /** os.Getenv: an unset variable reads as "". */
  function Getenv(env: map<string, string>, name: string): (v: string)
    ensures name in env ==> v == env[name]
    ensures name !in env ==> v == ""
  {
    if name in env then env[name] else ""
  }

  /** A `x.(map[string]interface{})` two-value assertion: Some only for an object. */
  function AsObject(v: Value): (r: Option<map<string, Value>>)
    ensures r.Some? <==> v.Object?
    ensures v.Object? ==> r == Some(v.fields)
  {
    match v
    case Object(f) => Some(f)
    case _ => None
  }
}

=== FILE: vaultconfig.dfy ===
/**
 * Client configuration of the vault package (vault/vault.go): CreateClient
 * reads its settings from the environment, picks the authentication method
 * named by VAULT_AUTH_METHOD, checks its required settings, fills in
 * defaults and logs in; InitSharedClient adds the reconciliation interval.
 *
 * Files, the login write, duration and float parsing and the cloud
 * identity providers are oracles in `Io`.
 */
module VaultConfig {
  import opened Wrappers
  import opened Values
  import opened GoStrings

  const ErrMissingToken := Error("missing vault token")
  const ErrMissingLease := Error("missing lease duration for vault token")
  const ErrMissingKubernetesPath := Error("missing Kubernetes auth path")
  const ErrMissingAuthInfo := Error("missing authentication information")
  const ErrMissingRoleId := Error("missing role id for AppRole auth method")
  const ErrMissingSecretId := Error("missing secret id for AppRole auth method")
  const ErrMissingUsername := Error("missing username for userpass auth method")
  const ErrMissingPassword := Error("missing password for userpass auth method")
  const ErrInvalidAwsType := Error("invalid aws authentication type")
  const ErrInvalidGcpType := Error("invalid gcp authentication type")
  const ErrInvalidMethod := Error("invalid authentication method")
  const NilDereference := Panic("invalid memory address or nil pointer dereference")

  /** Sixteen days in seconds, the token max TTL used when VAULT_TOKEN_MAX_TTL does not parse. */
  const DefaultTokenMaxTTL := 16 * 24 * 60 * 60
  const DefaultPkiRenew := "1h"
  const DefaultRetryInterval: real := 30.0
  const DefaultAppRolePath := "auth/approle"
  const DefaultAzurePath := "auth/azure"
  const DefaultAzureRole := "default"
  const DefaultAwsPath := "auth/aws"
  const DefaultGcpPath := "auth/gcp"
  const UserpassLoginPrefix := "auth/userpass/login/"

  /**
   * The client CreateClient returns. `reauthentication` is the login path the
   * client writes to again when its token reaches its max TTL, or None when
   * the client has no requestToken function.
   */
  datatype Client = Client(
    token: string,
    renewToken: bool,
    tokenLeaseDuration: int,
    tokenRenewalInterval: real,
    tokenRenewalRetryInterval: real,
    tokenMaxTTL: int,
    rootNamespace: string,
    restrictNamespace: bool,
    pkiRenew: int,
    reauthentication: Option<string>)

  /** The Azure managed identity: its access token and the instance metadata. */
  datatype AzureIdentity = AzureIdentity(
    accessToken: string, subscriptionId: string, resourceGroupName: string, vmName: string, vmssName: string)

  /** Everything CreateClient consults besides the requested Kubernetes role. */
  datatype Io = Io(
    env: map<string, string>,
    newClientError: Option<string>,                          // api.NewClient
    parseDuration: string -> Result<int, string>,            // time.ParseDuration, in nanoseconds
    parseFloat: string -> Option<real>,                      // strconv.ParseFloat, None on error
    readFile: string -> Result<string, string>,              // os.ReadFile
    login: (string, map<string, string>) -> LoginResponse,   // Logical().Write of a login
    azureIdentity: Result<AzureIdentity, string>,            // msi.GetMsiToken and msi.GetInstanceMetadata
    awsLoginData: string -> Result<map<string, string>, string>,   // by auth type, "ec2" or "iam"
    gcpLoginData: string -> Result<map<string, string>, string>)   // by auth type, "gce" or "iam"

  function Env(io: Io, name: string): (v: string)
    ensures name !in io.env ==> v == ""
  {
    Getenv(io.env, name)
  }

  // --------------------------------------------------------------- settings

  /** The settings every method shares. */
  datatype Settings = Settings(renewToken: bool, pkiRenew: int, restrictNamespace: bool, rootNamespace: string)

  /** A client carries the shared settings unchanged. */
  predicate Carries(c: Client, s: Settings) {
    c.renewToken == s.renewToken && c.pkiRenew == s.pkiRenew
    && c.restrictNamespace == s.restrictNamespace && c.rootNamespace == s.rootNamespace
  }

  /**
   * The shared settings: VAULT_RENEW_TOKEN defaults to true and
   * VAULT_RESTRICT_NAMESPACE to false when they do not parse as booleans;
   * VAULT_PKI_RENEW defaults to one hour and must parse as a duration.
   */
  function CommonSettings(io: Io): (r: Result<Settings, Failure>)
    ensures io.newClientError.Some? ==> r == Err(Error(io.newClientError.value))
    ensures r.Ok? ==> r.value.renewToken == ParseBool(Env(io, "VAULT_RENEW_TOKEN")).GetOr(true)
    ensures r.Ok? ==> r.value.restrictNamespace == ParseBool(Env(io, "VAULT_RESTRICT_NAMESPACE")).GetOr(false)
    ensures r.Ok? ==> r.value.rootNamespace == Env(io, "VAULT_NAMESPACE")
    ensures io.newClientError.None? && Env(io, "VAULT_PKI_RENEW") == "" ==>
              (r.Ok? <==> io.parseDuration(DefaultPkiRenew).Ok?)
              && (r.Ok? ==> r.value.pkiRenew == io.parseDuration(DefaultPkiRenew).value)
    ensures io.newClientError.None? && Env(io, "VAULT_PKI_RENEW") != "" ==>
              (r.Ok? <==> io.parseDuration(Env(io, "VAULT_PKI_RENEW")).Ok?)
              && (r.Ok? ==> r.value.pkiRenew == io.parseDuration(Env(io, "VAULT_PKI_RENEW")).value)
              && (r.Err? ==> r == Err(Error(io.parseDuration(Env(io, "VAULT_PKI_RENEW")).error)))
    ensures io.newClientError.None? && Env(io, "VAULT_PKI_RENEW") == "" && io.parseDuration(DefaultPkiRenew).Err? ==>
              r == Err(Error(io.parseDuration(DefaultPkiRenew).error))
  {
    match io.newClientError
    case Some(m) => Err(Error(m))
    case None =>
      var renewToken := ParseBool(Env(io, "VAULT_RENEW_TOKEN")).GetOr(true);
      var pkiRenewText := if |Env(io, "VAULT_PKI_RENEW")| == 0 then DefaultPkiRenew else Env(io, "VAULT_PKI_RENEW");
      match io.parseDuration(pkiRenewText)
      case Err(m) => Err(Error(m))
      case Ok(pkiRenew) =>
        var restrict := ParseBool(Env(io, "VAULT_RESTRICT_NAMESPACE")).GetOr(false);
        Ok(Settings(renewToken, pkiRenew, restrict, Env(io, "VAULT_NAMESPACE")))
  }

  /** VAULT_TOKEN_MAX_TTL in seconds, sixteen days when it does not parse. */
  function MaxTTL(io: Io): (ttl: int)
    ensures Atoi(Env(io, "VAULT_TOKEN_MAX_TTL")).Some? ==> ttl == Atoi(Env(io, "VAULT_TOKEN_MAX_TTL")).value
    ensures Atoi(Env(io, "VAULT_TOKEN_MAX_TTL")).None? ==> ttl == 1382400
  {
    Atoi(Env(io, "VAULT_TOKEN_MAX_TTL")).GetOr(DefaultTokenMaxTTL)
  }

  /**
   * The client for a token with a lease: the renewal interval defaults to
   * half the lease and the retry interval to 30 seconds.
   */
  function ClientFor(io: Io, s: Settings, token: string, lease: int, maxTTL: int, reauthentication: Option<string>)
    : (c: Client)
    ensures c.token == token && c.tokenLeaseDuration == lease && c.tokenMaxTTL == maxTTL
    ensures c.reauthentication == reauthentication
    ensures Carries(c, s)
    ensures io.parseFloat(Env(io, "VAULT_TOKEN_RENEWAL_INTERVAL")).None? ==> c.tokenRenewalInterval == lease as real / 2.0
    ensures io.parseFloat(Env(io, "VAULT_TOKEN_RENEWAL_INTERVAL")).Some? ==>
              c.tokenRenewalInterval == io.parseFloat(Env(io, "VAULT_TOKEN_RENEWAL_INTERVAL")).value
    ensures io.parseFloat(Env(io, "VAULT_TOKEN_RENEWAL_RETRY_INTERVAL")).None? ==> c.tokenRenewalRetryInterval == 30.0
    ensures io.parseFloat(Env(io, "VAULT_TOKEN_RENEWAL_RETRY_INTERVAL")).Some? ==>
              c.tokenRenewalRetryInterval == io.parseFloat(Env(io, "VAULT_TOKEN_RENEWAL_RETRY_INTERVAL")).value
  {
    var renewal := io.parseFloat(Env(io, "VAULT_TOKEN_RENEWAL_INTERVAL")).GetOr(lease as real * 0.5);
    var retry := io.parseFloat(Env(io, "VAULT_TOKEN_RENEWAL_RETRY_INTERVAL")).GetOr(DefaultRetryInterval);
    Client(token, s.renewToken, lease, renewal, retry, maxTTL, s.rootNamespace, s.restrictNamespace, s.pkiRenew,
           reauthentication)
  }

  /**
   * Logging in by writing `data` to `loginPath`. A nil secret without an
   * error dereferences nil; a secret without auth information is an error.
   */
  function Login(io: Io, s: Settings, loginPath: string, data: map<string, string>, maxTTL: int, reauthenticates: bool)
    : (r: Result<Client, Failure>)
    ensures io.login(loginPath, data).LoginFailed? ==> r == Err(Error(io.login(loginPath, data).message))
    ensures io.login(loginPath, data).NilSecret? ==> r == Err(NilDereference)
    ensures io.login(loginPath, data).NoAuth? ==> r == Err(ErrMissingAuthInfo)
    ensures r.Ok? <==> io.login(loginPath, data).Auth?
    ensures r.Ok? ==> Carries(r.value, s)
    ensures r.Ok? ==> r.value.token == io.login(loginPath, data).clientToken
                      && r.value.tokenLeaseDuration == io.login(loginPath, data).leaseDuration
                      && r.value.tokenMaxTTL == maxTTL
                      && (r.value.reauthentication.Some? <==> reauthenticates)
                      && (reauthenticates ==> r.value.reauthentication == Some(loginPath))
    ensures io.login(loginPath, data).Auth? ==>
              r == Ok(ClientFor(io, s, io.login(loginPath, data).clientToken, io.login(loginPath, data).leaseDuration,
                                maxTTL, if reauthenticates then Some(loginPath) else None))
  {
    match io.login(loginPath, data)
    case Auth(token, lease) =>
      Ok(ClientFor(io, s, token, lease, maxTTL, if reauthenticates then Some(loginPath) else None))
    case _ => Err(LoginFailure(io.login(loginPath, data)))
  }

  /** The error a login answer other than an auth block stands for. */
  function LoginFailure(response: LoginResponse): Failure
    requires !response.Auth?
  {
    match response
    case LoginFailed(m) => Error(m)
    case NilSecret => NilDereference
    case NoAuth => ErrMissingAuthInfo
  }

  /** A method's result once its login data is ready: the logged-in client, or the login's failure. */
  function MethodLogin(io: Io, s: Settings, loginPath: string, data: map<string, string>, maxTTL: int,
                       reauthenticates: bool)
    : (r: Result<Option<Client>, Failure>)
    ensures io.login(loginPath, data).Auth? ==>
              r == Ok(Some(ClientFor(io, s, io.login(loginPath, data).clientToken, io.login(loginPath, data).leaseDuration,
                                     maxTTL, if reauthenticates then Some(loginPath) else None)))
    ensures !io.login(loginPath, data).Auth? ==> r == Err(LoginFailure(io.login(loginPath, data)))
  {
    match Login(io, s, loginPath, data, maxTTL, reauthenticates)
    case Err(f) => Err(f)
    case Ok(c) => Ok(Some(c))
  }

  // ---------------------------------------------------------------- methods

  /** The token: VAULT_TOKEN, or else the contents of the file VAULT_TOKEN_PATH names. */
  function TokenText(io: Io): (r: Result<string, Failure>)
    ensures Env(io, "VAULT_TOKEN") != "" ==> r == Ok(Env(io, "VAULT_TOKEN"))
    ensures Env(io, "VAULT_TOKEN") == "" && Env(io, "VAULT_TOKEN_PATH") == "" ==> r == Err(ErrMissingToken)
    ensures Env(io, "VAULT_TOKEN") == "" && Env(io, "VAULT_TOKEN_PATH") != "" ==>
              (io.readFile(Env(io, "VAULT_TOKEN_PATH")).Err? ==> r == Err(Error(io.readFile(Env(io, "VAULT_TOKEN_PATH")).error)))
              && (io.readFile(Env(io, "VAULT_TOKEN_PATH")).Ok? ==> r == Ok(io.readFile(Env(io, "VAULT_TOKEN_PATH")).value))
  {
    if Env(io, "VAULT_TOKEN") != "" then Ok(Env(io, "VAULT_TOKEN"))
    else if Env(io, "VAULT_TOKEN_PATH") == "" then Err(ErrMissingToken)
    else match io.readFile(Env(io, "VAULT_TOKEN_PATH"))
      case Err(m) => Err(Error(m))
      case Ok(t) => Ok(t)
  }

  /** The token method: a token from VAULT_TOKEN or the file VAULT_TOKEN_PATH names, and its lease. */
  function TokenClient(io: Io, s: Settings): (r: Result<Option<Client>, Failure>)
    ensures r.Ok? && r.value.Some? ==> Carries(r.value.value, s)
    ensures Env(io, "VAULT_TOKEN") == "" && Env(io, "VAULT_TOKEN_PATH") == "" ==> r == Err(ErrMissingToken)
    ensures Env(io, "VAULT_TOKEN") != "" && Env(io, "VAULT_TOKEN_LEASE_DURATION") == "" ==> r == Err(ErrMissingLease)
    ensures Env(io, "VAULT_TOKEN") == "" && Env(io, "VAULT_TOKEN_PATH") != ""
            && io.readFile(Env(io, "VAULT_TOKEN_PATH")).Err? ==>
              r == Err(Error(io.readFile(Env(io, "VAULT_TOKEN_PATH")).error))
    ensures r.Ok? ==> r.value.Some? && Atoi(Env(io, "VAULT_TOKEN_LEASE_DURATION")).Some?
                      && r.value.value.tokenLeaseDuration == Atoi(Env(io, "VAULT_TOKEN_LEASE_DURATION")).value
                      && r.value.value.tokenMaxTTL == 0 && r.value.value.reauthentication.None?
                      && r.value.value.token == (if Env(io, "VAULT_TOKEN") != "" then Env(io, "VAULT_TOKEN")
                                                 else io.readFile(Env(io, "VAULT_TOKEN_PATH")).value)
    ensures TokenText(io).Err? ==> r == Err(TokenText(io).error)
    ensures TokenText(io).Ok? && Env(io, "VAULT_TOKEN_LEASE_DURATION") == "" ==> r == Err(ErrMissingLease)
    ensures TokenText(io).Ok? && Env(io, "VAULT_TOKEN_LEASE_DURATION") != "" && Atoi(Env(io, "VAULT_TOKEN_LEASE_DURATION")).None? ==>
              r == Err(Error(ParseIntErrorMessage("Atoi", Env(io, "VAULT_TOKEN_LEASE_DURATION"))))
    ensures TokenText(io).Ok? && Atoi(Env(io, "VAULT_TOKEN_LEASE_DURATION")).Some? ==>
              r == Ok(Some(ClientFor(io, s, TokenText(io).value, Atoi(Env(io, "VAULT_TOKEN_LEASE_DURATION")).value, 0, None)))
  {
    var token :- TokenText(io);
    var leaseText := Env(io, "VAULT_TOKEN_LEASE_DURATION");
    if leaseText == "" then Err(ErrMissingLease)
    else match Atoi(leaseText)
      case None => Err(Error(ParseIntErrorMessage("Atoi", leaseText)))
      case Some(lease) => Ok(Some(ClientFor(io, s, token, lease, 0, None)))
  }

  /**
   * The kubernetes method: without a role there is no client and no error;
   * otherwise the service account token (from VAULT_TOKEN_PATH when set)
   * and the role log in at VAULT_KUBERNETES_PATH.
   */
  function KubernetesClient(io: Io, s: Settings, role: string): (r: Result<Option<Client>, Failure>)
    ensures r.Ok? && r.value.Some? ==> Carries(r.value.value, s)
    ensures Env(io, "VAULT_KUBERNETES_PATH") == "" ==> r == Err(ErrMissingKubernetesPath)
    ensures Env(io, "VAULT_KUBERNETES_PATH") != "" && role == "" ==> r == Ok(None)
    ensures r.Ok? && r.value.Some? ==>
              var jwtPath := if Env(io, "VAULT_TOKEN_PATH") != "" then Env(io, "VAULT_TOKEN_PATH") else ServiceAccountTokenPath;
              var loginPath := Env(io, "VAULT_KUBERNETES_PATH") + "/login";
              role != "" && io.readFile(jwtPath).Ok?
              && io.login(loginPath, map["jwt" := io.readFile(jwtPath).value, "role" := role]).Auth?
              && r.value.value.tokenMaxTTL == MaxTTL(io)
              && r.value.value.reauthentication == Some(loginPath)
    ensures var jwtPath := if Env(io, "VAULT_TOKEN_PATH") != "" then Env(io, "VAULT_TOKEN_PATH") else ServiceAccountTokenPath;
            Env(io, "VAULT_KUBERNETES_PATH") != "" && role != "" && io.readFile(jwtPath).Err? ==>
              r == Err(Error(io.readFile(jwtPath).error))
    ensures var jwtPath := if Env(io, "VAULT_TOKEN_PATH") != "" then Env(io, "VAULT_TOKEN_PATH") else ServiceAccountTokenPath;
            var loginPath := Env(io, "VAULT_KUBERNETES_PATH") + "/login";
            Env(io, "VAULT_KUBERNETES_PATH") != "" && role != "" && io.readFile(jwtPath).Ok? ==>
              var response := io.login(loginPath, map["jwt" := io.readFile(jwtPath).value, "role" := role]);
              (response.Auth? ==>
                 r == Ok(Some(ClientFor(io, s, response.clientToken, response.leaseDuration, MaxTTL(io), Some(loginPath)))))
              && (!response.Auth? ==> r == Err(LoginFailure(response)))
  {
    var path := Env(io, "VAULT_KUBERNETES_PATH");
    if path == "" then Err(ErrMissingKubernetesPath)
    else if role == "" then Ok(None)
    else
      var jwtPath := if Env(io, "VAULT_TOKEN_PATH") != "" then Env(io, "VAULT_TOKEN_PATH") else ServiceAccountTokenPath;
      match io.readFile(jwtPath)
      case Err(m) => Err(Error(m))
      case Ok(jwt) => MethodLogin(io, s, path + "/login", map["jwt" := jwt, "role" := role], MaxTTL(io), true)
  }

  /**
   * setVaultIDs: the variable itself when it is set, even to "", otherwise
   * the contents of the file its _PATH variable names, or "" when that
   * cannot be read.
   */
  function VaultId(io: Io, variable: string): (id: string)
    ensures variable in io.env ==> id == io.env[variable]
    ensures variable !in io.env && io.readFile(Env(io, variable + "_PATH")).Ok? ==>
              id == io.readFile(Env(io, variable + "_PATH")).value
    ensures variable !in io.env && io.readFile(Env(io, variable + "_PATH")).Err? ==> id == ""
  {
    if variable in io.env then io.env[variable]
    else match io.readFile(Env(io, variable + "_PATH"))
      case Ok(contents) => contents
      case Err(_) => ""
  }

  /** The approle method: a role id and a secret id log in at VAULT_APP_ROLE_PATH, "auth/approle" by default. */
  function AppRoleClient(io: Io, s: Settings): (r: Result<Option<Client>, Failure>)
    ensures r.Ok? && r.value.Some? ==> Carries(r.value.value, s)
    ensures VaultId(io, "VAULT_ROLE_ID") == "" ==> r == Err(ErrMissingRoleId)
    ensures VaultId(io, "VAULT_ROLE_ID") != "" && VaultId(io, "VAULT_SECRET_ID") == "" ==> r == Err(ErrMissingSecretId)
    ensures r.Ok? ==>
              var path := if Env(io, "VAULT_APP_ROLE_PATH") != "" then Env(io, "VAULT_APP_ROLE_PATH") else DefaultAppRolePath;
              r.value.Some? && r.value.value.tokenMaxTTL == MaxTTL(io)
              && r.value.value.reauthentication == Some(path + "/login")
              && io.login(path + "/login", map["role_id" := VaultId(io, "VAULT_ROLE_ID"),
                                               "secret_id" := VaultId(io, "VAULT_SECRET_ID")]).Auth?
    ensures var loginPath := (if Env(io, "VAULT_APP_ROLE_PATH") != "" then Env(io, "VAULT_APP_ROLE_PATH") else DefaultAppRolePath) + "/login";
            var response := io.login(loginPath, map["role_id" := VaultId(io, "VAULT_ROLE_ID"),
                                                    "secret_id" := VaultId(io, "VAULT_SECRET_ID")]);
            VaultId(io, "VAULT_ROLE_ID") != "" && VaultId(io, "VAULT_SECRET_ID") != "" ==>
              (response.Auth? ==>
                 r == Ok(Some(ClientFor(io, s, response.clientToken, response.leaseDuration, MaxTTL(io), Some(loginPath)))))
              && (!response.Auth? ==> r == Err(LoginFailure(response)))
  {
    var roleId := VaultId(io, "VAULT_ROLE_ID");
    var secretId := VaultId(io, "VAULT_SECRET_ID");
    if roleId == "" then Err(ErrMissingRoleId)
    else if secretId == "" then Err(ErrMissingSecretId)
    else
      var path := if Env(io, "VAULT_APP_ROLE_PATH") != "" then Env(io, "VAULT_APP_ROLE_PATH") else DefaultAppRolePath;
      MethodLogin(io, s, path + "/login", map["role_id" := roleId, "secret_id" := secretId], MaxTTL(io), true)
  }

  /** The userpass method: the password logs in at auth/userpass/login/<user>. */
  function UserpassClient(io: Io, s: Settings): (r: Result<Option<Client>, Failure>)
    ensures r.Ok? && r.value.Some? ==> Carries(r.value.value, s)
    ensures Env(io, "VAULT_USER") == "" ==> r == Err(ErrMissingUsername)
    ensures Env(io, "VAULT_USER") != "" && Env(io, "VAULT_PASSWORD") == "" ==> r == Err(ErrMissingPassword)
    ensures r.Ok? ==>
              var loginPath := UserpassLoginPrefix + Env(io, "VAULT_USER");
              r.value.Some? && r.value.value.tokenMaxTTL == MaxTTL(io)
              && r.value.value.reauthentication == Some(loginPath)
              && io.login(loginPath, map["password" := Env(io, "VAULT_PASSWORD")]).Auth?
    ensures var loginPath := UserpassLoginPrefix + Env(io, "VAULT_USER");
            var response := io.login(loginPath, map["password" := Env(io, "VAULT_PASSWORD")]);
            Env(io, "VAULT_USER") != "" && Env(io, "VAULT_PASSWORD") != "" ==>
              (response.Auth? ==>
                 r == Ok(Some(ClientFor(io, s, response.clientToken, response.leaseDuration, MaxTTL(io), Some(loginPath)))))
              && (!response.Auth? ==> r == Err(LoginFailure(response)))
  {
    var user := Env(io, "VAULT_USER");
    var password := Env(io, "VAULT_PASSWORD");
    if user == "" then Err(ErrMissingUsername)
    else if password == "" then Err(ErrMissingPassword)
    else
      MethodLogin(io, s, UserpassLoginPrefix + user, map["password" := password], MaxTTL(io), true)
  }

  /** The azure login data: the scale set name when VAULT_AZURE_ISSCALESET is "true", otherwise the VM name. */
  function AzureLoginData(identity: AzureIdentity, role: string, isScaleset: string): (data: map<string, string>)
    ensures data.Keys == {"jwt", "role", "subscription_id", "resource_group_name",
                          if isScaleset == "true" then "vmss_name" else "vm_name"}
    ensures data["jwt"] == identity.accessToken && data["role"] == role
    ensures isScaleset == "true" ==> data["vmss_name"] == identity.vmssName
    ensures isScaleset != "true" ==> data["vm_name"] == identity.vmName
  {
    var common := map["jwt" := identity.accessToken, "role" := role,
                       "subscription_id" := identity.subscriptionId,
                       "resource_group_name" := identity.resourceGroupName];
    if isScaleset == "true" then common["vmss_name" := identity.vmssName] else common["vm_name" := identity.vmName]
  }

  /** The azure method: path "auth/azure" and role "default" unless set; no max TTL and no re-login. */
  function AzureClient(io: Io, s: Settings): (r: Result<Option<Client>, Failure>)
    ensures r.Ok? && r.value.Some? ==> Carries(r.value.value, s)
    ensures io.azureIdentity.Err? ==> r == Err(Error(io.azureIdentity.error))
    ensures r.Ok? ==>
              var path := if Env(io, "VAULT_AZURE_PATH") != "" then Env(io, "VAULT_AZURE_PATH") else DefaultAzurePath;
              var role := if Env(io, "VAULT_AZURE_ROLE") != "" then Env(io, "VAULT_AZURE_ROLE") else DefaultAzureRole;
              r.value.Some? && r.value.value.tokenMaxTTL == 0 && r.value.value.reauthentication.None?
              && io.azureIdentity.Ok?
              && io.login(path + "/login", AzureLoginData(io.azureIdentity.value, role, Env(io, "VAULT_AZURE_ISSCALESET"))).Auth?
    ensures var loginPath := (if Env(io, "VAULT_AZURE_PATH") != "" then Env(io, "VAULT_AZURE_PATH") else DefaultAzurePath) + "/login";
            var role := if Env(io, "VAULT_AZURE_ROLE") != "" then Env(io, "VAULT_AZURE_ROLE") else DefaultAzureRole;
            io.azureIdentity.Ok? ==>
              var response := io.login(loginPath, AzureLoginData(io.azureIdentity.value, role, Env(io, "VAULT_AZURE_ISSCALESET")));
              (response.Auth? ==> r == Ok(Some(ClientFor(io, s, response.clientToken, response.leaseDuration, 0, None))))
              && (!response.Auth? ==> r == Err(LoginFailure(response)))
  {
    var path := if Env(io, "VAULT_AZURE_PATH") != "" then Env(io, "VAULT_AZURE_PATH") else DefaultAzurePath;
    var role := if Env(io, "VAULT_AZURE_ROLE") != "" then Env(io, "VAULT_AZURE_ROLE") else DefaultAzureRole;
    match io.azureIdentity
    case Err(m) => Err(Error(m))
    case Ok(identity) =>
      MethodLogin(io, s, path + "/login", AzureLoginData(identity, role, Env(io, "VAULT_AZURE_ISSCALESET")), 0, false)
  }

  /** The aws method: "ec2" or "iam" login data, at VAULT_AWS_PATH or "auth/aws". */
  function AwsClient(io: Io, s: Settings): (r: Result<Option<Client>, Failure>)
    ensures r.Ok? && r.value.Some? ==> Carries(r.value.value, s)
    ensures Env(io, "VAULT_AWS_AUTH_TYPE") !in {"ec2", "iam"} ==> r == Err(ErrInvalidAwsType)
    ensures r.Ok? ==>
              var path := if Env(io, "VAULT_AWS_PATH") != "" then Env(io, "VAULT_AWS_PATH") else DefaultAwsPath;
              r.value.Some? && r.value.value.tokenMaxTTL == MaxTTL(io)
              && r.value.value.reauthentication == Some(path + "/login")
              && io.awsLoginData(Env(io, "VAULT_AWS_AUTH_TYPE")).Ok?
              && io.login(path + "/login", io.awsLoginData(Env(io, "VAULT_AWS_AUTH_TYPE")).value).Auth?
    ensures Env(io, "VAULT_AWS_AUTH_TYPE") in {"ec2", "iam"} && io.awsLoginData(Env(io, "VAULT_AWS_AUTH_TYPE")).Err? ==>
              r == Err(Error(io.awsLoginData(Env(io, "VAULT_AWS_AUTH_TYPE")).error))
    ensures var loginPath := (if Env(io, "VAULT_AWS_PATH") != "" then Env(io, "VAULT_AWS_PATH") else DefaultAwsPath) + "/login";
            Env(io, "VAULT_AWS_AUTH_TYPE") in {"ec2", "iam"} && io.awsLoginData(Env(io, "VAULT_AWS_AUTH_TYPE")).Ok? ==>
              var response := io.login(loginPath, io.awsLoginData(Env(io, "VAULT_AWS_AUTH_TYPE")).value);
              (response.Auth? ==>
                 r == Ok(Some(ClientFor(io, s, response.clientToken, response.leaseDuration, MaxTTL(io), Some(loginPath)))))
              && (!response.Auth? ==> r == Err(LoginFailure(response)))
  {
    var path := if Env(io, "VAULT_AWS_PATH") != "" then Env(io, "VAULT_AWS_PATH") else DefaultAwsPath;
    var authType := Env(io, "VAULT_AWS_AUTH_TYPE");
    if authType != "ec2" && authType != "iam" then Err(ErrInvalidAwsType)
    else match io.awsLoginData(authType)
      case Err(m) => Err(Error(m))
      case Ok(data) =>
        MethodLogin(io, s, path + "/login", data, MaxTTL(io), true)
  }

  /** The gcp method: "gce" or "iam" login data, at VAULT_GCP_PATH or "auth/gcp"; no max TTL but a re-login. */
  function GcpClient(io: Io, s: Settings): (r: Result<Option<Client>, Failure>)
    ensures r.Ok? && r.value.Some? ==> Carries(r.value.value, s)
    ensures Env(io, "VAULT_GCP_AUTH_TYPE") !in {"gce", "iam"} ==> r == Err(ErrInvalidGcpType)
    ensures r.Ok? ==>
              var path := if Env(io, "VAULT_GCP_PATH") != "" then Env(io, "VAULT_GCP_PATH") else DefaultGcpPath;
              r.value.Some? && r.value.value.tokenMaxTTL == 0
              && r.value.value.reauthentication == Some(path + "/login")
              && io.gcpLoginData(Env(io, "VAULT_GCP_AUTH_TYPE")).Ok?
              && io.login(path + "/login", io.gcpLoginData(Env(io, "VAULT_GCP_AUTH_TYPE")).value).Auth?
    ensures Env(io, "VAULT_GCP_AUTH_TYPE") in {"gce", "iam"} && io.gcpLoginData(Env(io, "VAULT_GCP_AUTH_TYPE")).Err? ==>
              r == Err(Error(io.gcpLoginData(Env(io, "VAULT_GCP_AUTH_TYPE")).error))
    ensures var loginPath := (if Env(io, "VAULT_GCP_PATH") != "" then Env(io, "VAULT_GCP_PATH") else DefaultGcpPath) + "/login";
            Env(io, "VAULT_GCP_AUTH_TYPE") in {"gce", "iam"} && io.gcpLoginData(Env(io, "VAULT_GCP_AUTH_TYPE")).Ok? ==>
              var response := io.login(loginPath, io.gcpLoginData(Env(io, "VAULT_GCP_AUTH_TYPE")).value);
              (response.Auth? ==> r == Ok(Some(ClientFor(io, s, response.clientToken, response.leaseDuration, 0, Some(loginPath)))))
              && (!response.Auth? ==> r == Err(LoginFailure(response)))
  {
    var path := if Env(io, "VAULT_GCP_PATH") != "" then Env(io, "VAULT_GCP_PATH") else DefaultGcpPath;
    var authType := Env(io, "VAULT_GCP_AUTH_TYPE");
    if authType != "gce" && authType != "iam" then Err(ErrInvalidGcpType)
    else match io.gcpLoginData(authType)
      case Err(m) => Err(Error(m))
      case Ok(data) =>
        MethodLogin(io, s, path + "/login", data, 0, true)
  }

  const AuthMethods: set<string> := {"token", "kubernetes", "approle", "userpass", "azure", "aws", "gcp"}

  /** The client of the method `authMethod` names, with settings `s`. */
  function ClientByMethod(io: Io, s: Settings, authMethod: string, kubernetesRole: string)
    : (r: Result<Option<Client>, Failure>)
    ensures authMethod !in AuthMethods ==> r == Err(ErrInvalidMethod)
    ensures r.Ok? && r.value.None? ==> authMethod == "kubernetes" && kubernetesRole == ""
    ensures r.Ok? && r.value.Some? ==> Carries(r.value.value, s)
    ensures authMethod == "token" ==> r == TokenClient(io, s)
    ensures authMethod == "kubernetes" ==> r == KubernetesClient(io, s, kubernetesRole)
    ensures authMethod == "approle" ==> r == AppRoleClient(io, s)
    ensures authMethod == "userpass" ==> r == UserpassClient(io, s)
    ensures authMethod == "azure" ==> r == AzureClient(io, s)
    ensures authMethod == "aws" ==> r == AwsClient(io, s)
    ensures authMethod == "gcp" ==> r == GcpClient(io, s)
  {
    if authMethod == "token" then TokenClient(io, s)
    else if authMethod == "kubernetes" then KubernetesClient(io, s, kubernetesRole)
    else if authMethod == "approle" then AppRoleClient(io, s)
    else if authMethod == "userpass" then UserpassClient(io, s)
    else if authMethod == "azure" then AzureClient(io, s)
    else if authMethod == "aws" then AwsClient(io, s)
    else if authMethod == "gcp" then GcpClient(io, s)
    else Err(ErrInvalidMethod)
  }

  /**
   * CreateClient for the given Kubernetes role. None without an error is the
   * kubernetes method without a role: every resource must then name its own.
   */
  function CreateClient(io: Io, kubernetesRole: string): (r: Result<Option<Client>, Failure>)
    ensures CommonSettings(io).Err? ==> r == Err(CommonSettings(io).error)
    ensures CommonSettings(io).Ok? && Env(io, "VAULT_AUTH_METHOD") !in AuthMethods ==> r == Err(ErrInvalidMethod)
    ensures r.Ok? && r.value.None? ==> Env(io, "VAULT_AUTH_METHOD") == "kubernetes" && kubernetesRole == ""
    ensures r.Ok? && r.value.Some? ==>
              CommonSettings(io).Ok? && Carries(r.value.value, CommonSettings(io).value)
              && r.value.value.rootNamespace == Env(io, "VAULT_NAMESPACE")
    ensures CommonSettings(io).Ok? ==>
              r == ClientByMethod(io, CommonSettings(io).value, Env(io, "VAULT_AUTH_METHOD"), kubernetesRole)
  {
    match CommonSettings(io)
    case Err(f) => Err(f)
    case Ok(s) => ClientByMethod(io, s, Env(io, "VAULT_AUTH_METHOD"), kubernetesRole)
  }

  // ----------------------------------------------------------------- shared

  /** What InitSharedClient leaves behind: the reconciliation interval, the shared client and the returned error. */
  datatype Shared = Shared(reconciliationTime: int, client: Option<Client>, error: Option<Failure>)

  /**
   * InitSharedClient: VAULT_RECONCILIATION_TIME in seconds, 0 when it does
   * not parse, and the client for VAULT_KUBERNETES_ROLE, nil on error.
   */
  function InitSharedClient(io: Io): (shared: Shared)
    ensures Atoi(Env(io, "VAULT_RECONCILIATION_TIME")).None? ==> shared.reconciliationTime == 0
    ensures Atoi(Env(io, "VAULT_RECONCILIATION_TIME")).Some? ==>
              shared.reconciliationTime == Atoi(Env(io, "VAULT_RECONCILIATION_TIME")).value
    ensures shared.error.Some? ==> shared.client.None?
    ensures shared.error.None? <==> CreateClient(io, Env(io, "VAULT_KUBERNETES_ROLE")).Ok?
    ensures shared.error.None? ==> shared.client == CreateClient(io, Env(io, "VAULT_KUBERNETES_ROLE")).value
  {
    var reconciliationTime := Atoi(Env(io, "VAULT_RECONCILIATION_TIME")).GetOr(0);
    match CreateClient(io, Env(io, "VAULT_KUBERNETES_ROLE"))
    case Err(f) => Shared(reconciliationTime, None, Some(f))
    case Ok(client) => Shared(reconciliationTime, client, None)
  }

  // ----------------------------------------------------------------- lemmas

  /** The requested Kubernetes role matters only to the kubernetes method. */
  lemma RoleOnlyForKubernetes(io: Io, role1: string, role2: string)
    requires Env(io, "VAULT_AUTH_METHOD") != "kubernetes"
    ensures CreateClient(io, role1) == CreateClient(io, role2)
  {
  }

  /**
   * The max TTL each method gives its client: VAULT_TOKEN_MAX_TTL (sixteen
   * days by default) for kubernetes, approle, userpass and aws; 0 for
   * token, azure and gcp. Only token and azure clients cannot log in again.
   */
  lemma MaxTTLByMethod(io: Io, role: string)
    requires CreateClient(io, role).Ok? && CreateClient(io, role).value.Some?
    ensures var c := CreateClient(io, role).value.value;
            var authMethod := Env(io, "VAULT_AUTH_METHOD");
            (authMethod in {"kubernetes", "approle", "userpass", "aws"} ==> c.tokenMaxTTL == MaxTTL(io))
            && (authMethod in {"token", "azure", "gcp"} ==> c.tokenMaxTTL == 0)
            && (c.reauthentication.None? <==> authMethod in {"token", "azure"})
  {
  }

  /**
   * A shared client from a kubernetes login: with a mount path, a role, a
   * readable service account token and a login that returns an auth block,
   * CreateClient returns the client for that token. It carries the login's
   * lease, VAULT_TOKEN_MAX_TTL and the login path to re-authenticate at, and
   * renews at half the lease and retries after 30 seconds unless configured.
   */
  lemma KubernetesLoginCreatesClient(io: Io, role: string)
    requires CommonSettings(io).Ok?
    requires Env(io, "VAULT_AUTH_METHOD") == "kubernetes" && Env(io, "VAULT_KUBERNETES_PATH") != "" && role != ""
    requires var jwtPath := if Env(io, "VAULT_TOKEN_PATH") != "" then Env(io, "VAULT_TOKEN_PATH") else ServiceAccountTokenPath;
             io.readFile(jwtPath).Ok?
             && io.login(Env(io, "VAULT_KUBERNETES_PATH") + "/login",
                         map["jwt" := io.readFile(jwtPath).value, "role" := role]).Auth?
    ensures CreateClient(io, role).Ok? && CreateClient(io, role).value.Some?
    ensures var jwtPath := if Env(io, "VAULT_TOKEN_PATH") != "" then Env(io, "VAULT_TOKEN_PATH") else ServiceAccountTokenPath;
            var loginPath := Env(io, "VAULT_KUBERNETES_PATH") + "/login";
            var response := io.login(loginPath, map["jwt" := io.readFile(jwtPath).value, "role" := role]);
            var c := CreateClient(io, role).value.value;
            c.token == response.clientToken && c.tokenLeaseDuration == response.leaseDuration
            && c.tokenMaxTTL == MaxTTL(io) && c.reauthentication == Some(loginPath)
            && Carries(c, CommonSettings(io).value)
            && (io.parseFloat(Env(io, "VAULT_TOKEN_RENEWAL_INTERVAL")).None? ==>
                  c.tokenRenewalInterval == response.leaseDuration as real / 2.0)
            && (io.parseFloat(Env(io, "VAULT_TOKEN_RENEWAL_RETRY_INTERVAL")).None? ==> c.tokenRenewalRetryInterval == 30.0)
  {
    var s := CommonSettings(io).value;
    assert CreateClient(io, role) == KubernetesClient(io, s, role);
  }

  /**
   * A shared client from a token: VAULT_TOKEN with a lease that parses gives
   * the client for that token and lease, with no max TTL and no re-login,
   * renewing at half the lease and retrying after 30 seconds unless configured.
   */
  lemma TokenCreatesClient(io: Io, role: string)
    requires CommonSettings(io).Ok?
    requires Env(io, "VAULT_AUTH_METHOD") == "token" && Env(io, "VAULT_TOKEN") != ""
    requires Atoi(Env(io, "VAULT_TOKEN_LEASE_DURATION")).Some?
    ensures CreateClient(io, role).Ok? && CreateClient(io, role).value.Some?
    ensures var c := CreateClient(io, role).value.value;
            var lease := Atoi(Env(io, "VAULT_TOKEN_LEASE_DURATION")).value;
            c.token == Env(io, "VAULT_TOKEN") && c.tokenLeaseDuration == lease
            && c.tokenMaxTTL == 0 && c.reauthentication.None?
            && Carries(c, CommonSettings(io).value)
            && (io.parseFloat(Env(io, "VAULT_TOKEN_RENEWAL_INTERVAL")).None? ==> c.tokenRenewalInterval == lease as real / 2.0)
            && (io.parseFloat(Env(io, "VAULT_TOKEN_RENEWAL_RETRY_INTERVAL")).None? ==> c.tokenRenewalRetryInterval == 30.0)
  {
    var s := CommonSettings(io).value;
    assert CreateClient(io, role) == TokenClient(io, s);
  }

  /** With both environment variables set, approle logs in with them and never reads a file. */
  lemma AppRoleIdsFromEnvironment(io: Io, s: Settings, readFile: string -> Result<string, string>)
    requires "VAULT_ROLE_ID" in io.env && "VAULT_SECRET_ID" in io.env
    ensures AppRoleClient(io, s) == AppRoleClient(io.(readFile := readFile), s)
  {
  }

  /** An empty environment defaults renewal on, namespace restriction off and a PKI renewal of one hour. */
  lemma EmptyEnvironmentDefaults(io: Io)
    requires io.env == map[] && io.newClientError.None? && io.parseDuration(DefaultPkiRenew).Ok?
    ensures CommonSettings(io) == Ok(Settings(true, io.parseDuration("1h").value, false, ""))
  {
  }
}

=== FILE: wrappers.dfy ===
/** Failure-compatible result types shared by every module of the model. */
module Wrappers {

  /** An optional value; Go's nil pointers and absent map entries become None. */
  datatype Option<+T> = None | Some(value: T) {
    function GetOr(default: T): T {
      match this
      case Some(v) => v
      case None => default
    }
  }

  /** A value or an error, usable with `:-`. Go's `(value, error)` pairs become Result. */
  datatype Result<+T, +E> = Ok(value: T) | Err(error: E) {
    predicate IsFailure() {
      Err?
    }

    function PropagateFailure<U>(): Result<U, E>
      requires Err?
    {
      Err(error)
    }

    function Extract(): T
      requires Ok?
    {
      value
    }
  }
}
